=== FILE: README.md ===
# Permit tracking: document classification and the permit-status table

This project models the core of a small web application. Business owners
use it to keep track of the municipal and sanitary permits each business
needs. The model has four parts:

- **The document-classification pipeline of the uploader.**
  - An OCR text is normalised (`Normalize`).
  - Dates are extracted from it (`ExtractDates`), over a proleptic Gregorian calendar with the rolling `new Date(y, m, d)` constructor (`Calendar`).
  - The dates are classified as the issue date or the expiry date (`ClassifyDates`).
  - The permit type is detected from a five-entry keyword table (`DetectPermit`). The
    detector is stated over any normaliser (`DetectWith`) and its lemmas hold for all of
    them; the uploader uses the instance for `normalizeText` (`DetectIn`).
  - The per-session list of uploaded files is a status machine driven by these functions. Its confirmation writes to the store (`Uploader`).
- **The correction form (`EditModal`).** A user corrects the type and dates of an uploaded file here before confirming it.
- **The authentication-error translator (`AuthErrors`).** It is an ordered chain of case-insensitive phrase rules. The model states it as a walk over a rule table (`TranslateWith`). `Translate` applies that walk to the translator's ten rules in the order of its tests.
- **The permit-status table `permisos_negocio` and its writers and readers (`Store`).** Rows are keyed on the pair (business, permit type).
  - Registering a business creates one pending row per rule of its category (`AddBusiness`).
  - Two modals add rows by hand. One upserts (`ManualPermit`). The other does a plain insert (`AddPermiso`).
  - Confirming an uploaded document upserts the row as approved (`Uploader`).
  - The Dashboard counts the rows and shows a badge per state (`Dashboard`).
  - The business page shows badges and deletes rows together with their documents and stored files (`BusinessDetails`).

The database is an immutable value (`Store.Db`). Every call that can fail for reasons outside the data (network, permissions) takes a boolean or a `Calls` record saying whether it succeeds. These are taken as parameters, not computed:

- the OCR text and the OCR progress;
- the clock;
- the random parts of names;
- the ids the database assigns;
- the `es-CL` date formatter;
- `new Date(string)`.

Three behaviours of the code are kept as written, although they look unintended:

- **Document recording in `confirmPermit`.**
  - The document record is inserted *before* the status row is upserted.
  - The record carries no link to the status row (`permiso_negocio_id` is never set).
  - A failed upsert leaves the recorded document behind.
  - As a consequence, deleting a status row on the business page never removes a document or a file that came from the uploader (`BusinessDetails.UploadedFilesStay`).
- **Out-of-range calendar dates.** `extractDates` does not drop a date that does not exist in the calendar (`31/02/2025`). `new Date` rolls it over into the next month (`Calendar.MakeDate`). Only NaN parts give an Invalid Date, and the year filter discards that.
- **The chronological fallback of `classifyDates`.** It sets the expiry date whenever there are two or more dates, even when the earliest and the latest are the same day.

Two details of `classifyDates` are kept literally:

- The position of a formatted date is searched in the original text.
- The ±100-character windows are cut from the normalised text at that same position, and the upper bound is taken from the original text's length.

## Model

| member | source | states |
|---|---|---|
| Store.Merge | src/components/PermitUploader.tsx:343-353 | An upsert on an existing row overwrites exactly the columns the payload gives; a column left out (`undefined`) keeps the old value |
| Store.OrNull | src/components/ManualPermitModal.tsx:73-74 | `value \|\| null`: an empty form field is written as null, any other as the typed text verbatim |
| Store.Upsert | src/components/PermitUploader.tsx:341-353 | Upsert on the conflict key (negocio_id, permiso_id): afterwards the key has exactly one row and every other row is unchanged. A new row takes the fresh id and the given columns, the others null. An existing row keeps its id; each given column is overwritten and each left-out column keeps its old value. The other tables are untouched |
| Store.LastWriteWins | src/components/ManualPermitModal.tsx:66-78 | Two upserts on the same key, the second giving every column, equal the second alone applied to the original table with the first write's id: the later write wins |
| Store.Insert | src/components/AddPermisoModal.tsx:85-94 | A plain insert is refused exactly when the pair already has a row, and otherwise adds the row |
| Store.InsertAll | src/pages/AddBusiness.tsx:112-116 | A batch insert succeeds exactly when its pairs are distinct and none exists yet (all rows or none) |
| Store.InsertEachKeeps | src/pages/AddBusiness.tsx:112-114 | A batch insert keeps every existing row |
| Store.InsertEachNoOthers | src/pages/AddBusiness.tsx:112-114 | A batch insert adds a row only for a pair of the batch |
| Store.InsertEachNew | src/pages/AddBusiness.tsx:112-114 | A batch insert that fits writes, for each payload, the row built from that payload and its id |
| Store.LookupSingle | src/components/PermitUploader.tsx:315-321 | `.eq('nombre', code).single()` succeeds exactly when one catalogue entry has that name, and returns that entry's id |
| Store.Named | src/components/PermitUploader.tsx:315-318 | The catalogue entries with a given name are exactly those in the catalogue carrying it |
| Store.AddDocument | src/components/PermitUploader.tsx:324-336 | Recording a document appends it and changes nothing else |
| Store.DocumentsOf | src/pages/BusinessDetails.tsx:114-117 | Selecting documents by `permiso_negocio_id` yields exactly the documents linked to that row |
| Store.DeleteDocumentsOf | src/pages/BusinessDetails.tsx:134-137 | Deleting by `permiso_negocio_id` keeps exactly the documents not linked to that row |
| Store.DeletePermitRow | src/pages/BusinessDetails.tsx:140-143 | Deleting by row id keeps exactly the rows with another id, unchanged |
| Text.Lower | src/utils/authErrors.ts:5 | `toLowerCase` keeps the length and lower-cases each character on its own |
| Text.LowerChar | src/utils/authErrors.ts:5 | Lower-casing one character leaves no upper-case ASCII letter and keeps whether it is ASCII, a word character or whitespace |
| Text.UpperChar | src/pages/Dashboard.tsx:74 | `toUpperCase` of an ASCII character is one character: the upper-case letter for a-z, the character itself otherwise |
| Text.IndexOf | src/components/PermitUploader.tsx:138 | `indexOf` gives the first position where the substring occurs, and is absent exactly when it occurs nowhere |
| Text.JsSubstring | src/components/PermitUploader.tsx:141-142 | `substring` with in-range ends is the slice between them; it is never longer than the string |
| Text.LastSegment | src/components/PermitUploader.tsx:238 | `split(sep).pop()` is the suffix after the last separator, the whole string when there is none |
| Text.LastSegmentOfJoin | src/pages/BusinessDetails.tsx:123 | The last segment of `a + sep + b` is `b` when `b` holds no separator |
| Text.FirstSegment | src/components/AddPermisoModal.tsx:44 | `split(sep)[0]` is the prefix up to the first separator and holds none |
| Text.FirstSegmentOfJoin | src/components/AddPermisoModal.tsx:44 | The first segment of `a + sep + b` is `a` when `a` holds no separator |
| Text.ReplaceFirst | src/pages/Dashboard.tsx:74 | `replace` with a one-character pattern changes only the first occurrence, keeping the length |
| Text.DecimalStringValue | src/components/PermitUploader.tsx:239 | Printing a number in decimal and reading it back gives the number |
| Text.PaddedDecimal | src/components/PermitUploader.tsx:348-349 | A number below 10^k padded with zeros to k digits is k digits long and denotes the number |
| Normalize.FoldChar | src/components/PermitUploader.tsx:69-71 | Lower-casing, NFD decomposition and accent removal of one character leave no upper-case ASCII letter and keep an already normalised character |
| Normalize.StripMark | src/components/PermitUploader.tsx:69-71 | A combining mark (U+0300 to U+036F) is removed and any other character gives at most one; every character that normalisation keeps is kept as it is, and no upper-case ASCII letter is produced from another character |
| Normalize.Scrub | src/components/PermitUploader.tsx:72 | Every character that is neither a word character nor whitespace becomes a space; the length is kept |
| Normalize.Trim | src/components/PermitUploader.tsx:74 | `trim` removes exactly the leading and trailing whitespace |
| Normalize.NormalizeText | src/components/PermitUploader.tsx:67-75 | The result has only lower-case ASCII letters, digits, `_` and single spaces, and no leading or trailing space |
| Normalize.CollapseShape | src/components/PermitUploader.tsx:72-73 | After scrubbing, collapsing whitespace leaves only normalised characters and no two spaces in a row |
| Normalize.CleanIsFixpoint | src/components/PermitUploader.tsx:67-75 | A normalised string is left unchanged by normalisation |
| Normalize.NormalizeIdempotent | src/components/PermitUploader.tsx:67-75 | Normalising twice is normalising once |
| Normalize.AccentInsensitive | src/components/PermitUploader.tsx:69-71 | Replacing a character by one that folds to the same text (an accented letter by its base letter) does not change the normalised text |
| Calendar.DaysInMonth | src/components/PermitUploader.tsx:102 | A month of the Gregorian calendar has 28 to 31 days |
| Calendar.RollDay | src/components/PermitUploader.tsx:107 | A day outside its month rolls into the neighbouring months and always gives a valid date; a day inside its month is kept as it is |
| Calendar.RollDayNumber | src/components/PermitUploader.tsx:107 | The rolled date's day number is the month's first day plus the day offset, in either direction |
| Calendar.MakeDate | src/components/PermitUploader.tsx:102 | `new Date(y, m, d)` always gives a valid calendar date |
| Calendar.MakeDateDayNumber | src/components/PermitUploader.tsx:107-109 | The date built lies `day - 1` days after the first of the month named by the (19xx-adjusted) year and the carried month index |
| Calendar.MakeDateOfValid | src/components/PermitUploader.tsx:107-109 | A valid date with a year outside 0..99 is found again by the constructor from its own year, month - 1 and day |
| Calendar.DayNumberInjective | src/components/PermitUploader.tsx:133 | Two valid dates with the same time are the same date |
| Calendar.YearBounds | src/components/PermitUploader.tsx:133 | A date of an earlier year comes earlier in time |
| Calendar.MonthBounds | src/components/PermitUploader.tsx:133 | A date of an earlier month of the same year comes earlier in time |
| Calendar.IsoDay | src/components/PermitUploader.tsx:348-349 | The day part of `toISOString()` holds no `T` |
| Calendar.IsoDayRoundTrip | src/components/PermitUploader.tsx:348-349 | The ISO day written for a date of a four-digit year reads back as the same date |
| ExtractDates.NumericAt | src/components/PermitUploader.tsx:83 | A numeric match has three all-digit groups of the pattern's widths, ending inside the text |
| ExtractDates.SpelledAt | src/components/PermitUploader.tsx:84 | A spelled match has a digit group, a word of word characters and a four-digit year |
| ExtractDates.MatchAt | src/components/PermitUploader.tsx:83-85 | A match of each of the three patterns has that pattern's group shapes |
| ExtractDates.Scan | src/components/PermitUploader.tsx:93-95 | The global scan of one of the three patterns is the scan over that pattern's matcher; every match it finds has the pattern's group shapes |
| ExtractDates.ScanWith | src/components/PermitUploader.tsx:94-95 | Every match the `exec` loop yields is the matcher's match at some position at or after the start |
| ExtractDates.ScanEmpty | src/components/PermitUploader.tsx:94-95 | The loop yields nothing exactly when no match starts at or after the start |
| ExtractDates.ScanLeftmost | src/components/PermitUploader.tsx:94-95 | A non-empty loop yields the leftmost match first and goes on from that match's end |
| ExtractDates.Matcher | src/components/PermitUploader.tsx:83-85 | The matcher of a pattern gives the pattern's match at every position of the text, and each match ends after its start and inside the text |
| ExtractDates.ParseInt | src/components/PermitUploader.tsx:99-105 | `parseInt` of a string of decimal digits is the number the digits denote; it is NaN when the string does not start with a digit, and never negative |
| ExtractDates.MonthNumber | src/components/PermitUploader.tsx:88-91 | A month name of the table gives a month from 1 to 12 |
| ExtractDates.KeepInWindow | src/components/PermitUploader.tsx:118 | Every kept date has a year from 2020 to 2030 and is one of the pushed dates; every pushed date in the window is kept; nothing is added |
| ExtractDates.KeepInWindowAppend | src/components/PermitUploader.tsx:118 | The filter works element by element and keeps the order: filtering a concatenation concatenates the filtered parts |
| ExtractDates.KeepInWindowSingle | src/components/PermitUploader.tsx:118 | A single date is kept, as its calendar date, exactly when it is valid with a year from 2020 to 2030 |
| ExtractDates.Extract | src/components/PermitUploader.tsx:77-119 | Every extracted date has a year from 2020 to 2030 |
| ExtractDates.ExtractInPatternOrder | src/components/PermitUploader.tsx:82-118 | The result lists the kept dates of the day-first pattern, then of the spelled-out pattern, then of the year-first pattern, each in scan order |
| ExtractDates.NewDate | src/components/PermitUploader.tsx:102-109 | `new Date(y, m, d)` is an Invalid Date exactly when one of its arguments is NaN |
| ExtractDates.DateOfMatch | src/components/PermitUploader.tsx:97-110 | A match whose middle group is a month name always pushes a date; any other pushes one exactly when its first or its last group reads as a number above 1900 |
| ExtractDates.PushedDates | src/components/PermitUploader.tsx:95-115 | Every pushed date is the date of one of the matches, and every match that yields a date has it pushed |
| ExtractDates.SmallNumber | src/components/PermitUploader.tsx:83-85 | A group of at most two digits is below 100, so it is never read as a year |
| ExtractDates.DayFirstReading | src/components/PermitUploader.tsx:106-107 | A `d/m/yyyy` match is read day, month, year when the year exceeds 1900, and pushes nothing otherwise |
| ExtractDates.DayFirstExactDate | src/components/PermitUploader.tsx:106-107 | A `d/m/yyyy` match spelling a real date after 1900 yields exactly that date |
| ExtractDates.YearFirstReading | src/components/PermitUploader.tsx:108-109 | A `yyyy-m-d` match is read year, month, day when the year exceeds 1900, and pushes nothing otherwise |
| ExtractDates.YearFirstExactDate | src/components/PermitUploader.tsx:108-109 | A `yyyy-m-d` match spelling a real date after 1900 yields exactly that date |
| ExtractDates.NotAMonth | src/components/PermitUploader.tsx:97 | An all-digit group is never a month name, so numeric matches take the numeric branch |
| ExtractDates.SpelledReading | src/components/PermitUploader.tsx:97-102 | A `d de <mes> de yyyy` match with a month of the table takes the table's month, and a day inside that month gives exactly that date |
| ExtractDates.UnknownMonthDropped | src/components/PermitUploader.tsx:97-118 | A spelled match whose word is no month name and does not start with a digit yields an Invalid Date (or nothing), which the year filter drops |
| ExtractDates.SpelledDigitWord | src/components/PermitUploader.tsx:97-110 | A spelled match whose word starts with a digit is read as a number: the word is the month, the four-digit group the year and the first group the day when the year is above 1900, and nothing is pushed otherwise |
| ExtractDates.DigitWordKept | src/components/PermitUploader.tsx:84-118 | `5 de 3 de 2025` matches the spelled pattern and yields the fifth of March 2025, a date the year filter keeps |
| ClassifyDates.AnyKeyword | src/components/PermitUploader.tsx:144-149 | A role's keyword test holds exactly when one of its keywords occurs in one of the two windows |
| ClassifyDates.Before | src/components/PermitUploader.tsx:141 | The window before a date is the at most 100 characters of the normalised text that precede its position |
| ClassifyDates.After | src/components/PermitUploader.tsx:142 | The window after a date is at most 100 characters of the normalised text from its position, cut at the length of the original text |
| ClassifyDates.HasRole | src/components/PermitUploader.tsx:137-149 | Only a date whose formatted string occurs in the original text can have a role |
| ClassifyDates.FirstIndex | src/components/PermitUploader.tsx:151-152 | The role goes to the first date, in input order, that has it; no date has it exactly when none is found |
| ClassifyDates.FirstWithRole | src/components/PermitUploader.tsx:151-152 | A role found by keyword is one of the input dates |
| ClassifyDates.Earliest | src/components/PermitUploader.tsx:133-158 | `sortedDates[0]` is an input date no later than any other |
| ClassifyDates.Latest | src/components/PermitUploader.tsx:133-160 | `sortedDates[length - 1]` is an input date no earlier than any other |
| ClassifyDates.Classify | src/components/PermitUploader.tsx:121-165 | No date gives no role, one date is the issue date with no expiry, every role is an input date, and with two or more dates at least one role is set |
| ClassifyDates.ClassifyByKeywords | src/components/PermitUploader.tsx:151-162 | A role found by keyword is kept and the other stays absent; with no keyword hit, issue is the earliest and expiry the latest date, even when equal |
| ClassifyDates.NoDateInTextFallsBack | src/components/PermitUploader.tsx:138-162 | When no formatted date occurs in the text, only the chronological fallback applies |
| ClassifyDates.FirstWhere | src/components/PermitUploader.tsx:151-152 | For any test: the position of the first date passing it, every earlier date failing it; none exactly when no date passes |
| ClassifyDates.FirstWhereSnoc | src/components/PermitUploader.tsx:151-152 | Appending a date never moves the first position found; with none found, the new date's position is taken exactly when it passes |
| ClassifyDates.FirstWithRoleSnoc | src/components/PermitUploader.tsx:151-152 | A role already set stays; an unset role is taken by the next date having it |
| ClassifyDates.Windows | src/components/PermitUploader.tsx:137-149 | One step of the keyword pass: the date's windows hold a role's keyword exactly when the date has that role, and only a date found in the text has one |
| ClassifyDates.ClassifyLoop | src/components/PermitUploader.tsx:129-164 | The `forEach` with two set-once variables followed by the fallback computes the reference classification |
| DetectPermit.Needles | src/components/PermitUploader.tsx:172 | Keywords are compared in their normalised form, one needle per keyword |
| DetectPermit.MatchCount | src/components/PermitUploader.tsx:171-173 | An entry's count of keywords found is at most its number of keywords |
| DetectPermit.MatchCountPositive | src/components/PermitUploader.tsx:171-175 | The count is positive exactly when one of the normalised keywords occurs |
| DetectPermit.EntryMatches | src/components/PermitUploader.tsx:171-175 | An entry matches exactly when one of its keywords is found in the normalised text |
| DetectPermit.Confidence | src/components/PermitUploader.tsx:176 | `min(k/n + 0.5, 1)` lies in [0.5, 1], exceeds 0.5 exactly when a keyword is found, and is 1 exactly when at least half of them are |
| DetectPermit.ConfidenceMonotone | src/components/PermitUploader.tsx:176 | For a fixed entry, more keywords found never lowers the confidence |
| DetectPermit.FirstMatching | src/components/PermitUploader.tsx:170-179 | The chosen entry is the first in table order with a keyword found; none is chosen exactly when no entry has one |
| DetectPermit.TableWellFormed | src/components/PermitUploader.tsx:44-65 | Every entry of the table has keywords, so the confidence is defined |
| DetectPermit.DetectWith | src/components/PermitUploader.tsx:167-182 | A detection has a confidence strictly above 0.5 and at most 1 |
| DetectPermit.DetectIn | src/components/PermitUploader.tsx:167-182 | A detection over `normalizeText` has a confidence above 0.5 and at most 1, and carries the code and name of an entry of the table |
| DetectPermit.DetectNoneIff | src/components/PermitUploader.tsx:170-181 | Nothing is detected exactly when no keyword of any entry is found in the normalised text |
| DetectPermit.DetectFirstMatch | src/components/PermitUploader.tsx:170-177 | A detection carries the code and name of the first entry with a keyword found, every earlier entry having none, and that entry's confidence |
| DetectPermit.CodesDistinct | src/components/PermitUploader.tsx:44-65 | The five codes are distinct, so a code names one entry |
| Uploader.UpdateWhere | src/components/PermitUploader.tsx:186-188 | A replace-by-id update keeps the length and changes exactly the items with the id |
| Uploader.UnknownIdUnchanged | src/components/PermitUploader.tsx:194-196 | An update for an id no item carries leaves the list unchanged |
| Uploader.UpdateKeepsIds | src/components/PermitUploader.tsx:209-221 | An update that keeps ids keeps the id of every item |
| Uploader.Drop | src/components/PermitUploader.tsx:276-284 | Dropping files appends one uploading item with progress 0 per file, in order, after the unchanged list |
| Uploader.NewItems | src/components/PermitUploader.tsx:277-282 | One new uploading item with progress 0 per accepted file, with the id drawn for it |
| Uploader.Remove | src/components/PermitUploader.tsx:404-406 | `removeFile` keeps exactly the items with another id |
| Uploader.RemoveAppend | src/components/PermitUploader.tsx:405 | Removal from a concatenation is the concatenation of the removals |
| Uploader.RemoveKeepsOrder | src/components/PermitUploader.tsx:405 | Removal distributes over any split of the list, so the remaining items keep their order |
| Uploader.RemoveUnknown | src/components/PermitUploader.tsx:405 | Removing an id no item carries keeps the list |
| Uploader.OcrProgressValue | src/components/PermitUploader.tsx:193 | The recognition progress for a recogniser progress in [0, 1] lies between 30 and 80, from 30 at the start to 80 at the end |
| Uploader.OcrProgressMonotone | src/components/PermitUploader.tsx:193 | The recognition progress never decreases as the recogniser advances |
| Uploader.Recognize | src/components/PermitUploader.tsx:205-221 | After recognition the item is detected exactly when a type is found, otherwise failed with the not-detected message and no detection; progress is 100 |
| Uploader.RecognizeDetected | src/components/PermitUploader.tsx:205-218 | A detected item carries the detected type, name and confidence and the dates classified from the same text |
| Uploader.UploadFileOthers | src/components/PermitUploader.tsx:236-274 | An upload changes only the items with its id |
| Uploader.UploadFileRefused | src/components/PermitUploader.tsx:246-272 | A refused storage upload leaves the storage unchanged and marks the item with the upload error at progress 100 |
| Uploader.UploadFileStored | src/components/PermitUploader.tsx:238-261 | A stored upload adds its path, records the public URL of that path, and ends detected exactly when a type is found, or with the processing error when recognition fails |
| Uploader.UploadFile | src/components/PermitUploader.tsx:236-274 | An upload keeps the length of the list; the storage only grows, and only by the upload's own path; a refused upload leaves it as it was |
| Uploader.StoredNameExtension | src/components/PermitUploader.tsx:238-239 | The stored name keeps the file's extension |
| Uploader.StoredNameStamp | src/components/PermitUploader.tsx:239 | The stored name starts with the time stamp in decimal followed by `_` |
| Uploader.UploadPathParts | src/components/PermitUploader.tsx:240 | The path starts with `docs/`; the business id and the stored name can be read back from it when they hold no `/` |
| Uploader.PublicUrlEndsInPath | src/components/PermitUploader.tsx:252-254 | The public URL ends in `/` and the path |
| Uploader.Find | src/components/PermitUploader.tsx:307 | `find` returns an item with the id, and nothing exactly when no item has it |
| Uploader.DateColumn | src/components/PermitUploader.tsx:348-349 | A missing date is left out of the payload; a present one is written as its ISO day |
| Uploader.Chosen | src/components/PermitUploader.tsx:310 | The editor's choice replaces the detection wholesale; without a choice the detection is used, if there is one |
| Uploader.ConfirmPayload | src/components/PermitUploader.tsx:343-350 | The payload is on the pair (business, looked-up permit); it gives every column exactly when both dates are known, and never writes null over a date |
| Uploader.Confirm | src/components/PermitUploader.tsx:301-376 | A confirmation never touches the catalogue or the storage and keeps the list length. Unless the item is found with a URL, a permit is chosen, its code (`type`) is the `nombre` of exactly one catalogue entry and the lookup and document insert succeed, nothing changes at all. When they do, exactly one unlinked document is appended. A failed upsert changes neither the list nor the status rows; when all three calls succeed the items with the id are confirmed |
| Uploader.ConfirmSucceeds | src/components/PermitUploader.tsx:313-359 | With the data ready and all three calls succeeding, the items with the id are confirmed and the rest of the list is kept. The document is recorded with the file's name, type, URL and size and the permit's label, unlinked. The pair's status row becomes approved with the confirmation step and the chosen dates, an absent date keeping the row's current one, and every other row stays |
| Uploader.ConfirmNoop | src/components/PermitUploader.tsx:307-311 | Confirming does nothing when the item is missing, has no URL, or has neither choice nor detection |
| Uploader.ConfirmOutcome | src/components/PermitUploader.tsx:301-376 | Only the item's status can change. It becomes confirmed only when all three calls succeed. The status row for the looked-up permit is then approved, with the fixed step and the chosen dates. The new document is not linked to a status row |
| Uploader.ModalConfirm | src/components/PermitUploader.tsx:383-394 | With no file being edited the editor's confirmation does nothing |
| Uploader.ModalDelete | src/components/PermitUploader.tsx:396-402 | Deleting from the editor removes exactly the items with the edited id, and nothing with none |
| EditModal.OptionsMatchMappings | src/components/PermitEditModal.tsx:45-51 | The five options coincide, in order, with the detector's codes and names |
| EditModal.Reset | src/components/PermitEditModal.tsx:67-77 | Opening the form resets it to the initial type, or '' when missing, and to the initial dates |
| EditModal.FindOption | src/components/PermitEditModal.tsx:56 | The option found carries the value; none is found exactly when no option has it |
| EditModal.HandleConfirm | src/components/PermitEditModal.tsx:53-65 | Nothing is emitted for an empty type; something is emitted exactly when the type is one of the options, with the type and the dates unchanged |
| EditModal.ConfirmNamesOption | src/components/PermitEditModal.tsx:59-64 | The emitted name is exactly the label of the option with the chosen type |
| EditModal.ExpiryAfterIssue | src/components/PermitEditModal.tsx:164 | With an issue date chosen, the expiry picker disables exactly the days before it |
| EditModal.PickersAgainstToday | src/components/PermitEditModal.tsx:135-164 | With the clock inside today: the issue picker disables exactly the days after today; without an issue date the expiry picker disables every earlier day, no later day, and today itself once its midnight has passed |
| EditModal.ConfirmEnabledNeeded | src/components/PermitEditModal.tsx:181 | A disabled Confirm never emits; an emission implies Confirm was enabled |
| EditModal.DatesNotRevalidated | src/components/PermitEditModal.tsx:59-64 | An issue date the picker would refuse still passes through unchanged |
| AuthErrors.Matches | src/utils/authErrors.ts:8 | A rule matches exactly when one of its phrases occurs in the lower-cased message |
| AuthErrors.FirstPassing | src/utils/authErrors.ts:8-46 | For any test: the position of the first rule passing it, every earlier rule failing it; none exactly when no rule passes |
| AuthErrors.FirstRule | src/utils/authErrors.ts:8-46 | The deciding rule is the first in order that matches; none decides exactly when no rule matches |
| AuthErrors.Outputs | src/utils/authErrors.ts:3-46 | The possible texts are the unknown-error text and each rule's translation |
| AuthErrors.TranslateWith | src/utils/authErrors.ts:2-50 | A missing or empty message gives 'Error desconocido'; the result is a fixed text or the message itself |
| AuthErrors.Translate | src/utils/authErrors.ts:1-50 | A missing or empty message gives 'Error desconocido'; otherwise the translation is one of the eleven fixed Spanish texts or the original message |
| AuthErrors.RulesOutputFixed | src/utils/authErrors.ts:3-46 | The translator's rules produce exactly the eleven fixed texts, the unknown-error text first and then the rules' in the order of its tests |
| AuthErrors.FirstRuleWins | src/utils/authErrors.ts:8-46 | When rule j matches and no earlier one does, the translation is rule j's |
| AuthErrors.SecondRuleWins | src/utils/authErrors.ts:8-14 | When the second rule matches and the first does not, the second rule's text is given |
| AuthErrors.NoRuleKeepsMessage | src/utils/authErrors.ts:49 | When no rule matches, the message is returned verbatim, not lower-cased |
| AuthErrors.CasingIrrelevant | src/utils/authErrors.ts:5 | Two messages equal up to casing get the same translation |
| AuthErrors.InvalidCredentials | src/utils/authErrors.ts:8-10 | Either credentials phrase, in any casing, gives the wrong-credentials text |
| AuthErrors.ExpiredLinkText | src/utils/authErrors.ts:36-38 | A broken-link or expired-token phrase, with no earlier rule matching, gives the expired-link text |
| AuthErrors.ConfirmationBeatsRateLimit | src/utils/authErrors.ts:8-42 | A message naming both an unconfirmed email and too many requests, and neither credentials phrase, gets the confirmation text |
| ManualPermit.Payload | src/components/ManualPermitModal.tsx:68-78 | The upsert payload is on the pair (business, chosen permit) and gives every column |
| ManualPermit.Close | src/components/ManualPermitModal.tsx:102-107 | Closing clears the selection and both dates |
| ManualPermit.Submit | src/components/ManualPermitModal.tsx:59-100 | Without a selection or a user nothing is written; a failed call changes nothing; success closes the form |
| ManualPermit.SubmitWritesPending | src/components/ManualPermitModal.tsx:66-78 | A successful submission leaves one row for the pair, pending and required with the fixed step, the dates as typed or null, the old row id, and no other row changed |
| ManualPermit.ManualAfterConfirm | src/components/ManualPermitModal.tsx:66-78 | Adding by hand after a confirmation of the same pair resets the row to pending and required, keeping its id |
| ManualPermit.DisabledWritesNothing | src/components/ManualPermitModal.tsx:59-107 | The submit button is disabled for a form without a selection, whether or not a call runs; a closed form has none; a submission without one writes nothing |
| ManualPermit.EnabledSubmitAdds | src/components/ManualPermitModal.tsx:59-100 | A form the idle button accepts is added when a user is signed in and the call succeeds |
| AddPermiso.Open | src/components/AddPermisoModal.tsx:40-46 | Opening seeds the issue date with the part of the current ISO timestamp before the `T`, keeping the other fields |
| AddPermiso.OpenSeedsDay | src/components/AddPermisoModal.tsx:44 | A timestamp of a day and a time seeds exactly that day, which reads back as the same date |
| AddPermiso.Payload | src/components/AddPermisoModal.tsx:87-94 | The insert payload is on the chosen pair and leaves the status out |
| AddPermiso.Close | src/components/AddPermisoModal.tsx:109-116 | Closing resets all five fields to '' |
| AddPermiso.Submit | src/components/AddPermisoModal.tsx:76-107 | A row is added exactly when both selections are made, the call succeeds and the pair has no row yet; otherwise nothing changes; success clears the form |
| AddPermiso.SubmitAddsRow | src/components/AddPermisoModal.tsx:85-94 | A successful submission adds one pending row for the new pair with the typed fields or null and no status, leaving the other rows unchanged |
| AddPermiso.InsertNeverOverwrites | src/components/AddPermisoModal.tsx:85-94 | Unlike an upsert, which would reset the row to pending, the insert leaves an existing row of the pair unchanged |
| AddBusiness.RulesOf | src/pages/AddBusiness.tsx:88-98 | The rules looked up are exactly those of the chosen category |
| AddBusiness.RowFor | src/pages/AddBusiness.tsx:104-110 | The row built from a rule is on the pair (new business, rule's permit) |
| AddBusiness.Rows | src/pages/AddBusiness.tsx:104-110 | One row per rule, in rule order |
| AddBusiness.RowsIgnoreMandatory | src/pages/AddBusiness.tsx:88-110 | Whether a rule is mandatory, or anything but its permit id, does not reach the rows |
| AddBusiness.Submit | src/pages/AddBusiness.tsx:65-118 | Without a user nothing happens and a failed business insert changes nothing. A registration succeeds exactly when there is a user, the business insert and the rule lookup succeed, the rows fit (their pairs are distinct and new) and, when the category has rules, the row insert succeeds |
| AddBusiness.BusinessErrorStops | src/pages/AddBusiness.tsx:85 | A failed business insert stops everything, whatever the later calls would do |
| AddBusiness.BusinessNotRolledBack | src/pages/AddBusiness.tsx:73-85 | Once inserted, the business stays whatever happens next |
| AddBusiness.NoRulesNoRows | src/pages/AddBusiness.tsx:103 | A category without rules creates no status row |
| AddBusiness.CreatedRows | src/pages/AddBusiness.tsx:103-117 | After a registration every rule has its row: pending, no expiry, the first step, no status or issue date; no other row is added and the existing rows are untouched |
| Dashboard.Count | src/pages/Dashboard.tsx:142 | `filter(p).length` is at most the number of rows |
| Dashboard.CountAppend | src/pages/Dashboard.tsx:142 | Counting distributes over concatenation |
| Dashboard.CountPositive | src/pages/Dashboard.tsx:142 | The count is positive exactly when some row satisfies the test, and full exactly when all do |
| Dashboard.CountDisjoint | src/pages/Dashboard.tsx:142-156 | Counts of two exclusive tests never add up to more than the rows |
| Dashboard.StatsOf | src/pages/Dashboard.tsx:129-176 | Total is the number of rows; approved plus pending never exceed it; due-soon is at most it |
| Dashboard.NoExpiryNeverDue | src/pages/Dashboard.tsx:171 | Rows without an expiry date are never counted as due soon |
| Dashboard.StatsOfSnoc | src/pages/Dashboard.tsx:129-176 | Adding a row adds one to the total and one to exactly the counters whose test it passes (approved, pending, expiry within 30 days of now) |
| Dashboard.ConfigOf | src/pages/Dashboard.tsx:64-73 | A known state gets its own look, an unknown or null one the pending look |
| Dashboard.UnknownLooksPending | src/pages/Dashboard.tsx:73 | A state outside the five looks like pending |
| Dashboard.Badge | src/pages/Dashboard.tsx:73-74 | The badge has the state's look; its text exists exactly when the state is not null |
| Dashboard.LabelShape | src/pages/Dashboard.tsx:74 | For an ASCII state the label keeps the length, upper-cases the first character, and after it replaces only the first `_` by a space |
| Dashboard.FormatFecha | src/pages/Dashboard.tsx:84-87 | A missing or empty date reads "No definida"; any other goes to the locale formatter |
| Dashboard.ExpiryCell | src/pages/Dashboard.tsx:84-87 | A confirmed row with an expiry shows that ISO day formatted; one without shows "No definida" |
| BusinessDetails.BadgeOf | src/pages/BusinessDetails.tsx:164-189 | Status 'approved' gives the green Aprobado badge whatever the state; otherwise the badge is never green |
| BusinessDetails.SameLookOnBothPages | src/pages/BusinessDetails.tsx:182 | Without the approved status the badge has the same look as on the Dashboard, pending for an unknown state |
| BusinessDetails.BadgeFallbacks | src/pages/BusinessDetails.tsx:173-182 | An unknown state reads Pendiente; a row written by a confirmation reads Aprobado through either column |
| BusinessDetails.RemovalPath | src/pages/BusinessDetails.tsx:122-127 | The removal path is `docs/{business}/{last segment of the URL}`, skipped for an empty URL or an empty last segment |
| BusinessDetails.RemovalPathRoundTrip | src/pages/BusinessDetails.tsx:123-127 | The removal path of an uploaded file's public URL equals the path it was uploaded to |
| BusinessDetails.RemovalPaths | src/pages/BusinessDetails.tsx:120-131 | The paths removed are exactly the removal paths of the linked documents that have one |
| BusinessDetails.DeletePermit | src/pages/BusinessDetails.tsx:111-162 | Only the final row delete decides success; the catalogue is untouched and storage only shrinks |
| BusinessDetails.DeleteAll | src/pages/BusinessDetails.tsx:111-145 | When every call succeeds, the row, its linked documents and their files are gone, everything else stays, and removed files lie under the business's folder |
| BusinessDetails.OnlyLastErrorReported | src/pages/BusinessDetails.tsx:114-145 | The outcome does not depend on the reads, removals or document delete |
| BusinessDetails.UploadedFilesStay | src/pages/BusinessDetails.tsx:114-137 | Deleting a row whose documents all came from the uploader removes no document and no stored file |

## Left out

- OCR (`createWorker`, `recognize`): the recognised text is an argument of `Uploader.UploadFile`. The progress events are a real in [0, 1] (`Uploader.OcrProgressValue`).
- `Uploader.UploadFile`: the progress updates of the recogniser (30 to 80) are not among the states it returns. The final recognition step sets the progress to 100 whatever they were, so they do not change its result; `Uploader.OcrProgressValue` states the value the callback writes.
- The network and the storage service beyond the abstract store: the success of each call is a parameter. A public URL is assumed to be a base, a `/` and the path, and nothing else.
- Concurrency: the asynchronous steps of several uploads can interleave, but they are modelled as sequential replace-by-id steps.
- The loading flags and the toasts. All rendering, the dropzone's accepted types and size limit, and navigation are left out too.
- The list fetches of the pages and modals (`fetchPermits`, `fetchNegocios` and the like), which only read tables into the view.
- The clock, `Date.now()`, `Math.random()`, the ids the database assigns, `toLocaleDateString('es-CL')` and `new Date(string)` are parameters.
  - The Dashboard evaluates `new Date()` once per row; the model uses one `now` for all rows.
- Time zones: a picked day is compared as its local midnight on the clock's scale, and `toISOString()` is taken to print the picked calendar day.
- `Text.LowerChar`, `Normalize.FoldChar`: case mapping and NFD decomposition are modelled for ASCII and Latin-1 only; other scripts are not modelled.
- `Text.UpperChar`: multi-character upper-case expansions outside Latin-1 are not modelled.
- `charAt`, `slice` and `substring` work on UTF-16 units; the model treats each character as one unit, so characters outside the Basic Multilingual Plane are not modelled.
- Prototype keys: `variants['constructor']` and `'__proto__' in months` are truthy in JavaScript. For the months, both paths give an Invalid Date that the filter drops, so nothing changes. For the badges, `variants['constructor']` is the `Object` function, which is truthy and has no `variant`, `icon` or `label`. So the Dashboard shows a badge in the default style with no icon, and the business page shows a badge with no text; nothing fails. The model gives such a state the pending look instead.
- The ±8.64e15 ms range of a JavaScript `Date` is not modelled. Such dates lie far outside the 2020–2030 window anyway.
- `DetectPermit.Confidence`: exact real arithmetic instead of floating point.
- Column defaults of the database (the `status` of a row inserted without it) are taken as null.
- `Dashboard.Badge`: for a null state the page throws while rendering. The model gives no text.
- `AuthErrors.ExpiredLinkText`: assumes that the seven earlier rules do not match, rather than listing their phrases.
- `Dashboard.LabelShape`: stated for ASCII states only. A state starting with `_` has that `_` turned into a space too, so two underscores can be replaced.

=== FILE: add_business.dfy ===
/** `AddBusiness`: registering a business, then creating one pending
    status row for every permit rule of its category (`reglas_permisos`
    filtered by `rubro_id`). The three calls run one after the other and
    nothing is undone when a later one fails. */
module AddBusiness {
  import opened Options
  import opened Store

  const FirstStep: seq<char> := "Iniciar trámite en la municipalidad correspondiente"

  datatype Business = Business(id: seq<char>, userId: seq<char>, nombre: seq<char>,
                               comuna: seq<char>, rubro: seq<char>, direccion: seq<char>)

  /** A row of `reglas_permisos`: the category, the permit type and whether
      the permit is mandatory. */
  datatype PermitRule = PermitRule(rubro: seq<char>, permiso: seq<char>, mandatory: bool)

  datatype World = World(businesses: seq<Business>, rules: seq<PermitRule>, db: Db)

  datatype Form = Form(nombre: seq<char>, comuna: seq<char>, rubro: seq<char>, direccion: seq<char>)

  /** Which calls fail for reasons outside the data. */
  datatype Calls = Calls(businessOk: bool, rulesOk: bool, permitsOk: bool)

  /** The rules of a category, in table order. */
  function RulesOf(rules: seq<PermitRule>, rubro: seq<char>): (r: seq<PermitRule>)
    ensures forall x :: x in r <==> x in rules && x.rubro == rubro
    ensures |r| <= |rules|
  {
    if |rules| == 0 then []
    else (if rules[0].rubro == rubro then [rules[0]] else []) + RulesOf(rules[1..], rubro)
  }

  /** The row built from one rule: only its permit id is used. */
  function RowFor(businessId: seq<char>, rule: PermitRule): (p: PermitPayload)
    ensures KeyOf(p) == Key(businessId, rule.permiso)
  {
    PermitPayload(businessId, rule.permiso, Given(Some("pendiente")), Absent, Absent, Given(None), Given(Some(FirstStep)))
  }

  /** `reglas.map(...)`: one row per rule, in rule order. */
  function Rows(businessId: seq<char>, rules: seq<PermitRule>): (r: seq<PermitPayload>)
    ensures |r| == |rules|
    ensures forall i :: 0 <= i < |rules| ==> r[i] == RowFor(businessId, rules[i])
  {
    if |rules| == 0 then [] else [RowFor(businessId, rules[0])] + Rows(businessId, rules[1..])
  }

  /** Whether a rule is mandatory, and anything else about it but its
      permit id, does not reach the rows. */
  lemma {:induction false} RowsIgnoreMandatory(businessId: seq<char>, a: seq<PermitRule>, b: seq<PermitRule>)
    requires |a| == |b| && forall i :: 0 <= i < |a| ==> a[i].permiso == b[i].permiso
    ensures Rows(businessId, a) == Rows(businessId, b)
    decreases |a|
  {
    if |a| > 0 {
      RowsIgnoreMandatory(businessId, a[1..], b[1..]);
    }
  }

  datatype Registration = Created(businessId: seq<char>) | Failed | NoUser

  /** `handleSubmit`. `businessId` is the id the database gives the new
      business and `rowIds` those of the status rows. */
  function Submit(w: World, user: Option<seq<char>>, f: Form, businessId: seq<char>,
                  rowIds: seq<seq<char>>, calls: Calls): (r: (World, Registration))
    requires |rowIds| == |RulesOf(w.rules, f.rubro)|
    ensures user.None? ==> r == (w, NoUser)
    ensures !calls.businessOk ==> r.0 == w
    ensures r.0.rules == w.rules
    ensures r.1.Created? ==> r.1.businessId == businessId && user.Some? && calls.businessOk && calls.rulesOk
    ensures r.1.Created? <==>
              && user.Some? && calls.businessOk && calls.rulesOk
              && BatchFits(w.db, Rows(businessId, RulesOf(w.rules, f.rubro)))
              && (RulesOf(w.rules, f.rubro) == [] || calls.permitsOk)
  {
    if user.None? then (w, NoUser)
    else if !calls.businessOk then (w, Failed)
    else
      var registered := w.(businesses := w.businesses + [Business(businessId, user.value, f.nombre, f.comuna, f.rubro, f.direccion)]);
      if !calls.rulesOk then (registered, Failed)
      else
        var rules := RulesOf(w.rules, f.rubro);
        if |rules| == 0 then (registered, Created(businessId))
        else match InsertAll(w.db, Rows(businessId, rules), rowIds)
          case None => (registered, Failed)
          case Some(db) =>
            if calls.permitsOk then (registered.(db := db), Created(businessId)) else (registered, Failed)
  }

  /** A failed business insert stops everything: the outcome does not
      depend on whether the rule lookup or the row insert would succeed. */
  lemma BusinessErrorStops(w: World, user: Option<seq<char>>, f: Form, businessId: seq<char>,
                           rowIds: seq<seq<char>>, rulesOk: bool, permitsOk: bool)
    requires |rowIds| == |RulesOf(w.rules, f.rubro)| && user.Some?
    ensures Submit(w, user, f, businessId, rowIds, Calls(false, rulesOk, permitsOk)) == (w, Failed)
  {
  }

  /** Once the business is inserted it stays, whatever happens next. */
  lemma BusinessNotRolledBack(w: World, user: Option<seq<char>>, f: Form, businessId: seq<char>,
                              rowIds: seq<seq<char>>, calls: Calls)
    requires |rowIds| == |RulesOf(w.rules, f.rubro)| && user.Some? && calls.businessOk
    ensures Submit(w, user, f, businessId, rowIds, calls).0.businesses
            == w.businesses + [Business(businessId, user.value, f.nombre, f.comuna, f.rubro, f.direccion)]
  {
  }

  /** A category without rules creates no status row. */
  lemma NoRulesNoRows(w: World, user: Option<seq<char>>, f: Form, businessId: seq<char>,
                      rowIds: seq<seq<char>>, calls: Calls)
    requires |rowIds| == |RulesOf(w.rules, f.rubro)| && RulesOf(w.rules, f.rubro) == []
    ensures Submit(w, user, f, businessId, rowIds, calls).0.db == w.db
  {
  }

  /** After a successful registration, every rule of the category has its
      status row for the new business: pending, with no expiry, the first
      step to take, and no status or issue date; no other row is added and
      the existing rows are untouched. */
  lemma CreatedRows(w: World, user: Option<seq<char>>, f: Form, businessId: seq<char>,
                    rowIds: seq<seq<char>>, calls: Calls)
    requires |rowIds| == |RulesOf(w.rules, f.rubro)|
    requires Submit(w, user, f, businessId, rowIds, calls).1.Created?
    ensures var db := Submit(w, user, f, businessId, rowIds, calls).0.db;
            var rules := RulesOf(w.rules, f.rubro);
            && (forall i :: 0 <= i < |rules| ==>
                  && Key(businessId, rules[i].permiso) in db.permits
                  && db.permits[Key(businessId, rules[i].permiso)]
                     == PermitRow(rowIds[i], businessId, rules[i].permiso, Some("pendiente"), None, None, None, Some(FirstStep)))
            && (forall k :: k in db.permits ==>
                  k in w.db.permits || exists i :: 0 <= i < |rules| && k == Key(businessId, rules[i].permiso))
            && (forall k :: k in w.db.permits ==> k in db.permits && db.permits[k] == w.db.permits[k])
  {
    var rules := RulesOf(w.rules, f.rubro);
    var rows := Rows(businessId, rules);
    if |rules| > 0 {
      InsertEachNew(w.db, rows, rowIds);
      InsertEachNoOthers(w.db, rows, rowIds);
      InsertEachKeeps(w.db, rows, rowIds);
      forall k | k in Submit(w, user, f, businessId, rowIds, calls).0.db.permits
        ensures k in w.db.permits || exists i :: 0 <= i < |rules| && k == Key(businessId, rules[i].permiso)
      {
        if k !in w.db.permits {
          var i :| 0 <= i < |rows| && KeyOf(rows[i]) == k;
          assert k == Key(businessId, rules[i].permiso);
        }
      }
    }
  }
}

=== FILE: add_permiso.dfy ===
/** `AddPermisoModal`: adding a status row for any business and permit
    type. Unlike the other writers it uses a plain insert, which the unique
    pair refuses when a row for it exists. */
module AddPermiso {
  import opened Options
  import opened Text
  import opened Calendar
  import opened Store

  /** The five fields of the form. */
  datatype Form = Form(negocio: seq<char>, permiso: seq<char>, issue: seq<char>, expiry: seq<char>, nextStep: seq<char>)

  datatype Submitted = Submitted(db: Db, form: Form, added: bool)

  const Empty: Form := Form("", "", "", "", "")

  /** The open effect: the issue field is seeded with the date part, before
      the `T`, of the current ISO timestamp `nowIso`; the other fields keep
      what they hold. */
  function Open(f: Form, nowIso: seq<char>): (r: Form)
    ensures r.negocio == f.negocio && r.permiso == f.permiso && r.expiry == f.expiry && r.nextStep == f.nextStep
    ensures 'T' !in r.issue && IsPrefix(r.issue, nowIso)
  {
    f.(issue := FirstSegment(nowIso, 'T'))
  }

  /** A timestamp written as a calendar day, a `T` and a time of day seeds
      exactly that day, which reads back as the same date. */
  lemma OpenSeedsDay(f: Form, d: ValidDate, time: seq<char>)
    requires 0 <= d.year <= 9999
    ensures Open(f, IsoDay(d) + "T" + time).issue == IsoDay(d)
    ensures ParseIsoDay(Open(f, IsoDay(d) + "T" + time).issue) == Some(d)
  {
    FirstSegmentOfJoin(IsoDay(d), 'T', time);
    IsoDayRoundTrip(d);
  }

  /** The insert payload: pending, the three text fields with an empty one
      as null, and no status. */
  function Payload(f: Form): (p: PermitPayload)
    ensures KeyOf(p) == Key(f.negocio, f.permiso)
    ensures p.status.Absent?
  {
    PermitPayload(f.negocio, f.permiso, Given(Some("pendiente")), Absent,
                  OrNull(f.issue), OrNull(f.expiry), OrNull(f.nextStep))
  }

  /** `handleClose`. */
  function Close(f: Form): (r: Form)
    ensures r.negocio == "" && r.permiso == "" && r.issue == "" && r.expiry == "" && r.nextStep == ""
  {
    Empty
  }

  /** `handleSubmit`: without both selections nothing is written; the
      insert fails when the pair already has a row or the call fails, and
      then nothing changes; on success the parent is told and the form is
      cleared. */
  function Submit(db: Db, f: Form, freshId: seq<char>, insertOk: bool): (r: Submitted)
    ensures f.negocio == "" || f.permiso == "" ==> r == Submitted(db, f, false)
    ensures Key(f.negocio, f.permiso) in db.permits ==> r == Submitted(db, f, false)
    ensures r.added <==> f.negocio != "" && f.permiso != "" && insertOk && Key(f.negocio, f.permiso) !in db.permits
    ensures !r.added ==> r == Submitted(db, f, false)
    ensures r.added ==> r.form == Empty
  {
    if f.negocio == "" || f.permiso == "" then Submitted(db, f, false)
    else match Insert(db, Payload(f), freshId)
      case None => Submitted(db, f, false)
      case Some(next) => if insertOk then Submitted(next, Close(f), true) else Submitted(db, f, false)
  }

  /** A successful submission adds one new row for the pair, pending, with
      the typed fields (an empty one as null) and a null status, and leaves
      every other row as it was. */
  lemma SubmitAddsRow(db: Db, f: Form, freshId: seq<char>, insertOk: bool)
    requires Submit(db, f, freshId, insertOk).added
    ensures var r := Submit(db, f, freshId, insertOk).db;
            var k := Key(f.negocio, f.permiso);
            && k !in db.permits
            && r.permits.Keys == db.permits.Keys + {k}
            && (forall other :: other in db.permits ==> r.permits[other] == db.permits[other])
            && r.permits[k] == PermitRow(freshId, f.negocio, f.permiso, Some("pendiente"), None,
                                         if f.issue == "" then None else Some(f.issue),
                                         if f.expiry == "" then None else Some(f.expiry),
                                         if f.nextStep == "" then None else Some(f.nextStep))
  {
  }

  /** The insert never overwrites: a pair that already has a row, for
      instance one confirmed from an uploaded document, keeps it unchanged,
      where an upsert of the same payload would reset it to pending. */
  lemma InsertNeverOverwrites(db: Db, f: Form, freshId: seq<char>, insertOk: bool)
    requires Key(f.negocio, f.permiso) in db.permits
    ensures Submit(db, f, freshId, insertOk).db == db
    ensures Upsert(db, Payload(f), freshId).permits[Key(f.negocio, f.permiso)].estado == Some("pendiente")
  {
  }
}

=== FILE: auth_errors.dfy ===
/** `translateAuthError`: the Spanish text shown for an error of the
    authentication service. The message is lower-cased once and tried
    against ten rules in a fixed order; the first rule with a phrase
    contained in it gives the translation, and a message no rule knows is
    shown as it came. */
module AuthErrors {
  import opened Options
  import opened Text

  const Unknown: seq<char> := "Error desconocido"
  const WrongCredentials: seq<char> := "Email o contraseña incorrectos"
  const NotConfirmed: seq<char> := "Debes confirmar tu email antes de iniciar sesión"
  const AlreadyRegistered: seq<char> := "Ya existe una cuenta con este email"
  const ShortPassword: seq<char> := "La contraseña debe tener al menos 6 caracteres"
  const BadEmail: seq<char> := "El formato del email no es válido"
  const RateLimited: seq<char> := "Demasiados intentos. Espera unos minutos antes de intentar nuevamente"
  const SignupDisabled: seq<char> := "El registro está temporalmente deshabilitado"
  const ExpiredLink: seq<char> := "El enlace de confirmación ha expirado o es inválido"
  const TooManyRequests: seq<char> := "Demasiadas solicitudes. Intenta más tarde"
  const WeakPassword: seq<char> := "La contraseña es muy débil. Usa una combinación de letras, números y símbolos"

  /** The eleven fixed texts the translator can produce. */
  const Fixed: seq<seq<char>> := [
    Unknown, WrongCredentials, NotConfirmed, AlreadyRegistered, ShortPassword, BadEmail,
    RateLimited, SignupDisabled, ExpiredLink, TooManyRequests, WeakPassword
  ]

  /** A rule of the chain: its phrases and its translation. */
  datatype Rule = Rule(phrases: seq<seq<char>>, translation: seq<char>)

  /** `translateAuthError`'s chain written as a table, in the order of its tests: a reference reading of
      the translator as "the first rule that matches". */
  const Rules: seq<Rule> := [
    Rule(["invalid login credentials", "invalid credentials"], WrongCredentials),
    Rule(["email not confirmed"], NotConfirmed),
    Rule(["user already registered"], AlreadyRegistered),
    Rule(["password should be at least 6 characters"], ShortPassword),
    Rule(["invalid email"], BadEmail),
    Rule(["email rate limit exceeded"], RateLimited),
    Rule(["signup is disabled"], SignupDisabled),
    Rule(["email link is invalid", "token has expired"], ExpiredLink),
    Rule(["too many requests"], TooManyRequests),
    Rule(["weak password"], WeakPassword)
  ]

  /** One of the phrases occurs in the lower-cased message. */
  predicate Matches(lowered: seq<char>, phrases: seq<seq<char>>)
    ensures Matches(lowered, phrases) <==> exists i :: 0 <= i < |phrases| && Contains(lowered, phrases[i])
  {
    |phrases| > 0 && (Contains(lowered, phrases[0]) || Matches(lowered, phrases[1..]))
  }

  /** The position of the first rule, in order, that passes `p`. */
  function FirstPassing(p: Rule -> bool, rules: seq<Rule>): (r: Option<nat>)
    ensures r.None? <==> forall j :: 0 <= j < |rules| ==> !p(rules[j])
    ensures r.Some? ==> r.value < |rules| && p(rules[r.value])
    ensures r.Some? ==> forall j :: 0 <= j < r.value ==> !p(rules[j])
  {
    if |rules| == 0 then None
    else if p(rules[0]) then Some(0)
    else
      var r := FirstPassing(p, rules[1..]);
      assert forall j :: 1 <= j < |rules| ==> rules[j] == rules[1..][j - 1];
      if r.Some? then Some(r.value + 1) else None
  }

  /** The position of the first rule, in order, whose phrases match. */
  function FirstRule(lowered: seq<char>, rules: seq<Rule>): (r: Option<nat>)
    ensures r.None? <==> forall j :: 0 <= j < |rules| ==> !Matches(lowered, rules[j].phrases)
    ensures r.Some? ==> r.value < |rules| && Matches(lowered, rules[r.value].phrases)
    ensures r.Some? ==> forall j :: 0 <= j < r.value ==> !Matches(lowered, rules[j].phrases)
  {
    FirstPassing((rule: Rule) => Matches(lowered, rule.phrases), rules)
  }

  /** The texts a rule table can produce: the unknown-error text and each
      rule's translation. */
  function Outputs(rules: seq<Rule>): (r: seq<seq<char>>)
    ensures |r| == |rules| + 1 && r[0] == Unknown
    ensures forall j :: 0 <= j < |rules| ==> r[j + 1] == rules[j].translation
  {
    if |rules| == 0 then [Unknown] else Outputs(rules[..|rules| - 1]) + [rules[|rules| - 1].translation]
  }

  /** The translator over a rule table: a missing or empty message is
      unknown, otherwise the first rule that matches the lower-cased message
      decides, and without one the message is kept as it came. */
  function TranslateWith(rules: seq<Rule>, message: Option<seq<char>>): (r: seq<char>)
    ensures message.None? || message.value == "" ==> r == Unknown
    ensures r in Outputs(rules) || (message.Some? && r == message.value)
  {
    if message.None? || message.value == "" then Unknown
    else match FirstRule(Lower(message.value), rules)
      case Some(j) => assert Outputs(rules)[j + 1] == rules[j].translation; rules[j].translation
      case None => message.value
  }

  /** `translateAuthError(error)`, where `message` is `error?.message`
      (absent when the error or its message is missing); its chain
      of `if (message.includes(...))` tests is the walk over `Rules`. */
  function Translate(message: Option<seq<char>>): (r: seq<char>)
    ensures message.None? || message.value == "" ==> r == Unknown
    ensures r in Fixed || (message.Some? && r == message.value)
  {
    RulesOutputFixed();
    TranslateWith(Rules, message)
  }

  /** `translateAuthError`'s table produces exactly the eleven fixed texts, the
      unknown-error text first and then the rules' in order. */
  lemma RulesOutputFixed()
    ensures Outputs(Rules) == Fixed
  {
    var out := Outputs(Rules);
    assert |out| == |Fixed|;
    forall j | 0 <= j < |out| ensures out[j] == Fixed[j] {
      if j > 0 {
        assert out[(j - 1) + 1] == Rules[j - 1].translation;
      }
    }
  }

  /** The rules are tried in order and the first that matches decides. */
  lemma FirstRuleWins(rules: seq<Rule>, message: seq<char>, j: nat)
    requires message != "" && j < |rules|
    requires Matches(Lower(message), rules[j].phrases)
    requires forall i :: 0 <= i < j ==> !Matches(Lower(message), rules[i].phrases)
    ensures TranslateWith(rules, Some(message)) == rules[j].translation
  {
    var k := FirstRule(Lower(message), rules);
    assert k.Some?;
    assert !(k.value < j) && !(j < k.value);
  }

  /** The second rule decides when it matches and the first does not. */
  lemma SecondRuleWins(rules: seq<Rule>, message: seq<char>)
    requires message != "" && |rules| > 1
    requires !Matches(Lower(message), rules[0].phrases) && Matches(Lower(message), rules[1].phrases)
    ensures TranslateWith(rules, Some(message)) == rules[1].translation
  {
    var k := FirstRule(Lower(message), rules);
    assert k.Some? && k.value != 0;
    assert !(1 < k.value);
  }

  /** A non-empty message that no rule matches is returned verbatim, in its
      original casing. */
  lemma NoRuleKeepsMessage(rules: seq<Rule>, message: seq<char>)
    requires message != ""
    requires forall i :: 0 <= i < |rules| ==> !Matches(Lower(message), rules[i].phrases)
    ensures TranslateWith(rules, Some(message)) == message
  {
  }

  /** Matching looks only at the lower-cased message: two messages that
      differ only in casing get the same translation whenever a rule
      matches. */
  lemma CasingIrrelevant(rules: seq<Rule>, a: seq<char>, b: seq<char>, j: nat)
    requires a != "" && b != "" && Lower(a) == Lower(b)
    requires j < |rules| && Matches(Lower(a), rules[j].phrases)
    ensures TranslateWith(rules, Some(a)) == TranslateWith(rules, Some(b))
    ensures TranslateWith(rules, Some(a)) in Outputs(rules)[1..]
  {
    var k := FirstRule(Lower(a), rules).value;
    assert Outputs(rules)[1..][k] == rules[k].translation;
  }

  /** Either credentials phrase, in any casing, means wrong credentials. */
  lemma InvalidCredentials(message: seq<char>)
    requires Contains(Lower(message), "invalid login credentials") || Contains(Lower(message), "invalid credentials")
    ensures Translate(Some(message)) == WrongCredentials
  {
    assert Matches(Lower(message), Rules[0].phrases);
    assert message != "" by {
      assert |Lower(message)| > 0;
    }
    FirstRuleWins(Rules, message, 0);
  }

  /** A broken link or an expired token, once no earlier rule applies,
      gets the expired-link text. */
  lemma ExpiredLinkText(message: seq<char>)
    requires Contains(Lower(message), "email link is invalid") || Contains(Lower(message), "token has expired")
    requires forall i :: 0 <= i < 7 ==> !Matches(Lower(message), Rules[i].phrases)
    ensures Translate(Some(message)) == ExpiredLink
  {
    assert Matches(Lower(message), Rules[7].phrases);
    assert message != "" by {
      assert |Lower(message)| > 0;
    }
    FirstRuleWins(Rules, message, 7);
  }

  /** A message naming both an unconfirmed email and too many requests gets
      the confirmation text when the credentials rule does not match: its
      rule comes before the rate-limit rule, which matches too. */
  lemma ConfirmationBeatsRateLimit(message: seq<char>)
    requires Contains(Lower(message), "email not confirmed") && Contains(Lower(message), "too many requests")
    requires !Contains(Lower(message), "invalid login credentials") && !Contains(Lower(message), "invalid credentials")
    ensures Translate(Some(message)) == NotConfirmed
  {
    var lowered := Lower(message);
    assert !Matches(lowered, Rules[0].phrases) by {
      var credentials := Rules[0].phrases;
      assert |credentials| == 2 && credentials[0] == "invalid login credentials" && credentials[1] == "invalid credentials";
    }
    assert Matches(lowered, Rules[1].phrases) by {
      assert Contains(lowered, Rules[1].phrases[0]);
    }
    assert message != "" by {
      assert |lowered| > 0;
    }
    SecondRuleWins(Rules, message);
  }
}

=== FILE: business_details.dfy ===
/** `BusinessDetails`: the state badge of a status row, which an approved
    status overrides, and `deletePermit`, which removes the stored files of
    the documents linked to the row, then those documents, then the row. */
module BusinessDetails {
  import opened Options
  import opened Text
  import opened Store
  import Dashboard
  import Uploader

  /** The badge of the business page: look, text, and the green colour of
      the approved-status badge. */
  datatype Badge = Badge(config: Dashboard.Config, text: seq<char>, green: bool)

  /** `variants[estado]` of this page, which also carries the text. */
  function Known(estado: seq<char>): Option<Badge> {
    if estado == "pendiente" then Some(Badge(Dashboard.Config(Dashboard.Secondary, Dashboard.Clock), "Pendiente", false))
    else if estado == "en_proceso" then Some(Badge(Dashboard.Config(Dashboard.Default, Dashboard.AlertCircle), "En Proceso", false))
    else if estado == "aprobado" then Some(Badge(Dashboard.Config(Dashboard.Default, Dashboard.CheckCircle), "Aprobado", false))
    else if estado == "rechazado" then Some(Badge(Dashboard.Config(Dashboard.Destructive, Dashboard.XCircle), "Rechazado", false))
    else if estado == "vencido" then Some(Badge(Dashboard.Config(Dashboard.Destructive, Dashboard.XCircle), "Vencido", false))
    else None
  }

  /** `getEstadoBadge(estado, status)`: status `approved` shows the green
      Aprobado badge whatever the state; otherwise the state's badge, the
      pending one for a state outside the table (a null state included). */
  function BadgeOf(estado: Option<seq<char>>, status: Option<seq<char>>): (b: Badge)
    ensures status == Some("approved") ==> b == Badge(Dashboard.Config(Dashboard.Default, Dashboard.CheckCircle), "Aprobado", true)
    ensures status != Some("approved") ==> !b.green
  {
    if status == Some("approved") then Badge(Dashboard.Config(Dashboard.Default, Dashboard.CheckCircle), "Aprobado", true)
    else if estado.Some? && Known(estado.value).Some? then Known(estado.value).value
    else Known("pendiente").value
  }

  /** Both pages give a state the same look; only this page can show a
      state as approved because of its status. */
  lemma SameLookOnBothPages(estado: Option<seq<char>>, status: Option<seq<char>>)
    requires status != Some("approved")
    ensures BadgeOf(estado, status).config == Dashboard.ConfigOf(estado)
  {
  }

  /** A state outside the table reads as pending, and a row a confirmation
      wrote reads as approved through either of its two columns. */
  lemma BadgeFallbacks(estado: seq<char>, status: Option<seq<char>>)
    ensures status != Some("approved") && Known(estado).None? ==> BadgeOf(Some(estado), status).text == "Pendiente"
    ensures BadgeOf(Some("aprobado"), status).text == "Aprobado"
  {
  }

  /** The storage path `deletePermit` removes for a document URL:
      `docs/{businessId}/{last '/'-segment}`, nothing for an empty URL or an
      empty last segment. */
  function RemovalPath(businessId: seq<char>, url: seq<char>): (r: Option<seq<char>>)
    ensures url == "" ==> r.None?
    ensures r.Some? ==> r.value == Uploader.UploadPath(businessId, LastSegment(url, '/')) && LastSegment(url, '/') != ""
    ensures url != "" && LastSegment(url, '/') != "" ==> r.Some?
  {
    if url == "" then None
    else
      var name := LastSegment(url, '/');
      if name == "" then None else Some("docs/" + businessId + "/" + name)
  }

  /** The removal path of an uploaded file's public URL is the path it was
      uploaded to, as long as the random part and the file name hold no
      `/`: upload and deletion agree on where the file is. */
  lemma RemovalPathRoundTrip(base: seq<char>, businessId: seq<char>, now: nat, random: seq<char>, fileName: seq<char>)
    requires '/' !in random && '/' !in fileName
    ensures var path := Uploader.UploadPath(businessId, Uploader.StoredName(now, random, fileName));
            RemovalPath(businessId, Uploader.PublicUrl(base, path)) == Some(path)
  {
    var name := Uploader.StoredName(now, random, fileName);
    StoredNameNoSlash(now, random, fileName);
    var url := Uploader.PublicUrl(base, Uploader.UploadPath(businessId, name));
    UrlEndsInName(base, businessId, name);
    assert LastSegment(url, '/') == name;
    assert url != "" by {
      assert |url| >= |name| > 0;
    }
  }

  /** The public URL of an upload path ends in `/` and the stored name. */
  lemma UrlEndsInName(base: seq<char>, businessId: seq<char>, name: seq<char>)
    requires '/' !in name
    ensures LastSegment(Uploader.PublicUrl(base, Uploader.UploadPath(businessId, name)), '/') == name
  {
    var prefix := base + "/" + "docs/" + businessId;
    assert Uploader.PublicUrl(base, Uploader.UploadPath(businessId, name)) == prefix + ['/'] + name;
    LastSegmentOfJoin(prefix, '/', name);
  }

  /** A stored name holds no `/` when its random part and the file name
      hold none, and is never empty. */
  lemma StoredNameNoSlash(now: nat, random: seq<char>, fileName: seq<char>)
    requires '/' !in random && '/' !in fileName
    ensures '/' !in Uploader.StoredName(now, random, fileName)
    ensures Uploader.StoredName(now, random, fileName) != ""
  {
    var digits := DecimalString(now);
    var ext := LastSegment(fileName, '.');
    assert '/' !in digits by {
      forall i | 0 <= i < |digits| ensures digits[i] != '/' {
        assert IsDigit(digits[i]);
      }
    }
    assert '/' !in ext by {
      forall i | 0 <= i < |ext| ensures ext[i] != '/' {
        assert ext[i] == fileName[|fileName| - |ext| + i];
      }
    }
    assert Uploader.StoredName(now, random, fileName) == digits + "_" + random + "." + ext;
  }

  /** The paths of the documents, in order, for those that have one. */
  function RemovalPaths(businessId: seq<char>, docs: seq<Document>): (r: set<seq<char>>)
    ensures forall p :: p in r ==> exists i :: 0 <= i < |docs| && RemovalPath(businessId, docs[i].url) == Some(p)
    ensures forall i :: 0 <= i < |docs| && RemovalPath(businessId, docs[i].url).Some? ==>
              RemovalPath(businessId, docs[i].url).value in r
  {
    if |docs| == 0 then {}
    else
      var rest := RemovalPaths(businessId, docs[1..]);
      assert forall i :: 1 <= i < |docs| ==> docs[i] == docs[1..][i - 1];
      match RemovalPath(businessId, docs[0].url)
      case None => rest
      case Some(p) => {p} + rest
  }

  /** Which calls of `deletePermit` fail: reading the linked documents
      (then there is nothing to remove from storage), the removal of some
      of the paths, deleting the documents, deleting the row. */
  datatype Calls = Calls(readOk: bool, removeFails: set<seq<char>>, documentsOk: bool, permitOk: bool)

  datatype Deleted = Deleted(db: Db, outcome: Outcome)

  /** `deletePermit(permitId)`: only the failure of the last call is
      noticed. */
  function DeletePermit(db: Db, businessId: seq<char>, permitId: seq<char>, calls: Calls): (r: Deleted)
    ensures r.outcome == Ok <==> calls.permitOk
    ensures r.db.catalog == db.catalog
    ensures r.db.storage <= db.storage
  {
    var linked := if calls.readOk then DocumentsOf(db.documents, permitId) else [];
    var removed := RemovalPaths(businessId, linked) - calls.removeFails;
    var documents := if calls.documentsOk then DeleteDocumentsOf(db.documents, permitId) else db.documents;
    var permits := if calls.permitOk then DeletePermitRow(db.permits, permitId) else db.permits;
    Deleted(Db(db.catalog, documents, permits, db.storage - removed), if calls.permitOk then Ok else Err)
  }

  /** When every call succeeds, the row with that id, the documents linked
      to it and their stored files are gone; everything else stays, and the
      only files removed lie under the business's own folder. */
  lemma DeleteAll(db: Db, businessId: seq<char>, permitId: seq<char>)
    ensures var r := DeletePermit(db, businessId, permitId, Calls(true, {}, true, true)).db;
            && (forall k :: k in r.permits <==> k in db.permits && db.permits[k].id != permitId)
            && (forall d :: d in r.documents <==> d in db.documents && d.permisoNegocio != Some(permitId))
            && (forall d :: d in db.documents && d.permisoNegocio == Some(permitId) && RemovalPath(businessId, d.url).Some?
                  ==> RemovalPath(businessId, d.url).value !in r.storage)
            && (forall p :: p in db.storage && p !in r.storage ==> IsPrefix("docs/" + businessId + "/", p))
  {
    var linked := DocumentsOf(db.documents, permitId);
    forall d | d in db.documents && d.permisoNegocio == Some(permitId) && RemovalPath(businessId, d.url).Some?
      ensures RemovalPath(businessId, d.url).value in RemovalPaths(businessId, linked)
    {
      assert d in linked;
      var i :| 0 <= i < |linked| && linked[i] == d;
    }
    forall p | p in db.storage && p !in DeletePermit(db, businessId, permitId, Calls(true, {}, true, true)).db.storage
      ensures IsPrefix("docs/" + businessId + "/", p)
    {
      var i :| 0 <= i < |linked| && RemovalPath(businessId, linked[i].url) == Some(p);
      assert p == "docs/" + businessId + "/" + LastSegment(linked[i].url, '/');
    }
  }

  /** Only the outcome of the last call is reported: the other three do
      not change it. */
  lemma OnlyLastErrorReported(db: Db, businessId: seq<char>, permitId: seq<char>, a: Calls, b: Calls)
    requires a.permitOk == b.permitOk
    ensures DeletePermit(db, businessId, permitId, a).outcome == DeletePermit(db, businessId, permitId, b).outcome
  {
  }

  /** The uploader records documents without linking them to a status row,
      so deleting a row whose documents all came from the uploader removes
      no document and no stored file. */
  lemma UploadedFilesStay(db: Db, businessId: seq<char>, permitId: seq<char>, calls: Calls)
    requires forall i :: 0 <= i < |db.documents| ==> db.documents[i].permisoNegocio.None?
    ensures DeletePermit(db, businessId, permitId, calls).db.documents == db.documents
    ensures DeletePermit(db, businessId, permitId, calls).db.storage == db.storage
  {
    NothingLinked(db.documents, permitId);
  }

  lemma {:induction false} NothingLinked(docs: seq<Document>, permitId: seq<char>)
    requires forall i :: 0 <= i < |docs| ==> docs[i].permisoNegocio.None?
    ensures DocumentsOf(docs, permitId) == []
    ensures DeleteDocumentsOf(docs, permitId) == docs
    decreases |docs|
  {
    if |docs| > 0 {
      NothingLinked(docs[1..], permitId);
    }
  }
}

=== FILE: calendar.dfy ===
/** Proleptic Gregorian calendar dates and the normalising constructor
    `new Date(year, monthIndex, day)` of JavaScript, which never fails on
    finite arguments: months and days out of range roll over into the
    neighbouring months and years. */
module Calendar {
  import opened Options
  import opened Text

  datatype Date = Date(year: int, month: int, day: int)

  const MsPerDay: int := 24 * 60 * 60 * 1000

  predicate IsLeap(y: int) {
    y % 4 == 0 && (y % 100 != 0 || y % 400 == 0)
  }

  function DaysInMonth(y: int, m: int): (n: int)
    requires 1 <= m <= 12
    ensures 28 <= n <= 31
  {
    if m == 2 then (if IsLeap(y) then 29 else 28)
    else if m == 4 || m == 6 || m == 9 || m == 11 then 30
    else 31
  }

  function DaysInYear(y: int): int {
    if IsLeap(y) then 366 else 365
  }

  predicate Valid(d: Date) {
    1 <= d.month <= 12 && 1 <= d.day <= DaysInMonth(d.year, d.month)
  }

  /** A date that exists in the calendar. */
  type ValidDate = d: Date | Valid(d) witness Date(2020, 1, 1)

  /** Days from 1 January of year 1 to 1 January of year `y`. */
  function DaysBeforeYear(y: int): int {
    365 * (y - 1) + (y - 1) / 4 - (y - 1) / 100 + (y - 1) / 400
  }

  /** Days from 1 January to the first of month `m` of year `y`. */
  function DaysBeforeMonth(y: int, m: int): int
    requires 1 <= m <= 12
  {
    var base :=
      if m == 1 then 0 else if m == 2 then 31 else if m == 3 then 59
      else if m == 4 then 90 else if m == 5 then 120 else if m == 6 then 151
      else if m == 7 then 181 else if m == 8 then 212 else if m == 9 then 243
      else if m == 10 then 273 else if m == 11 then 304 else 334;
    base + (if IsLeap(y) && m > 2 then 1 else 0)
  }

  /** Serial number of the first day of a month. */
  function FirstOfMonth(y: int, m: int): int
    requires 1 <= m <= 12
  {
    DaysBeforeYear(y) + DaysBeforeMonth(y, m)
  }

  /** Serial day number (1 January of year 1 is day 0); the order of these
      numbers is the order of `getTime()` of local midnights. */
  function DayNumber(d: Date): int
    requires 1 <= d.month <= 12
  {
    FirstOfMonth(d.year, d.month) + d.day - 1
  }

  lemma YearLength(y: int)
    ensures DaysBeforeYear(y + 1) == DaysBeforeYear(y) + DaysInYear(y)
  {
    MultiplesOf4(y);
    MultiplesOf100(y);
    MultiplesOf400(y);
  }

  /** Year `y` adds one multiple of 4, 100 or 400 to the count below it
      exactly when it is one. */
  lemma MultiplesOf4(y: int)
    ensures y / 4 - (y - 1) / 4 == (if y % 4 == 0 then 1 else 0)
  {
  }

  lemma MultiplesOf100(y: int)
    ensures y / 100 - (y - 1) / 100 == (if y % 100 == 0 then 1 else 0)
  {
  }

  lemma MultiplesOf400(y: int)
    ensures y / 400 - (y - 1) / 400 == (if y % 400 == 0 then 1 else 0)
  {
  }

  /** The month after (y, m), with its first day right after m's last. */
  lemma NextMonth(y: int, m: int)
    requires 1 <= m <= 12
    ensures m < 12 ==> FirstOfMonth(y, m + 1) == FirstOfMonth(y, m) + DaysInMonth(y, m)
    ensures m == 12 ==> FirstOfMonth(y + 1, 1) == FirstOfMonth(y, m) + DaysInMonth(y, m)
  {
    YearLength(y);
  }

  /** Day `d` of month (y, m), counted from that month's first day in either
      direction, as a valid date. */
  function RollDay(y: int, m: int, d: int): (r: Date)
    requires 1 <= m <= 12
    ensures Valid(r)
    ensures 1 <= d <= DaysInMonth(y, m) ==> r == Date(y, m, d)
    decreases if d < 1 then 1 - d else 0, d
  {
    if d < 1 then
      var (py, pm) := if m == 1 then (y - 1, 12) else (y, m - 1);
      RollDay(py, pm, d + DaysInMonth(py, pm))
    else if d > DaysInMonth(y, m) then
      var (ny, nm) := if m == 12 then (y + 1, 1) else (y, m + 1);
      RollDay(ny, nm, d - DaysInMonth(y, m))
    else
      Date(y, m, d)
  }

  /** The rolled date lies `d - 1` days after the first of month (y, m),
      in either direction. */
  lemma {:induction false} RollDayNumber(y: int, m: int, d: int)
    requires 1 <= m <= 12
    ensures DayNumber(RollDay(y, m, d)) == FirstOfMonth(y, m) + d - 1
    decreases if d < 1 then 1 - d else 0, d
  {
    if d < 1 {
      var (py, pm) := if m == 1 then (y - 1, 12) else (y, m - 1);
      NextMonth(py, pm);
      RollDayNumber(py, pm, d + DaysInMonth(py, pm));
    } else if d > DaysInMonth(y, m) {
      var (ny, nm) := if m == 12 then (y + 1, 1) else (y, m + 1);
      NextMonth(y, m);
      RollDayNumber(ny, nm, d - DaysInMonth(y, m));
    }
  }

  /** `new Date(year, monthIndex, day)` (local time, finite arguments): a
      two-digit year means 19xx, the month index carries into the year, the
      day rolls over month ends. */
  function MakeDate(year: int, monthIndex: int, day: int): (r: Date)
    ensures Valid(r)
  {
    var y := if 0 <= year <= 99 then 1900 + year else year;
    RollDay(y + monthIndex / 12, monthIndex % 12 + 1, day)
  }

  /** The date `MakeDate` builds lies `day - 1` days after the first of the
      month that the year and the carried month index name. */
  lemma MakeDateDayNumber(year: int, monthIndex: int, day: int)
    ensures var y := if 0 <= year <= 99 then 1900 + year else year;
            DayNumber(MakeDate(year, monthIndex, day))
              == FirstOfMonth(y + monthIndex / 12, monthIndex % 12 + 1) + day - 1
  {
    var y := if 0 <= year <= 99 then 1900 + year else year;
    var ry, rm := y + monthIndex / 12, monthIndex % 12 + 1;
    assert MakeDate(year, monthIndex, day) == RollDay(ry, rm, day);
    RollDayNumber(ry, rm, day);
  }

  /** A valid date is its own normal form: it is found again by `MakeDate`. */
  lemma MakeDateOfValid(d: Date)
    requires Valid(d) && !(0 <= d.year <= 99)
    ensures MakeDate(d.year, d.month - 1, d.day) == d
  {
    assert (d.month - 1) / 12 == 0 && (d.month - 1) % 12 + 1 == d.month;
  }

  /** Valid dates and day numbers correspond one to one, so the day number
      decides equality of valid dates. */
  lemma {:induction false} DayNumberInjective(a: Date, b: Date)
    requires Valid(a) && Valid(b) && DayNumber(a) == DayNumber(b)
    ensures a == b
  {
    if a.year != b.year {
      if a.year < b.year { YearBounds(a, b); } else { YearBounds(b, a); }
    } else if a.month != b.month {
      if a.month < b.month { MonthBounds(a, b); } else { MonthBounds(b, a); }
    }
  }

  lemma {:induction false} YearStartsAfter(y: int, z: int)
    requires y < z
    ensures DaysBeforeYear(y) + DaysInYear(y) <= DaysBeforeYear(z)
    decreases z - y
  {
    YearLength(y);
    if y + 1 < z {
      YearStartsAfter(y + 1, z);
      YearLength(y + 1);
    }
  }

  lemma YearBounds(a: Date, b: Date)
    requires Valid(a) && Valid(b) && a.year < b.year
    ensures DayNumber(a) < DayNumber(b)
  {
    YearStartsAfter(a.year, b.year);
  }

  lemma MonthBounds(a: Date, b: Date)
    requires Valid(a) && Valid(b) && a.year == b.year && a.month < b.month
    ensures DayNumber(a) < DayNumber(b)
  {
  }

  /** Local midnight of a date as a millisecond count on the same scale as
      the clock passed to the pages (the time-zone offset is not modelled). */
  function Midnight(d: Date): int
    requires 1 <= d.month <= 12
  {
    DayNumber(d) * MsPerDay
  }

  /** The calendar-day part of `toISOString()`, `split('T')[0]`, for a
      time whose UTC date is `d`: four-digit years for 0..9999, otherwise a
      sign and six digits. */
  function IsoDay(d: Date): (r: seq<char>)
    ensures 'T' !in r
  {
    var year :=
      if 0 <= d.year <= 9999 then PadZeros(DecimalString(d.year), 4)
      else if d.year > 9999 then "+" + PadZeros(DecimalString(d.year), 6)
      else "-" + PadZeros(DecimalString(-d.year), 6);
    year + "-" + TwoDigits(d.month) + "-" + TwoDigits(d.day)
  }

  function TwoDigits(n: int): (r: seq<char>)
    ensures 1 <= n <= 99 ==> |r| == 2 && OnlyDigits(r) && DigitsValue(r) == n
    ensures 'T' !in r
  {
    if n < 0 then "-" + PadZeros(DecimalString(-n), 2)
    else if n <= 99 then PaddedDecimal(n, 2); PadZeros(DecimalString(n), 2)
    else PadZeros(DecimalString(n), 2)
  }

  /** Reads `YYYY-MM-DD` back into a valid date; anything else is absent. */
  function ParseIsoDay(s: seq<char>): (r: Option<Date>)
    ensures r.Some? ==> Valid(r.value) && 0 <= r.value.year
  {
    if |s| == 10 && OnlyDigits(s[..4]) && s[4] == '-' && OnlyDigits(s[5..7]) && s[7] == '-'
       && OnlyDigits(s[8..])
    then
      var d := Date(DigitsValue(s[..4]), DigitsValue(s[5..7]), DigitsValue(s[8..]));
      if Valid(d) then Some(d) else None
    else None
  }

  /** A valid date of a four-digit year written as an ISO day is read back
      as the same date. */
  lemma IsoDayRoundTrip(d: Date)
    requires Valid(d) && 0 <= d.year <= 9999
    ensures ParseIsoDay(IsoDay(d)) == Some(d)
  {
    PaddedDecimal(d.year, 4);
    var y := PadZeros(DecimalString(d.year), 4);
    var m := TwoDigits(d.month);
    var dd := TwoDigits(d.day);
    var s := IsoDay(d);
    assert s == y + "-" + m + "-" + dd;
    assert s[..4] == y && s[4] == '-' && s[5..7] == m && s[7] == '-' && s[8..] == dd;
  }
}

=== FILE: classify_dates.dfy ===
/** `classifyDates` of the uploader: which extracted date is the issue date
    and which the expiry date. Each date is looked up, as the locale
    formatter prints it, in the ORIGINAL text; the keyword window of 100
    characters on each side is then cut from the NORMALISED text at that same
    index. Without any keyword hit the earliest date is the issue date and
    the latest the expiry date. */
module ClassifyDates {
  import opened Options
  import opened Text
  import opened Calendar
  import opened Normalize

  datatype Roles = Roles(issue: Option<ValidDate>, expiry: Option<ValidDate>)

  datatype Role = Issue | Expiry

  const IssueKeywords: seq<seq<char>> := ["emision", "emitida", "fecha", "otorgada", "concedida"]
  const ExpiryKeywords: seq<seq<char>> := ["vencimiento", "validez", "vence", "hasta", "expira", "caduca"]
  const Radius: int := 100

  function Keywords(role: Role): seq<seq<char>> {
    match role
    case Issue => IssueKeywords
    case Expiry => ExpiryKeywords
  }

  /** `keywords.some(k => before.includes(k) || after.includes(k))`. */
  predicate AnyKeyword(kws: seq<seq<char>>, before: seq<char>, after: seq<char>)
    ensures AnyKeyword(kws, before, after) <==>
              exists k :: 0 <= k < |kws| && (Contains(before, kws[k]) || Contains(after, kws[k]))
  {
    |kws| > 0 && (Contains(before, kws[0]) || Contains(after, kws[0]) || AnyKeyword(kws[1..], before, after))
  }

  /** The two context windows of a date whose formatted string was found at
      `index` of the original text; `text.length` bounds the second one. */
  function Before(normalized: seq<char>, index: nat): (r: seq<char>)
    ensures |r| <= Radius
    ensures index <= |normalized| ==> r == normalized[(if index >= Radius then index - Radius else 0)..index]
  {
    JsSubstring(normalized, if index - Radius > 0 then index - Radius else 0, index)
  }

  /** The window after the index is cut at the length of the original
      text, while it is taken from the normalised one. */
  function After(text: seq<char>, normalized: seq<char>, index: nat): (r: seq<char>)
    ensures index <= |text| ==> |r| <= Radius
    ensures index + Radius <= |text| && index + Radius <= |normalized| ==> r == normalized[index..index + Radius]
    ensures index <= |text| < index + Radius && |text| <= |normalized| ==> r == normalized[index..|text|]
  {
    JsSubstring(normalized, index, if |text| < index + Radius then |text| else index + Radius)
  }

  /** A date takes part in the keyword pass only when its formatted string
      occurs in the original text, and then has a role when a keyword of that
      role is in one of its windows. */
  predicate HasRole(role: Role, text: seq<char>, normalized: seq<char>, format: ValidDate -> seq<char>, d: ValidDate)
    ensures HasRole(role, text, normalized, format, d) ==> IndexOf(text, format(d)).Some?
  {
    match IndexOf(text, format(d))
    case None => false
    case Some(index) => AnyKeyword(Keywords(role), Before(normalized, index), After(text, normalized, index))
  }

  /** The position of the first date, in input order, that satisfies `p`. */
  function FirstWhere(p: ValidDate -> bool, dates: seq<ValidDate>): (r: Option<nat>)
    ensures r.None? <==> forall k :: 0 <= k < |dates| ==> !p(dates[k])
    ensures r.Some? ==> r.value < |dates| && p(dates[r.value])
    ensures r.Some? ==> forall j :: 0 <= j < r.value ==> !p(dates[j])
  {
    if |dates| == 0 then None
    else if p(dates[0]) then Some(0)
    else
      var r := FirstWhere(p, dates[1..]);
      assert forall k :: 1 <= k < |dates| ==> dates[k] == dates[1..][k - 1];
      if r.Some? then Some(r.value + 1) else None
  }

  /** The position of the first date, in input order, that has the role. */
  function FirstIndex(role: Role, text: seq<char>, normalized: seq<char>,
                      format: ValidDate -> seq<char>, dates: seq<ValidDate>): (r: Option<nat>)
    ensures r.None? <==> forall k :: 0 <= k < |dates| ==> !HasRole(role, text, normalized, format, dates[k])
    ensures r.Some? ==> r.value < |dates| && HasRole(role, text, normalized, format, dates[r.value])
    ensures r.Some? ==> forall j :: 0 <= j < r.value ==> !HasRole(role, text, normalized, format, dates[j])
  {
    FirstWhere(RoleTest(role, text, normalized, format), dates)
  }

  /** `HasRole` as a test on one date. */
  function RoleTest(role: Role, text: seq<char>, normalized: seq<char>, format: ValidDate -> seq<char>): ValidDate -> bool {
    (d: ValidDate) => HasRole(role, text, normalized, format, d)
  }

  /** Appending a date never moves the first position found; when there
      was none, it is the new date's position if that date passes. */
  lemma {:induction false} FirstWhereSnoc(p: ValidDate -> bool, dates: seq<ValidDate>, d: ValidDate)
    ensures FirstWhere(p, dates + [d])
            == (if FirstWhere(p, dates).Some? then FirstWhere(p, dates)
                else if p(d) then Some(|dates|) else None)
    decreases |dates|
  {
    if |dates| == 0 {
      assert [d][0] == d && [d][1..] == [];
    } else {
      assert (dates + [d])[0] == dates[0];
      assert (dates + [d])[1..] == dates[1..] + [d];
      FirstWhereSnoc(p, dates[1..], d);
    }
  }

  /** The first date, in input order, that has the role. */
  function FirstWithRole(role: Role, text: seq<char>, normalized: seq<char>,
                         format: ValidDate -> seq<char>, dates: seq<ValidDate>): (r: Option<ValidDate>)
    ensures r.Some? ==> r.value in dates
  {
    match FirstIndex(role, text, normalized, format, dates)
    case None => None
    case Some(k) => Some(dates[k])
  }

  /** `sortedDates[0]` of a stable sort by time: the first earliest date. */
  function Earliest(dates: seq<ValidDate>): (r: ValidDate)
    requires |dates| > 0
    ensures r in dates
    ensures forall k :: 0 <= k < |dates| ==> DayNumber(r) <= DayNumber(dates[k])
  {
    if |dates| == 1 then dates[0]
    else
      var rest := Earliest(dates[1..]);
      assert forall k :: 1 <= k < |dates| ==> dates[k] == dates[1..][k - 1];
      if DayNumber(rest) < DayNumber(dates[0]) then rest else dates[0]
  }

  /** `sortedDates[sortedDates.length - 1]` of a stable sort by time: the
      last latest date. */
  function Latest(dates: seq<ValidDate>): (r: ValidDate)
    requires |dates| > 0
    ensures r in dates
    ensures forall k :: 0 <= k < |dates| ==> DayNumber(dates[k]) <= DayNumber(r)
  {
    if |dates| == 1 then dates[0]
    else
      var rest := Latest(dates[1..]);
      assert forall k :: 1 <= k < |dates| ==> dates[k] == dates[1..][k - 1];
      if DayNumber(dates[0]) > DayNumber(rest) then dates[0] else rest
  }

  /** The uploader's `classifyDates`. */
  function Classify(text: seq<char>, dates: seq<ValidDate>, format: ValidDate -> seq<char>): (r: Roles)
    ensures |dates| == 0 ==> r == Roles(None, None)
    ensures |dates| == 1 ==> r == Roles(Some(dates[0]), None)
    ensures r.issue.Some? ==> r.issue.value in dates
    ensures r.expiry.Some? ==> r.expiry.value in dates
    ensures |dates| >= 2 ==> r.issue.Some? || r.expiry.Some?
  {
    if |dates| == 0 then Roles(None, None)
    else if |dates| == 1 then Roles(Some(dates[0]), None)
    else
      var normalized := NormalizeText(text);
      var issue := FirstWithRole(Issue, text, normalized, format, dates);
      var expiry := FirstWithRole(Expiry, text, normalized, format, dates);
      if issue.None? && expiry.None? then Roles(Some(Earliest(dates)), Some(Latest(dates)))
      else Roles(issue, expiry)
  }

  /** With two or more dates, a role found by keyword goes to the first date
      having it, in input order; when neither role is found the earliest date
      is the issue date and the latest the expiry date, even when they are
      equal; when only one role is found the other stays absent. */
  lemma ClassifyByKeywords(text: seq<char>, dates: seq<ValidDate>, format: ValidDate -> seq<char>)
    requires |dates| >= 2
    ensures var normalized := NormalizeText(text);
            var r := Classify(text, dates, format);
            var issue := FirstWithRole(Issue, text, normalized, format, dates);
            var expiry := FirstWithRole(Expiry, text, normalized, format, dates);
            && (issue.Some? || expiry.Some? ==> r == Roles(issue, expiry))
            && (issue.None? && expiry.None? ==>
                  && r.issue.Some? && r.expiry.Some?
                  && (forall k :: 0 <= k < |dates| ==> DayNumber(r.issue.value) <= DayNumber(dates[k]))
                  && (forall k :: 0 <= k < |dates| ==> DayNumber(dates[k]) <= DayNumber(r.expiry.value)))
  {
  }

  /** When no formatted date occurs in the text, only the chronological
      fallback applies. */
  lemma NoDateInTextFallsBack(text: seq<char>, dates: seq<ValidDate>, format: ValidDate -> seq<char>)
    requires |dates| >= 2
    requires forall k :: 0 <= k < |dates| ==> IndexOf(text, format(dates[k])).None?
    ensures Classify(text, dates, format) == Roles(Some(Earliest(dates)), Some(Latest(dates)))
  {
    var normalized := NormalizeText(text);
    assert FirstWithRole(Issue, text, normalized, format, dates).None?;
    assert FirstWithRole(Expiry, text, normalized, format, dates).None?;
  }

  lemma FirstWithRoleSnoc(role: Role, text: seq<char>, normalized: seq<char>,
                          format: ValidDate -> seq<char>, dates: seq<ValidDate>, d: ValidDate)
    ensures FirstWithRole(role, text, normalized, format, dates + [d])
            == (if FirstWithRole(role, text, normalized, format, dates).Some?
                then FirstWithRole(role, text, normalized, format, dates)
                else if HasRole(role, text, normalized, format, d) then Some(d) else None)
  {
    var p := RoleTest(role, text, normalized, format);
    FirstWhereSnoc(p, dates, d);
    match FirstWhere(p, dates)
    case Some(k) => assert (dates + [d])[k] == dates[k];
    case None => assert (dates + [d])[|dates|] == d;
  }

  lemma FirstWithRoleStep(role: Role, text: seq<char>, normalized: seq<char>,
                          format: ValidDate -> seq<char>, dates: seq<ValidDate>, i: nat)
    requires i < |dates|
    ensures var seen := FirstWithRole(role, text, normalized, format, dates[..i]);
            FirstWithRole(role, text, normalized, format, dates[..i + 1])
            == (if seen.None? && HasRole(role, text, normalized, format, dates[i]) then Some(dates[i]) else seen)
  {
    assert dates[..i + 1] == dates[..i] + [dates[i]];
    FirstWithRoleSnoc(role, text, normalized, format, dates[..i], dates[i]);
  }

  /** One step of `classifyDates`'s `dates.forEach`: where the formatted date occurs in the
      text, and which keywords its two windows hold. */
  method Windows(text: seq<char>, normalized: seq<char>, format: ValidDate -> seq<char>, d: ValidDate)
    returns (hasIssue: bool, hasExpiry: bool)
    ensures hasIssue == HasRole(Issue, text, normalized, format, d)
    ensures hasExpiry == HasRole(Expiry, text, normalized, format, d)
    ensures hasIssue || hasExpiry ==> Contains(text, format(d))
  {
    var found := IndexOf(text, format(d));
    if found.None? { return false, false; }
    var index := found.value;
    var before := Before(normalized, index);
    var after := After(text, normalized, index);
    hasIssue := AnyKeyword(IssueKeywords, before, after);
    hasExpiry := AnyKeyword(ExpiryKeywords, before, after);
  }

  /** `classifyDates`'s `forEach` over the dates with two variables that are set
      at most once, followed by the chronological fallback. */
  method ClassifyLoop(text: seq<char>, dates: seq<ValidDate>, format: ValidDate -> seq<char>) returns (r: Roles)
    ensures r == Classify(text, dates, format)
  {
    if |dates| == 0 { return Roles(None, None); }
    if |dates| == 1 { return Roles(Some(dates[0]), None); }
    var normalized := NormalizeText(text);
    var issue: Option<ValidDate> := None;
    var expiry: Option<ValidDate> := None;
    var i := 0;
    while i < |dates|
      invariant 0 <= i <= |dates|
      invariant issue == FirstWithRole(Issue, text, normalized, format, dates[..i])
      invariant expiry == FirstWithRole(Expiry, text, normalized, format, dates[..i])
    {
      var d := dates[i];
      var hasIssue, hasExpiry := Windows(text, normalized, format, d);
      FirstWithRoleStep(Issue, text, normalized, format, dates, i);
      FirstWithRoleStep(Expiry, text, normalized, format, dates, i);
      if hasIssue && issue.None? { issue := Some(d); }
      if hasExpiry && expiry.None? { expiry := Some(d); }
      i := i + 1;
    }
    assert dates[..i] == dates;
    if issue.None? && expiry.None? {
      issue := Some(Earliest(dates));
      expiry := Some(Latest(dates));
    }
    r := Roles(issue, expiry);
  }
}

=== FILE: dashboard.dfy ===
/** `Dashboard`: the four counters over the status rows of the user's
    businesses, the state badge and the date cell of the table. */
module Dashboard {
  import opened Options
  import opened Text
  import opened Calendar
  import opened Store

  /** 30 days in milliseconds, `30 * 24 * 60 * 60 * 1000`. */
  const ThirtyDays: int := 30 * 24 * 60 * 60 * 1000

  /** The number of rows that satisfy `p`: `rows.filter(p).length`. */
  function Count(rows: seq<PermitRow>, p: PermitRow -> bool): (r: nat)
    ensures r <= |rows|
  {
    if |rows| == 0 then 0 else (if p(rows[0]) then 1 else 0) + Count(rows[1..], p)
  }

  /** Counting distributes over concatenation ... */
  lemma {:induction false} CountAppend(a: seq<PermitRow>, b: seq<PermitRow>, p: PermitRow -> bool)
    ensures Count(a + b, p) == Count(a, p) + Count(b, p)
    decreases |a|
  {
    if |a| > 0 {
      assert (a + b)[1..] == a[1..] + b;
      CountAppend(a[1..], b, p);
    } else {
      assert a + b == b;
    }
  }

  /** ... counts exactly the rows satisfying `p` ... */
  lemma {:induction false} CountPositive(rows: seq<PermitRow>, p: PermitRow -> bool)
    ensures Count(rows, p) > 0 <==> exists i :: 0 <= i < |rows| && p(rows[i])
    ensures Count(rows, p) == |rows| <==> forall i :: 0 <= i < |rows| ==> p(rows[i])
    decreases |rows|
  {
    if |rows| > 0 {
      CountPositive(rows[1..], p);
      assert forall i :: 1 <= i < |rows| ==> rows[i] == rows[1..][i - 1];
    }
  }

  /** ... and two counts of conditions that exclude each other never add
      up to more than the rows. */
  lemma {:induction false} CountDisjoint(rows: seq<PermitRow>, p: PermitRow -> bool, q: PermitRow -> bool)
    requires forall x :: !(p(x) && q(x))
    ensures Count(rows, p) + Count(rows, q) <= |rows|
    decreases |rows|
  {
    if |rows| > 0 {
      CountDisjoint(rows[1..], p, q);
    }
  }

  predicate HasEstado(row: PermitRow, estado: seq<char>) {
    row.estado == Some(estado)
  }

  /** The Próximos a Vencer test of one row: an expiry that is set, not
      empty, reads as a time (`parse` is `new Date(...)`, absent for an
      Invalid Date, with which every comparison is false) and lies between
      now and 30 days from now, both ends included. */
  predicate DueSoon(row: PermitRow, now: int, parse: seq<char> -> Option<int>) {
    && row.fechaVencimiento.Some? && row.fechaVencimiento.value != ""
    && parse(row.fechaVencimiento.value).Some?
    && now <= parse(row.fechaVencimiento.value).value <= now + ThirtyDays
  }

  datatype Stats = Stats(total: nat, approved: nat, pending: nat, dueSoon: nat)

  /** The four cards. */
  function StatsOf(rows: seq<PermitRow>, now: int, parse: seq<char> -> Option<int>): (s: Stats)
    ensures s.total == |rows|
    ensures s.approved + s.pending <= s.total
    ensures s.dueSoon <= s.total
  {
    var approved := (row: PermitRow) => HasEstado(row, "aprobado");
    var pending := (row: PermitRow) => HasEstado(row, "pendiente");
    CountDisjoint(rows, approved, pending);
    Stats(|rows|, Count(rows, approved), Count(rows, pending), Count(rows, (row: PermitRow) => DueSoon(row, now, parse)))
  }

  /** A row without an expiry date, such as every row a new business
      starts with, is never counted as due soon. */
  lemma NoExpiryNeverDue(rows: seq<PermitRow>, now: int, parse: seq<char> -> Option<int>)
    requires forall i :: 0 <= i < |rows| ==> rows[i].fechaVencimiento.None?
    ensures StatsOf(rows, now, parse).dueSoon == 0
  {
    CountPositive(rows, (row: PermitRow) => DueSoon(row, now, parse));
  }

  /** Adding a row moves each counter by at most one, and only the counter
      of its own state. */
  lemma StatsOfSnoc(rows: seq<PermitRow>, row: PermitRow, now: int, parse: seq<char> -> Option<int>)
    ensures var before := StatsOf(rows, now, parse);
            var after := StatsOf(rows + [row], now, parse);
            && after.total == before.total + 1
            && after.approved == before.approved + (if HasEstado(row, "aprobado") then 1 else 0)
            && after.pending == before.pending + (if HasEstado(row, "pendiente") then 1 else 0)
            && after.dueSoon == before.dueSoon + (if DueSoon(row, now, parse) then 1 else 0)
  {
    var approved := (x: PermitRow) => HasEstado(x, "aprobado");
    var pending := (x: PermitRow) => HasEstado(x, "pendiente");
    var due := (x: PermitRow) => DueSoon(x, now, parse);
    CountAppend(rows, [row], approved);
    CountAppend(rows, [row], pending);
    CountAppend(rows, [row], due);
  }

  datatype Variant = Secondary | Default | Destructive
  datatype Icon = Clock | AlertCircle | CheckCircle | XCircle

  datatype Config = Config(variant: Variant, icon: Icon)

  /** `variants[estado]` of the Dashboard: the five known states. */
  function Known(estado: seq<char>): Option<Config> {
    if estado == "pendiente" then Some(Config(Secondary, Clock))
    else if estado == "en_proceso" then Some(Config(Default, AlertCircle))
    else if estado == "aprobado" then Some(Config(Default, CheckCircle))
    else if estado == "rechazado" then Some(Config(Destructive, XCircle))
    else if estado == "vencido" then Some(Config(Destructive, XCircle))
    else None
  }

  const KnownStates: seq<seq<char>> := ["pendiente", "en_proceso", "aprobado", "rechazado", "vencido"]

  /** `variants[estado] || variants.pendiente`; a null state is looked up
      as the key "null", which is unknown. */
  function ConfigOf(estado: Option<seq<char>>): (c: Config)
    ensures estado.Some? && Known(estado.value).Some? ==> c == Known(estado.value).value
    ensures estado.None? || Known(estado.value).None? ==> c == Known("pendiente").value
  {
    if estado.Some? && Known(estado.value).Some? then Known(estado.value).value
    else Known("pendiente").value
  }

  /** A state outside the five gets the pending look. */
  lemma UnknownLooksPending(estado: seq<char>)
    requires forall i :: 0 <= i < |KnownStates| ==> KnownStates[i] != estado
    ensures ConfigOf(Some(estado)) == Config(Secondary, Clock)
  {
    assert KnownStates[0] != estado && KnownStates[1] != estado && KnownStates[2] != estado;
    assert KnownStates[3] != estado && KnownStates[4] != estado;
  }

  /** `estado.replace('_', ' ').charAt(0).toUpperCase() +
      estado.slice(1).replace('_', ' ')`. */
  function Label(estado: seq<char>): seq<char> {
    if |estado| == 0 then ""
    else UpperChar(ReplaceFirst(estado, '_', ' ')[0]) + ReplaceFirst(estado[1..], '_', ' ')
  }

  /** The badge: its look and its text. The text cannot be built for a
      null state (`null.replace` throws), which is `None` here. */
  function Badge(estado: Option<seq<char>>): (r: (Config, Option<seq<char>>))
    ensures r.0 == ConfigOf(estado)
    ensures r.1.None? <==> estado.None?
  {
    (ConfigOf(estado), if estado.None? then None else Some(Label(estado.value)))
  }

  /** For an ASCII state the label has the state's length: the first
      character is upper-cased (a leading `_` becomes a space), and after it
      only the first `_` becomes a space, everything else is kept. */
  lemma LabelShape(estado: seq<char>)
    requires |estado| > 0 && forall i :: 0 <= i < |estado| ==> IsAscii(estado[i])
    ensures |Label(estado)| == |estado|
    ensures Label(estado)[0] == (if estado[0] == '_' then ' ' else UpperChar(estado[0])[0])
    ensures forall i :: 1 <= i < |estado| ==>
              Label(estado)[i] == (if estado[i] == '_' && '_' !in estado[1..i] then ' ' else estado[i])
  {
    var rest := ReplaceFirst(estado[1..], '_', ' ');
    var head := UpperChar(ReplaceFirst(estado, '_', ' ')[0]);
    assert |head| == 1;
    forall i | 1 <= i < |estado|
      ensures Label(estado)[i] == (if estado[i] == '_' && '_' !in estado[1..i] then ' ' else estado[i])
    {
      assert Label(estado)[i] == rest[i - 1];
      assert estado[1..][..i - 1] == estado[1..i];
    }
  }

  /** `formatFecha`, shared by the Dashboard and the business page: a
      missing or empty date reads "No definida", any other is given to the
      locale formatter `format` (`new Date(fecha).toLocaleDateString('es-CL')`). */
  function FormatFecha(fecha: Option<seq<char>>, format: seq<char> -> seq<char>): (r: seq<char>)
    ensures fecha.None? || fecha.value == "" ==> r == "No definida"
    ensures fecha.Some? && fecha.value != "" ==> r == format(fecha.value)
  {
    if fecha.None? || fecha.value == "" then "No definida" else format(fecha.value)
  }

  /** A status row confirmed with an expiry date shows that date as the
      formatter prints its ISO day; one confirmed or created without it
      shows "No definida". */
  lemma ExpiryCell(row: PermitRow, d: Option<ValidDate>, format: seq<char> -> seq<char>)
    requires d.Some? ==> row.fechaVencimiento == Some(IsoDay(d.value))
    requires d.None? ==> row.fechaVencimiento.None?
    ensures d.None? ==> FormatFecha(row.fechaVencimiento, format) == "No definida"
    ensures d.Some? ==> FormatFecha(row.fechaVencimiento, format) == format(IsoDay(d.value))
  {
    if d.Some? {
      assert |IsoDay(d.value)| > 0 by {
        assert IsoDay(d.value)[|IsoDay(d.value)| - 3] == '-';
      }
    }
  }
}

=== FILE: detect_permit.dfy ===
/** `detectPermitType` of the uploader and its table `permitMappings`: the
    first permit type, in table order, one of whose keywords occurs in the
    normalised text, with a confidence that grows with the number of its
    keywords found. The detector is written over any normaliser `norm`
    (`DetectWith`) and its properties are proved for all of them; the
    uploader's detector is the instance for `NormalizeText` (`DetectIn`). */
module DetectPermit {
  import opened Options
  import opened Text
  import opened Normalize

  /** One entry of `permitMappings`: the permit code (the `nombre` of the
      `permisos` catalogue), the keywords and the display name. */
  datatype Mapping = Mapping(code: seq<char>, keywords: seq<seq<char>>, name: seq<char>)

  datatype Detection = Detection(code: seq<char>, name: seq<char>, confidence: real)

  /** `permitMappings`, in insertion order (the order `Object.entries`
      yields for these non-numeric keys). */
  const PermitMappings: seq<Mapping> := [
    Mapping("PAT_MUN", ["patente municipal", "patente comercial", "municipal"], "Patente Municipal"),
    Mapping("RES_SAN", ["resolución sanitaria", "sanitaria", "seremi salud", "autorización sanitaria"],
            "Resolución Sanitaria"),
    Mapping("CERT_BOM", ["certificado bomberos", "bomberos", "prevención riesgos", "seguridad bomberos"],
            "Certificado de Bomberos"),
    Mapping("SII_INIT", ["inicio actividades", "iniciación actividades", "sii", "servicio impuestos"],
            "Inicio de Actividades SII"),
    Mapping("PER_ANU", ["permiso anuncio", "publicidad", "permiso publicidad", "anuncio", "propaganda"],
            "Permiso de Anuncio")
  ]

  /** The keywords as they are compared: each one normalised. */
  function Needles(norm: seq<char> -> seq<char>, keywords: seq<seq<char>>): (r: seq<seq<char>>)
    ensures |r| == |keywords|
    ensures forall i :: 0 <= i < |keywords| ==> r[i] == norm(keywords[i])
  {
    if |keywords| == 0 then [] else [norm(keywords[0])] + Needles(norm, keywords[1..])
  }

  /** A keyword counts when its normalised form occurs in the normalised text. */
  predicate KeywordFound(norm: seq<char> -> seq<char>, normalized: seq<char>, keyword: seq<char>) {
    Contains(normalized, norm(keyword))
  }

  /** `config.keywords.filter(...).length`, over the normalised keywords. */
  function MatchCount(normalized: seq<char>, needles: seq<seq<char>>): (r: nat)
    ensures r <= |needles|
  {
    if |needles| == 0 then 0
    else (if Contains(normalized, needles[0]) then 1 else 0) + MatchCount(normalized, needles[1..])
  }

  /** The count is positive exactly when one of the needles occurs. */
  lemma {:induction false} MatchCountPositive(normalized: seq<char>, needles: seq<seq<char>>)
    ensures MatchCount(normalized, needles) > 0 <==>
              exists i :: 0 <= i < |needles| && Contains(normalized, needles[i])
    decreases |needles|
  {
    if |needles| > 0 {
      MatchCountPositive(normalized, needles[1..]);
      assert forall i :: 1 <= i < |needles| ==> needles[i] == needles[1..][i - 1];
    }
  }

  /** The number of keywords of an entry found in the normalised text. */
  function Hits(norm: seq<char> -> seq<char>, normalized: seq<char>, entry: Mapping): nat {
    MatchCount(normalized, Needles(norm, entry.keywords))
  }

  /** An entry counts as matched exactly when one of its keywords is found. */
  lemma EntryMatches(norm: seq<char> -> seq<char>, normalized: seq<char>, entry: Mapping)
    ensures Hits(norm, normalized, entry) > 0 <==>
              exists i :: 0 <= i < |entry.keywords| && KeywordFound(norm, normalized, entry.keywords[i])
  {
    var needles := Needles(norm, entry.keywords);
    MatchCountPositive(normalized, needles);
    assert forall i :: 0 <= i < |entry.keywords| ==>
             (Contains(normalized, needles[i]) <==> KeywordFound(norm, normalized, entry.keywords[i]));
  }

  /** `Math.min(k / n + 0.5, 1)`, in exact arithmetic. */
  function Confidence(k: nat, n: nat): (r: real)
    requires 0 < n
    ensures 0.5 <= r <= 1.0
    ensures 0 < k <==> 0.5 < r
    ensures r == 1.0 <==> 2 * k >= n
  {
    var q := k as real / n as real + 0.5;
    if q < 1.0 then q else 1.0
  }

  /** For a fixed entry, more keywords found never lowers the confidence. */
  lemma ConfidenceMonotone(k1: nat, k2: nat, n: nat)
    requires 0 < n && k1 <= k2
    ensures Confidence(k1, n) <= Confidence(k2, n)
  {
    assert k1 as real / n as real <= k2 as real / n as real;
  }

  /** The position of the first entry with at least one keyword found. */
  function FirstMatching(norm: seq<char> -> seq<char>, normalized: seq<char>, table: seq<Mapping>): (r: Option<nat>)
    ensures r.None? <==> forall j :: 0 <= j < |table| ==> Hits(norm, normalized, table[j]) == 0
    ensures r.Some? ==> r.value < |table| && Hits(norm, normalized, table[r.value]) > 0
    ensures r.Some? ==> forall j :: 0 <= j < r.value ==> Hits(norm, normalized, table[j]) == 0
  {
    if |table| == 0 then None
    else if Hits(norm, normalized, table[0]) > 0 then Some(0)
    else
      var r := FirstMatching(norm, normalized, table[1..]);
      assert forall j :: 1 <= j < |table| ==> table[j] == table[1..][j - 1];
      if r.Some? then Some(r.value + 1) else None
  }

  /** Every entry has at least one keyword, so the confidence is defined. */
  predicate WellFormed(table: seq<Mapping>) {
    forall j :: 0 <= j < |table| ==> |table[j].keywords| > 0
  }

  lemma TableWellFormed()
    ensures WellFormed(PermitMappings)
  {
    assert forall j :: 0 <= j < |PermitMappings| ==> |PermitMappings[j].keywords| >= 3;
  }

  /** `detectPermitType` over a normaliser and a mapping table. */
  function DetectWith(norm: seq<char> -> seq<char>, table: seq<Mapping>, text: seq<char>): (r: Option<Detection>)
    requires WellFormed(table)
    ensures r.Some? ==> 0.5 < r.value.confidence <= 1.0
  {
    var normalized := norm(text);
    match FirstMatching(norm, normalized, table)
    case None => None
    case Some(j) =>
      var entry := table[j];
      Some(Detection(entry.code, entry.name, Confidence(Hits(norm, normalized, entry), |entry.keywords|)))
  }

  /** The uploader's detector over a mapping table: normalisation is
      `normalizeText`. */
  function DetectIn(table: seq<Mapping>, text: seq<char>): (r: Option<Detection>)
    requires WellFormed(table)
    ensures r.Some? ==> 0.5 < r.value.confidence <= 1.0
    ensures r.Some? ==> exists j :: 0 <= j < |table| && r.value.code == table[j].code && r.value.name == table[j].name
  {
    var r := DetectWith(NormalizeText, table, text);
    assert r.Some? ==> exists j :: 0 <= j < |table| && r.value.code == table[j].code && r.value.name == table[j].name by {
      if r.Some? {
        DetectFirstMatch(NormalizeText, table, text);
      }
    }
    r
  }

  /** The uploader's `detectPermitType`, over `permitMappings`. */
  function Detect(text: seq<char>): Option<Detection> {
    TableWellFormed();
    DetectIn(PermitMappings, text)
  }

  /** Nothing is detected exactly when no keyword of any entry is found. */
  lemma DetectNoneIff(norm: seq<char> -> seq<char>, table: seq<Mapping>, text: seq<char>)
    requires WellFormed(table)
    ensures DetectWith(norm, table, text).None? <==>
              forall j, i :: 0 <= j < |table| && 0 <= i < |table[j].keywords| ==>
                !KeywordFound(norm, norm(text), table[j].keywords[i])
  {
    var normalized := norm(text);
    if DetectWith(norm, table, text).Some? {
      var j := FirstMatching(norm, normalized, table).value;
      EntryMatches(norm, normalized, table[j]);
    } else {
      forall j, i | 0 <= j < |table| && 0 <= i < |table[j].keywords|
        ensures !KeywordFound(norm, normalized, table[j].keywords[i])
      {
        EntryMatches(norm, normalized, table[j]);
      }
    }
  }

  /** A detection names an entry of the table: the first, in table order,
      with a keyword found, every earlier entry having none; its confidence
      is computed from that entry's count of keywords found. */
  lemma DetectFirstMatch(norm: seq<char> -> seq<char>, table: seq<Mapping>, text: seq<char>)
    requires WellFormed(table) && DetectWith(norm, table, text).Some?
    ensures var normalized := norm(text);
            var d := DetectWith(norm, table, text).value;
            exists j :: 0 <= j < |table|
              && d.code == table[j].code && d.name == table[j].name
              && (exists i :: 0 <= i < |table[j].keywords| && KeywordFound(norm, normalized, table[j].keywords[i]))
              && d.confidence == Confidence(Hits(norm, normalized, table[j]), |table[j].keywords|)
              && (forall e, i :: 0 <= e < j && 0 <= i < |table[e].keywords| ==>
                    !KeywordFound(norm, normalized, table[e].keywords[i]))
  {
    var normalized := norm(text);
    var j := FirstMatching(norm, normalized, table).value;
    forall e, i | 0 <= e < j && 0 <= i < |table[e].keywords|
      ensures !KeywordFound(norm, normalized, table[e].keywords[i])
    {
      EntryMatches(norm, normalized, table[e]);
    }
    EntryMatches(norm, normalized, table[j]);
  }

  /** The five codes are distinct, so a code names one entry. */
  lemma CodesDistinct()
    ensures forall a, b :: 0 <= a < b < |PermitMappings| ==> PermitMappings[a].code != PermitMappings[b].code
  {
  }
}

=== FILE: edit_modal.dfy ===
/** `PermitEditModal`: the form in which a user corrects or chooses the
    permit type and dates of an uploaded file before confirming it. Dates
    are compared as the time of their local midnight against the clock
    `now`, in milliseconds on the same scale. */
module EditModal {
  import opened Options
  import opened Calendar
  import opened Uploader
  import DetectPermit

  datatype PermitOption = PermitOption(value: seq<char>, title: seq<char>)

  /** `permitOptions`, in display order. */
  const PermitOptions: seq<PermitOption> := [
    PermitOption("PAT_MUN", "Patente Municipal"),
    PermitOption("RES_SAN", "Resolución Sanitaria"),
    PermitOption("CERT_BOM", "Certificado de Bomberos"),
    PermitOption("SII_INIT", "Inicio de Actividades SII"),
    PermitOption("PER_ANU", "Permiso de Anuncio")
  ]

  /** The editor offers exactly the detector's types, in the same order and
      under the same names. */
  lemma OptionsMatchMappings()
    ensures |PermitOptions| == |DetectPermit.PermitMappings|
    ensures forall j :: 0 <= j < |PermitOptions| ==>
              PermitOptions[j].value == DetectPermit.PermitMappings[j].code
              && PermitOptions[j].title == DetectPermit.PermitMappings[j].name
  {
  }

  /** What the uploader passes in: the detection of the file, if any. */
  datatype Initial = Initial(code: Option<seq<char>>, name: Option<seq<char>>,
                             issue: Option<ValidDate>, expiry: Option<ValidDate>)

  datatype Form = Form(permitType: seq<char>, issue: Option<ValidDate>, expiry: Option<ValidDate>)

  /** `resetForm`, run whenever the editor opens: the initial type (or ''
      when it is missing or empty) and the initial dates. */
  function Reset(initial: Option<Initial>): (f: Form)
    ensures initial.None? ==> f == Form("", None, None)
    ensures initial.Some? ==> f.issue == initial.value.issue && f.expiry == initial.value.expiry
    ensures initial.Some? && initial.value.code.Some? ==> f.permitType == initial.value.code.value
    ensures initial.Some? && initial.value.code.None? ==> f.permitType == ""
  {
    if initial.None? then Form("", None, None)
    else
      var code := if initial.value.code.Some? && initial.value.code.value != "" then initial.value.code.value else "";
      Form(code, initial.value.issue, initial.value.expiry)
  }

  /** `permitOptions.find(p => p.value === permitType)`. */
  function FindOption(options: seq<PermitOption>, value: seq<char>): (r: Option<PermitOption>)
    ensures r.Some? ==> r.value in options && r.value.value == value
    ensures r.None? <==> forall j :: 0 <= j < |options| ==> options[j].value != value
  {
    if |options| == 0 then None
    else if options[0].value == value then Some(options[0])
    else
      var r := FindOption(options[1..], value);
      assert forall j :: 1 <= j < |options| ==> options[j] == options[1..][j - 1];
      r
  }

  /** `handleConfirm`: nothing for an empty or unknown type; otherwise the
      chosen type with its option's label and the dates as they are. */
  function HandleConfirm(f: Form): (r: Option<PermitInfo>)
    ensures f.permitType == "" ==> r.None?
    ensures r.Some? ==> r.value.code == f.permitType && r.value.issue == f.issue && r.value.expiry == f.expiry
    ensures r.Some? <==> exists j :: 0 <= j < |PermitOptions| && PermitOptions[j].value == f.permitType
  {
    if f.permitType == "" then None
    else match FindOption(PermitOptions, f.permitType)
      case None => None
      case Some(option) => Some(PermitInfo(f.permitType, option.title, f.issue, f.expiry))
  }

  /** The emitted name is the label of the option with the chosen type. */
  lemma ConfirmNamesOption(f: Form, j: nat)
    requires j < |PermitOptions| && PermitOptions[j].value == f.permitType
    ensures HandleConfirm(f) == Some(PermitInfo(f.permitType, PermitOptions[j].title, f.issue, f.expiry))
  {
    assert forall a, b :: 0 <= a < b < |PermitOptions| ==> PermitOptions[a].value != PermitOptions[b].value;
  }

  /** The issue-date picker disables the days after now. */
  predicate IssueDisabled(day: ValidDate, now: int) {
    Midnight(day) > now
  }

  /** The expiry picker disables the days before the chosen issue date, or
      before now when there is none. */
  predicate ExpiryDisabled(day: ValidDate, issue: Option<ValidDate>, now: int) {
    if issue.Some? then Midnight(day) < Midnight(issue.value) else Midnight(day) < now
  }

  /** With an issue date chosen, the expiry picker disables exactly the
      days that come before it in the calendar, and so never the issue day
      itself nor a later one. */
  lemma ExpiryAfterIssue(day: ValidDate, issue: ValidDate, now: int)
    ensures ExpiryDisabled(day, Some(issue), now) <==> DayNumber(day) < DayNumber(issue)
  {
  }

  /** Against the clock at some time of the day `today`: the issue picker
      disables exactly the days after today, so today stays selectable;
      without an issue date the expiry picker disables the days before
      today, never a later one, and today itself once its midnight has
      passed. */
  lemma PickersAgainstToday(day: ValidDate, today: ValidDate, now: int)
    requires Midnight(today) <= now < Midnight(today) + MsPerDay
    ensures IssueDisabled(day, now) <==> DayNumber(day) > DayNumber(today)
    ensures DayNumber(day) < DayNumber(today) ==> ExpiryDisabled(day, None, now)
    ensures DayNumber(day) > DayNumber(today) ==> !ExpiryDisabled(day, None, now)
    ensures DayNumber(day) == DayNumber(today) ==> (ExpiryDisabled(day, None, now) <==> now > Midnight(today))
  {
    DayScale(DayNumber(day), DayNumber(today), now);
  }

  /** Whole days on the millisecond scale: midnight `a` lies after a time
      of day `b` exactly when `a` is a later day, and before it when `a` is
      an earlier day. */
  lemma DayScale(a: int, b: int, now: int)
    requires b * MsPerDay <= now < b * MsPerDay + MsPerDay
    ensures a * MsPerDay > now <==> a > b
    ensures a < b ==> a * MsPerDay < now
    ensures a == b ==> (a * MsPerDay < now <==> now > b * MsPerDay)
  {
    if a > b { assert a * MsPerDay >= (b + 1) * MsPerDay; }
    if a < b { assert a * MsPerDay <= (b - 1) * MsPerDay; }
  }

  /** The Confirm button is enabled exactly when a type is selected. */
  predicate ConfirmEnabled(f: Form) {
    f.permitType != ""
  }

  /** An enabled Confirm can still emit nothing (a type outside the
      options), and a disabled one never emits. */
  lemma ConfirmEnabledNeeded(f: Form)
    ensures !ConfirmEnabled(f) ==> HandleConfirm(f).None?
    ensures HandleConfirm(f).Some? ==> ConfirmEnabled(f)
  {
  }

  /** The dates pass through unchanged, even ones the pickers would refuse:
      `handleConfirm` does not check them again. */
  lemma DatesNotRevalidated(f: Form, now: int)
    requires f.issue.Some? && IssueDisabled(f.issue.value, now)
    requires FindOption(PermitOptions, f.permitType).Some?
    ensures HandleConfirm(f).Some? && HandleConfirm(f).value.issue == f.issue
  {
  }
}

=== FILE: extract_dates.dfy ===
/** `extractDates` of the uploader: three date shapes are scanned for in the
    lower-cased text, every match is turned into a JavaScript `Date`, and
    only dates whose year lies in 2020..2030 are kept. */
module ExtractDates {
  import opened Options
  import opened Text
  import opened Calendar

  /** A JavaScript `Date` value: a calendar date, or Invalid Date (its time
      is NaN), which `new Date` yields when an argument is NaN. */
  datatype JsDate = InvalidDate | At(date: ValidDate)

  /** The three capture groups of one regular-expression match and the
      position right after it (`lastIndex`). */
  datatype Groups = Groups(g1: seq<char>, g2: seq<char>, g3: seq<char>, end: nat)

  /** The three patterns, tried in this order over the whole text each:
      `\b(\d{1,2})[\/\-\.](\d{1,2})[\/\-\.](\d{4})\b`,
      `\b(\d{1,2})\s+de\s+(\w+)\s+de\s+(\d{4})\b` and
      `\b(\d{4})[\/\-\.](\d{1,2})[\/\-\.](\d{1,2})\b`. */
  datatype Shape = DayFirst | Spelled | YearFirst

  const WindowStart: int := 2020
  const WindowEnd: int := 2030

  predicate IsSep(c: char) { c == '/' || c == '-' || c == '.' }

  /** `\b` at position `i`. */
  predicate WordBoundary(t: seq<char>, i: nat)
    requires i <= |t|
  {
    (i > 0 && IsWordChar(t[i - 1])) != (i < |t| && IsWordChar(t[i]))
  }

  predicate AllDigits(s: seq<char>) {
    |s| > 0 && forall k :: 0 <= k < |s| ==> IsDigit(s[k])
  }

  predicate DigitsAt(t: seq<char>, i: nat, n: nat) {
    i + n <= |t| && forall k :: i <= k < i + n ==> IsDigit(t[k])
  }

  /** `\b(\d{a})[sep](\d{b})[sep](\d{c})\b` at `i`, for fixed group widths. */
  function NumericAt(t: seq<char>, i: nat, a: nat, b: nat, c: nat): (r: Option<Groups>)
    requires i <= |t| && a > 0 && b > 0 && c > 0
    ensures r.Some? ==> i < r.value.end <= |t|
    ensures r.Some? ==> |r.value.g1| == a && |r.value.g2| == b && |r.value.g3| == c
    ensures r.Some? ==> AllDigits(r.value.g1) && AllDigits(r.value.g2) && AllDigits(r.value.g3)
  {
    var j := i + a + 1;
    var k := j + b + 1;
    if WordBoundary(t, i) && DigitsAt(t, i, a) && i + a < |t| && IsSep(t[i + a])
       && DigitsAt(t, j, b) && j + b < |t| && IsSep(t[j + b])
       && DigitsAt(t, k, c) && WordBoundary(t, k + c)
    then Some(Groups(t[i..i + a], t[j..j + b], t[k..k + c], k + c))
    else None
  }

  /** The first of the alternatives that succeeds, in backtracking order. */
  function FirstOf(alts: seq<Option<Groups>>): (r: Option<Groups>)
    ensures r.Some? ==> r in alts
  {
    if |alts| == 0 then None
    else if alts[0].Some? then alts[0]
    else FirstOf(alts[1..])
  }

  /** Length of the run of characters satisfying `IsJsSpace` at `i`. */
  function SpaceRun(t: seq<char>, i: nat): (n: nat)
    requires i <= |t|
    ensures i + n <= |t|
    ensures forall k :: i <= k < i + n ==> IsJsSpace(t[k])
    ensures i + n == |t| || !IsJsSpace(t[i + n])
    decreases |t| - i
  {
    if i < |t| && IsJsSpace(t[i]) then 1 + SpaceRun(t, i + 1) else 0
  }

  /** Length of the run of `\w` characters at `i`. */
  function WordRun(t: seq<char>, i: nat): (n: nat)
    requires i <= |t|
    ensures i + n <= |t|
    ensures forall k :: i <= k < i + n ==> IsWordChar(t[k])
    ensures i + n == |t| || !IsWordChar(t[i + n])
    decreases |t| - i
  {
    if i < |t| && IsWordChar(t[i]) then 1 + WordRun(t, i + 1) else 0
  }

  /** `\s+de\s+` at `i`: the position after it. The greedy runs cannot give
      back a character, since what follows each of them is not whitespace. */
  function DeAt(t: seq<char>, i: nat): (r: Option<nat>)
    requires i <= |t|
    ensures r.Some? ==> i < r.value <= |t|
  {
    var s1 := SpaceRun(t, i);
    var p := i + s1;
    if s1 > 0 && p + 2 <= |t| && t[p] == 'd' && t[p + 1] == 'e' then
      var s2 := SpaceRun(t, p + 2);
      if s2 > 0 then Some(p + 2 + s2) else None
    else None
  }

  /** `\b(\d{a})\s+de\s+(\w+)\s+de\s+(\d{4})\b` at `i`. */
  function SpelledAt(t: seq<char>, i: nat, a: nat): (r: Option<Groups>)
    requires i <= |t| && a > 0
    ensures r.Some? ==> i < r.value.end <= |t|
    ensures r.Some? ==> |r.value.g1| == a && AllDigits(r.value.g1)
    ensures r.Some? ==> |r.value.g3| == 4 && AllDigits(r.value.g3)
    ensures r.Some? ==> |r.value.g2| > 0 && forall k :: 0 <= k < |r.value.g2| ==> IsWordChar(r.value.g2[k])
  {
    if WordBoundary(t, i) && DigitsAt(t, i, a) then
      match DeAt(t, i + a)
      case None => None
      case Some(w) =>
        var n := WordRun(t, w);
        if n == 0 then None
        else
          match DeAt(t, w + n)
          case None => None
          case Some(y) =>
            if DigitsAt(t, y, 4) && WordBoundary(t, y + 4) then
              DigitsSlice(t, i, a);
              DigitsSlice(t, y, 4);
              WordSlice(t, w, n);
              Some(Groups(t[i..i + a], t[w..w + n], t[y..y + 4], y + 4))
            else None
    else None
  }

  lemma DigitsSlice(t: seq<char>, i: nat, n: nat)
    requires DigitsAt(t, i, n) && n > 0
    ensures AllDigits(t[i..i + n])
  {
    var u := t[i..i + n];
    forall k | 0 <= k < n ensures u[k] == t[i + k] {
    }
  }

  predicate AllWordChars(s: seq<char>) {
    forall k :: 0 <= k < |s| ==> IsWordChar(s[k])
  }

  lemma WordSlice(t: seq<char>, i: nat, n: nat)
    requires i + n <= |t| && forall k :: i <= k < i + n ==> IsWordChar(t[k])
    ensures AllWordChars(t[i..i + n])
  {
    var u := t[i..i + n];
    forall k | 0 <= k < n ensures u[k] == t[i + k] {
    }
  }

  /** What the capture groups of a match of each pattern look like. */
  predicate ShapeOf(shape: Shape, g: Groups) {
    match shape
    case DayFirst =>
      AllDigits(g.g1) && |g.g1| <= 2 && AllDigits(g.g2) && |g.g2| <= 2
      && AllDigits(g.g3) && |g.g3| == 4
    case Spelled =>
      AllDigits(g.g1) && |g.g1| <= 2 && AllDigits(g.g3) && |g.g3| == 4
      && |g.g2| > 0 && forall k :: 0 <= k < |g.g2| ==> IsWordChar(g.g2[k])
    case YearFirst =>
      AllDigits(g.g1) && |g.g1| == 4 && AllDigits(g.g2) && |g.g2| <= 2
      && AllDigits(g.g3) && |g.g3| <= 2
  }

  function MatchAt(shape: Shape, t: seq<char>, i: nat): (r: Option<Groups>)
    requires i <= |t|
    ensures r.Some? ==> i < r.value.end <= |t|
    ensures r.Some? ==> ShapeOf(shape, r.value)
  {
    match shape
    case DayFirst =>
      FirstOf([NumericAt(t, i, 2, 2, 4), NumericAt(t, i, 2, 1, 4),
               NumericAt(t, i, 1, 2, 4), NumericAt(t, i, 1, 1, 4)])
    case Spelled =>
      FirstOf([SpelledAt(t, i, 2), SpelledAt(t, i, 1)])
    case YearFirst =>
      FirstOf([NumericAt(t, i, 4, 2, 2), NumericAt(t, i, 4, 2, 1),
               NumericAt(t, i, 4, 1, 2), NumericAt(t, i, 4, 1, 1)])
  }

  /** A matcher over a text of length `n`: a match found at a position
      ends after it and within the text. */
  ghost predicate Advances(m: nat -> Option<Groups>, n: nat) {
    forall k: nat :: k < n && m(k).Some? ==> k < m(k).value.end <= n
  }

  /** The `while ((match = pattern.exec(text)) !== null)` loop of a global
      pattern, for any matcher: the match at `i` if there is one, then on
      from its end; otherwise on from `i + 1`. Every match it yields is the
      matcher's at some position at or after `i`. */
  function ScanWith(m: nat -> Option<Groups>, n: nat, i: nat): (r: seq<Groups>)
    requires i <= n && Advances(m, n)
    ensures forall j :: 0 <= j < |r| ==> exists k :: i <= k < n && m(k) == Some(r[j])
    decreases n - i
  {
    if i == n then []
    else
      match m(i)
      case Some(g) =>
        var rest := ScanWith(m, n, g.end);
        assert forall j :: 1 <= j < |rest| + 1 ==> ([g] + rest)[j] == rest[j - 1];
        [g] + rest
      case None => ScanWith(m, n, i + 1)
  }

  /** No match of `m` starts in `[i, k)`. */
  predicate NoMatchBetween(m: nat -> Option<Groups>, i: nat, k: nat) {
    forall j: nat :: i <= j < k ==> m(j).None?
  }

  /** The scan from `i` is empty exactly when no match starts at or after
      `i`. */
  lemma {:induction false} ScanEmpty(m: nat -> Option<Groups>, n: nat, i: nat)
    requires i <= n && Advances(m, n)
    ensures ScanWith(m, n, i) == [] <==> NoMatchBetween(m, i, n)
    decreases n - i
  {
    if i < n && m(i).None? {
      ScanEmpty(m, n, i + 1);
      assert NoMatchBetween(m, i, n) <==> NoMatchBetween(m, i + 1, n);
    }
  }

  /** A non-empty scan from `i` begins with the leftmost match at or after
      `i` and goes on from that match's end. */
  lemma {:induction false} ScanLeftmost(m: nat -> Option<Groups>, n: nat, i: nat, k: nat)
    requires i <= k < n && Advances(m, n)
    requires m(k).Some? && NoMatchBetween(m, i, k)
    ensures ScanWith(m, n, i) == [m(k).value] + ScanWith(m, n, m(k).value.end)
    decreases k - i
  {
    if i < k {
      assert m(i).None?;
      ScanLeftmost(m, n, i + 1, k);
    }
  }

  /** The three patterns' matcher over a lower-cased text. */
  function Matcher(shape: Shape, t: seq<char>): (m: nat -> Option<Groups>)
    ensures Advances(m, |t|)
    ensures forall k: nat :: k <= |t| ==> m(k) == MatchAt(shape, t, k)
  {
    (k: nat) => if k <= |t| then MatchAt(shape, t, k) else None
  }

  /** The global scan of one of the three patterns from position `i`:
      every match found has the pattern's group shapes. */
  function Scan(shape: Shape, t: seq<char>, i: nat): (r: seq<Groups>)
    requires i <= |t|
    ensures forall k :: 0 <= k < |r| ==> ShapeOf(shape, r[k])
  {
    var m := Matcher(shape, t);
    var r := ScanWith(m, |t|, i);
    assert forall j :: 0 <= j < |r| ==> ShapeOf(shape, r[j]) by {
      forall j | 0 <= j < |r| ensures ShapeOf(shape, r[j]) {
        var k :| i <= k < |t| && m(k) == Some(r[j]);
        assert MatchAt(shape, t, k) == Some(r[j]);
      }
    }
    r
  }

  function DigitValue(c: char): int { c as int - '0' as int }

  function HexValue(c: char): int {
    if IsDigit(c) then DigitValue(c)
    else if 'a' <= c <= 'f' then c as int - 'a' as int + 10
    else c as int - 'A' as int + 10
  }

  predicate IsHexDigit(c: char) {
    IsDigit(c) || 'a' <= c <= 'f' || 'A' <= c <= 'F'
  }

  /** The value of the leading run of digits of `s` in base 10 or 16. */
  function PrefixValue(s: seq<char>, hex: bool, acc: nat): nat
    decreases |s|
  {
    if |s| > 0 && (if hex then IsHexDigit(s[0]) else IsDigit(s[0]))
    then PrefixValue(s[1..], hex, acc * (if hex then 16 else 10)
                                  + (if hex then HexValue(s[0]) else DigitValue(s[0])))
    else acc
  }

  /** Reading one more digit multiplies the value read so far by ten. */
  lemma {:induction false} PrefixValueSnoc(s: seq<char>, c: char, acc: nat)
    requires OnlyDigits(s) && IsDigit(c)
    ensures PrefixValue(s + [c], false, acc) == PrefixValue(s, false, acc) * 10 + DigitValue(c)
    decreases |s|
  {
    if |s| == 0 {
      assert (s + [c])[1..] == [];
    } else {
      assert (s + [c])[1..] == s[1..] + [c];
      PrefixValueSnoc(s[1..], c, acc * 10 + DigitValue(s[0]));
    }
  }

  /** On a digit string the left-to-right reading of `parseInt` gives the
      positional value. */
  lemma {:induction false} DecimalPrefix(s: seq<char>)
    requires OnlyDigits(s)
    ensures PrefixValue(s, false, 0) == DigitsValue(s)
    decreases |s|
  {
    if |s| > 0 {
      var init := s[..|s| - 1];
      DecimalPrefix(init);
      assert s == init + [s[|s| - 1]];
      PrefixValueSnoc(init, s[|s| - 1], 0);
    }
  }

  /** `parseInt(s)` without a radix on a string with no leading sign or
      whitespace: a `0x` prefix selects base 16, the longest digit prefix is
      read, and a string with no digit there is NaN (absent). */
  function ParseInt(s: seq<char>): (r: Option<int>)
    ensures r.Some? ==> r.value >= 0
    ensures |s| == 0 || !IsDigit(s[0]) ==> r.None?
    ensures AllDigits(s) ==> r == Some(DigitsValue(s))
  {
    if AllDigits(s) then DecimalPrefix(s); Some(PrefixValue(s, false, 0))
    else if |s| >= 2 && s[0] == '0' && (s[1] == 'x' || s[1] == 'X') then
      if |s| >= 3 && IsHexDigit(s[2]) then Some(PrefixValue(s[2..], true, 0)) else None
    else if |s| > 0 && IsDigit(s[0]) then Some(PrefixValue(s, false, 0))
    else None
  }

  /** The twelve month names of `extractDates`'s `months` table. */
  function MonthNumber(w: seq<char>): (r: Option<int>)
    ensures r.Some? ==> 1 <= r.value <= 12
    ensures r.Some? ==> |w| > 0 && IsAsciiLower(w[0])
  {
    if w == "enero" then Some(1) else if w == "febrero" then Some(2)
    else if w == "marzo" then Some(3) else if w == "abril" then Some(4)
    else if w == "mayo" then Some(5) else if w == "junio" then Some(6)
    else if w == "julio" then Some(7) else if w == "agosto" then Some(8)
    else if w == "septiembre" then Some(9) else if w == "octubre" then Some(10)
    else if w == "noviembre" then Some(11) else if w == "diciembre" then Some(12)
    else None
  }

  /** `new Date(year, monthIndex, day)` where any argument may be NaN. */
  function NewDate(year: Option<int>, monthIndex: Option<int>, day: Option<int>): (r: JsDate)
    ensures r.InvalidDate? <==> year.None? || monthIndex.None? || day.None?
  {
    if year.Some? && monthIndex.Some? && day.Some?
    then At(MakeDate(year.value, monthIndex.value, day.value))
    else InvalidDate
  }

  /** `x > 1900` with NaN comparing false. */
  predicate Above1900(x: Option<int>) { x.Some? && x.value > 1900 }

  function MinusOne(x: Option<int>): Option<int> {
    if x.Some? then Some(x.value - 1) else None
  }

  /** The body of the scanning loop for one match: the date pushed, if any.
      A match whose middle group is a month name always pushes; any other
      pushes exactly when its first or its last group reads as a number
      above 1900. */
  function DateOfMatch(g: Groups): (r: Option<JsDate>)
    ensures MonthNumber(g.g2).Some? ==> r.Some?
    ensures MonthNumber(g.g2).None? ==> (r.Some? <==> Above1900(ParseInt(g.g1)) || Above1900(ParseInt(g.g3)))
  {
    match MonthNumber(g.g2)
    case Some(m) => Some(NewDate(ParseInt(g.g3), Some(m - 1), ParseInt(g.g1)))
    case None =>
      var p0 := ParseInt(g.g1);
      var p1 := ParseInt(g.g2);
      var p2 := ParseInt(g.g3);
      if Above1900(p2) then Some(NewDate(p2, MinusOne(p1), p0))
      else if Above1900(p0) then Some(NewDate(p0, MinusOne(p1), p2))
      else None
  }

  /** The dates pushed for a sequence of matches: every pushed date is the
      date of one of the matches, and every match that yields a date has it
      pushed. */
  function PushedDates(ms: seq<Groups>): (r: seq<JsDate>)
    ensures |r| <= |ms|
    ensures forall i :: 0 <= i < |r| ==> exists k :: 0 <= k < |ms| && DateOfMatch(ms[k]) == Some(r[i])
    ensures forall k :: 0 <= k < |ms| && DateOfMatch(ms[k]).Some? ==> DateOfMatch(ms[k]).value in r
  {
    if |ms| == 0 then []
    else
      var rest := PushedDates(ms[1..]);
      assert forall k :: 1 <= k < |ms| ==> ms[k] == ms[1..][k - 1];
      match DateOfMatch(ms[0])
      case Some(d) => [d] + rest
      case None => rest
  }

  /** `getFullYear()` in 2020..2030; NaN for Invalid Date fails both tests. */
  predicate InWindow(d: JsDate) {
    d.At? && WindowStart <= d.date.year <= WindowEnd
  }

  /** The year filter: exactly the pushed dates inside the window, in order. */
  function KeepInWindow(ds: seq<JsDate>): (r: seq<ValidDate>)
    ensures forall i :: 0 <= i < |r| ==> WindowStart <= r[i].year <= WindowEnd
    ensures forall i :: 0 <= i < |r| ==> At(r[i]) in ds
    ensures forall i :: 0 <= i < |ds| && InWindow(ds[i]) ==> ds[i].date in r
    ensures |r| <= |ds|
  {
    if |ds| == 0 then []
    else if InWindow(ds[0]) then [ds[0].date] + KeepInWindow(ds[1..])
    else KeepInWindow(ds[1..])
  }

  /** The year filter goes element by element: filtering a concatenation
      concatenates the filtered parts. */
  lemma {:induction false} KeepInWindowAppend(a: seq<JsDate>, b: seq<JsDate>)
    ensures KeepInWindow(a + b) == KeepInWindow(a) + KeepInWindow(b)
    decreases |a|
  {
    if |a| == 0 {
      assert a + b == b;
    } else {
      assert (a + b)[0] == a[0];
      assert (a + b)[1..] == a[1..] + b;
      KeepInWindowAppend(a[1..], b);
    }
  }

  /** A single date is kept, as its calendar date, exactly when its year is
      in the window. */
  lemma KeepInWindowSingle(d: JsDate)
    ensures KeepInWindow([d]) == (if InWindow(d) then [d.date] else [])
  {
    assert [d][1..] == [];
  }

  /** All dates pushed by the three scans, in pattern order, before the
      year filter. */
  function Candidates(text: seq<char>): seq<JsDate> {
    var t := Lower(text);
    PushedDates(Scan(DayFirst, t, 0)) + PushedDates(Scan(Spelled, t, 0))
      + PushedDates(Scan(YearFirst, t, 0))
  }

  /** The uploader's `extractDates`. */
  function Extract(text: seq<char>): (r: seq<ValidDate>)
    ensures forall i :: 0 <= i < |r| ==> WindowStart <= r[i].year <= WindowEnd
  {
    KeepInWindow(Candidates(text))
  }

  /** The kept dates come pattern by pattern: those of day-first matches,
      then those of spelled-out matches, then those of year-first matches,
      each in the order of the scan. */
  lemma ExtractInPatternOrder(text: seq<char>)
    ensures var t := Lower(text);
            Extract(text) == KeepInWindow(PushedDates(Scan(DayFirst, t, 0)))
                             + KeepInWindow(PushedDates(Scan(Spelled, t, 0)))
                             + KeepInWindow(PushedDates(Scan(YearFirst, t, 0)))
  {
    var t := Lower(text);
    var a, b, c := PushedDates(Scan(DayFirst, t, 0)), PushedDates(Scan(Spelled, t, 0)),
                   PushedDates(Scan(YearFirst, t, 0));
    KeepInWindowAppend(a + b, c);
    KeepInWindowAppend(a, b);
  }

  /** At most two digits read as a number below 100, so never as a year. */
  lemma SmallNumber(s: seq<char>)
    requires AllDigits(s) && |s| <= 2
    ensures ParseInt(s).Some? && ParseInt(s).value <= 99
  {
    var v0 := DigitValue(s[0]);
    assert |s| >= 2 ==> IsDigit(s[1]);
    assert ParseInt(s) == Some(PrefixValue(s, false, 0));
    assert PrefixValue(s, false, 0) == PrefixValue(s[1..], false, v0);
    if |s| == 2 {
      var v1 := DigitValue(s[1]);
      assert s[1..][0] == s[1] && s[1..][1..] == [];
      assert PrefixValue(s[1..], false, v0) == PrefixValue(s[1..][1..], false, v0 * 10 + v1);
    } else {
      assert s[1..] == [];
    }
  }

  /** A day-first numeric match (`3/4/2025`) is read day, month, year when
      its four-digit group exceeds 1900, and pushes nothing otherwise. */
  lemma DayFirstReading(g: Groups)
    requires ShapeOf(DayFirst, g)
    ensures var d, m, y := ParseInt(g.g1).value, ParseInt(g.g2).value, ParseInt(g.g3).value;
            && (y > 1900 ==> DateOfMatch(g) == Some(At(MakeDate(y, m - 1, d))))
            && (y <= 1900 ==> DateOfMatch(g) == None)
  {
    SmallNumber(g.g1);
    SmallNumber(g.g2);
    NotAMonth(g.g2);
  }

  /** A day-first match that spells a real calendar date after 1900 yields
      exactly that date. */
  lemma DayFirstExactDate(g: Groups, d: int, m: int, y: int)
    requires ShapeOf(DayFirst, g)
    requires ParseInt(g.g1) == Some(d) && ParseInt(g.g2) == Some(m) && ParseInt(g.g3) == Some(y)
    requires y > 1900 && Valid(Date(y, m, d))
    ensures DateOfMatch(g) == Some(At(Date(y, m, d)))
  {
    NotAMonth(g.g2);
    MakeDateOfValid(Date(y, m, d));
  }

  /** A year-first numeric match (`2025-04-03`) is read year, month, day
      when its four-digit group exceeds 1900, and pushes nothing otherwise. */
  lemma YearFirstReading(g: Groups)
    requires ShapeOf(YearFirst, g)
    ensures var y, m, d := ParseInt(g.g1).value, ParseInt(g.g2).value, ParseInt(g.g3).value;
            && (y > 1900 ==> DateOfMatch(g) == Some(At(MakeDate(y, m - 1, d))))
            && (y <= 1900 ==> DateOfMatch(g) == None)
  {
    SmallNumber(g.g2);
    SmallNumber(g.g3);
    NotAMonth(g.g2);
  }

  /** A year-first match that spells a real calendar date after 1900 yields
      exactly that date. */
  lemma YearFirstExactDate(g: Groups, y: int, m: int, d: int)
    requires ShapeOf(YearFirst, g)
    requires ParseInt(g.g1) == Some(y) && ParseInt(g.g2) == Some(m) && ParseInt(g.g3) == Some(d)
    requires y > 1900 && Valid(Date(y, m, d))
    ensures DateOfMatch(g) == Some(At(Date(y, m, d)))
  {
    NotAMonth(g.g2);
    MakeDateOfValid(Date(y, m, d));
  }

  lemma NotAMonth(w: seq<char>)
    requires AllDigits(w)
    ensures MonthNumber(w).None?
  {
    assert IsDigit(w[0]);
  }

  /** A spelled-out match (`3 de abril de 2025`) whose word is one of the
      twelve month names takes its month from the table; a day inside that
      month gives exactly that calendar date. */
  lemma SpelledReading(g: Groups, m: int)
    requires ShapeOf(Spelled, g) && MonthNumber(g.g2) == Some(m)
    ensures var d, y := ParseInt(g.g1).value, ParseInt(g.g3).value;
            && DateOfMatch(g) == Some(At(MakeDate(y, m - 1, d)))
            && (y > 99 && 1 <= d <= DaysInMonth(y, m) ==> DateOfMatch(g) == Some(At(Date(y, m, d))))
  {
    var d, y := ParseInt(g.g1).value, ParseInt(g.g3).value;
    assert DateOfMatch(g) == Some(NewDate(Some(y), Some(m - 1), Some(d)));
    if y > 99 && 1 <= d <= DaysInMonth(y, m) {
      MakeDateOfValid(Date(y, m, d));
    }
  }

  /** A spelled-out match whose word starts with a digit (`5 de 3 de 2025`)
      is no month name, so it takes the numeric branch: the word is read by
      `parseInt` as the month, the four-digit group as the year and the
      first group as the day, and nothing is pushed for a year up to 1900. */
  lemma {:induction false} SpelledDigitWord(g: Groups)
    requires ShapeOf(Spelled, g) && IsDigit(g.g2[0])
    ensures var d, y := ParseInt(g.g1).value, ParseInt(g.g3).value;
            && (y > 1900 ==> DateOfMatch(g) == Some(NewDate(Some(y), MinusOne(ParseInt(g.g2)), Some(d))))
            && (y > 1900 && AllDigits(g.g2) ==> DateOfMatch(g) == Some(At(MakeDate(y, DigitsValue(g.g2) - 1, d))))
            && (y <= 1900 ==> DateOfMatch(g) == None)
  {
    SmallNumber(g.g1);
    assert MonthNumber(g.g2).None?;
  }

  /** `5 de 3 de 2025` is a spelled-out match whose date, the fifth of
      March 2025, the year filter keeps. */
  lemma DigitWordKept()
    ensures ShapeOf(Spelled, Groups("5", "3", "2025", 14))
    ensures DateOfMatch(Groups("5", "3", "2025", 14)) == Some(At(Date(2025, 3, 5)))
    ensures InWindow(At(Date(2025, 3, 5)))
  {
    var g := Groups("5", "3", "2025", 14);
    SpelledDigitWord(g);
    MakeDateOfValid(Date(2025, 3, 5));
  }

  /** A word that is not a month name and has no leading digit makes the
      month NaN, so the match yields Invalid Date, which the year filter
      drops. */
  lemma UnknownMonthDropped(g: Groups)
    requires ShapeOf(Spelled, g) && MonthNumber(g.g2).None? && !IsDigit(g.g2[0])
    ensures DateOfMatch(g) == None || DateOfMatch(g) == Some(InvalidDate)
    ensures DateOfMatch(g).Some? ==> !InWindow(DateOfMatch(g).value)
  {
  }
}

=== FILE: manual_permit.dfy ===
/** `ManualPermitModal`: adding a permit type to a business by hand. The
    form holds the chosen catalogue id and the two date fields as the date
    inputs give them (`""` or `yyyy-mm-dd`); submitting upserts the status
    row of the pair as pending. */
module ManualPermit {
  import opened Options
  import opened Store
  import Uploader

  const NextStep: seq<char> := "Agregar documento de respaldo"

  datatype Form = Form(permitId: seq<char>, issue: seq<char>, expiry: seq<char>)

  /** What a submission leaves behind: the table, the form, and whether
      the parent was told that a permit was added (and the modal closed). */
  datatype Submitted = Submitted(db: Db, form: Form, added: bool)

  /** The upsert payload of `handleSubmit`. */
  function Payload(businessId: seq<char>, f: Form): (p: PermitPayload)
    ensures KeyOf(p) == Key(businessId, f.permitId)
    ensures Complete(p)
  {
    PermitPayload(businessId, f.permitId, Given(Some("pendiente")), Given(Some("required")),
                  OrNull(f.issue), OrNull(f.expiry), Given(Some(NextStep)))
  }

  /** `handleClose`: the selection and both dates are cleared. */
  function Close(f: Form): (r: Form)
    ensures r.permitId == "" && r.issue == "" && r.expiry == ""
  {
    Form("", "", "")
  }

  /** `handleSubmit`: without a selected permit or a signed-in user nothing
      happens; otherwise the status row is upserted on the pair and, when
      the call succeeds, the parent is told and the form is closed; a failed
      call changes nothing. */
  function Submit(db: Db, businessId: seq<char>, user: Option<seq<char>>, f: Form,
                  freshId: seq<char>, upsertOk: bool): (r: Submitted)
    ensures f.permitId == "" || user.None? ==> r == Submitted(db, f, false)
    ensures !upsertOk ==> r == Submitted(db, f, false)
    ensures r.added ==> r.form == Close(f)
  {
    if f.permitId == "" || user.None? then Submitted(db, f, false)
    else if !upsertOk then Submitted(db, f, false)
    else Submitted(Upsert(db, Payload(businessId, f), freshId), Close(f), true)
  }

  /** A successful submission leaves exactly one row for the pair, pending
      and required with the fixed next step, the dates as typed (an empty
      field as null), and the row id it already had; no other row changes. */
  lemma SubmitWritesPending(db: Db, businessId: seq<char>, user: Option<seq<char>>, f: Form,
                            freshId: seq<char>, upsertOk: bool)
    requires f.permitId != "" && user.Some? && upsertOk
    ensures var r := Submit(db, businessId, user, f, freshId, upsertOk);
            var k := Key(businessId, f.permitId);
            && r.added
            && r.db.permits.Keys == db.permits.Keys + {k}
            && (forall other :: other in db.permits && other != k ==> r.db.permits[other] == db.permits[other])
            && var row := r.db.permits[k];
               && row.estado == Some("pendiente") && row.status == Some("required")
               && row.proximoPaso == Some(NextStep)
               && row.fechaEmision == (if f.issue == "" then None else Some(f.issue))
               && row.fechaVencimiento == (if f.expiry == "" then None else Some(f.expiry))
               && (k in db.permits ==> row.id == db.permits[k].id)
  {
  }

  /** The manual upsert and the confirmation of an uploaded document write
      the same key, so the later one wins: adding a permit by hand after a
      confirmation resets the row to pending and required, with only the
      dates typed by hand, keeping the row id the confirmation gave it. */
  lemma ManualAfterConfirm(db: Db, businessId: seq<char>, permisoId: seq<char>, info: Uploader.PermitInfo,
                           confirmId: seq<char>, f: Form, manualId: seq<char>)
    requires f.permitId == permisoId
    ensures var confirmed := Upsert(db, Uploader.ConfirmPayload(businessId, permisoId, info), confirmId);
            var manual := Upsert(confirmed, Payload(businessId, f), manualId);
            && manual == Upsert(db, Payload(businessId, f), confirmId)
            && manual.permits[Key(businessId, permisoId)].estado == Some("pendiente")
            && manual.permits[Key(businessId, permisoId)].status == Some("required")
  {
    LastWriteWins(db, Uploader.ConfirmPayload(businessId, permisoId, info), confirmId, Payload(businessId, f), manualId);
  }

  /** The submit button is disabled while a call runs or when no permit is
      selected. */
  predicate SubmitDisabled(loading: bool, f: Form) {
    loading || f.permitId == ""
  }

  /** A closed form cannot be submitted, the button refuses a form without
      a selection whether or not a call runs, and such a form writes nothing
      even when submitted. */
  lemma DisabledWritesNothing(db: Db, businessId: seq<char>, user: Option<seq<char>>, f: Form,
                              freshId: seq<char>, upsertOk: bool, loading: bool)
    ensures SubmitDisabled(loading, Close(f))
    ensures f.permitId == "" ==> SubmitDisabled(loading, f)
    ensures f.permitId == "" ==> Submit(db, businessId, user, f, freshId, upsertOk).db == db
  {
  }

  /** Conversely, a form the idle button accepts is added when a user is
      signed in and the call succeeds. */
  lemma EnabledSubmitAdds(db: Db, businessId: seq<char>, user: Option<seq<char>>, f: Form,
                          freshId: seq<char>, upsertOk: bool)
    requires !SubmitDisabled(false, f) && user.Some? && upsertOk
    ensures Submit(db, businessId, user, f, freshId, upsertOk).added
  {
  }
}

=== FILE: normalize.dfy ===
/** `normalizeText` of the uploader: lower-case, canonical decomposition with
    the combining marks removed, punctuation to spaces, whitespace runs to
    one space, ends trimmed. Both the recognised text and the keyword tables
    go through it before any substring test. */
module Normalize {
  import opened Text

  /** What may appear in a normalised string: lower-case ASCII letters,
      digits, `_` and the plain space. */
  predicate IsOutChar(c: char) {
    IsAsciiLower(c) || IsDigit(c) || c == '_' || c == ' '
  }

  predicate AllOut(s: seq<char>) {
    forall i :: 0 <= i < |s| ==> IsOutChar(s[i])
  }

  predicate NoDoubleSpace(s: seq<char>) {
    forall i :: 0 <= i < |s| - 1 ==> !(s[i] == ' ' && s[i + 1] == ' ')
  }

  predicate Trimmed(s: seq<char>) {
    |s| == 0 || (s[0] != ' ' && s[|s| - 1] != ' ')
  }

  /** The shape of every result of `NormalizeText`. */
  predicate Clean(s: seq<char>) {
    AllOut(s) && NoDoubleSpace(s) && Trimmed(s)
  }

  /** Canonical (NFD) decomposition of one lower-cased code point followed by
      removal of the combining marks U+0300..U+036F: a Latin-1 letter with a
      diacritic keeps its base letter, a combining mark disappears. */
  function StripMark(c: char): (r: seq<char>)
    ensures '\U{0300}' <= c <= '\U{036F}' ==> r == []
    ensures |r| <= 1
    ensures IsOutChar(c) ==> r == [c]
    ensures !IsAsciiUpper(c) ==> forall i :: 0 <= i < |r| ==> !IsAsciiUpper(r[i])
  {
    if '\U{0300}' <= c <= '\U{036F}' then []
    else if c in "àáâãäå" then "a"
    else if c == 'ç' then "c"
    else if c in "èéêë" then "e"
    else if c in "ìíîï" then "i"
    else if c == 'ñ' then "n"
    else if c in "òóôõö" then "o"
    else if c in "ùúûü" then "u"
    else if c in "ýÿ" then "y"
    else [c]
  }

  /** `toLowerCase`, `normalize('NFD')` and the removal of U+0300..U+036F,
      one code point at a time. */
  function FoldChar(c: char): (r: seq<char>)
    ensures IsOutChar(c) ==> r == [c]
    ensures forall i :: 0 <= i < |r| ==> !IsAsciiUpper(r[i])
  {
    StripMark(LowerChar(c))
  }

  function Fold(s: seq<char>): (r: seq<char>)
    ensures forall i :: 0 <= i < |r| ==> !IsAsciiUpper(r[i])
  {
    if |s| == 0 then [] else FoldChar(s[0]) + Fold(s[1..])
  }

  /** `replace(/[^\w\s]/g, ' ')`. */
  function Scrub(s: seq<char>): (r: seq<char>)
    ensures |r| == |s|
    ensures forall i :: 0 <= i < |s| ==>
              r[i] == (if IsWordChar(s[i]) || IsJsSpace(s[i]) then s[i] else ' ')
  {
    if |s| == 0 then []
    else [if IsWordChar(s[0]) || IsJsSpace(s[0]) then s[0] else ' '] + Scrub(s[1..])
  }

  /** The leading run of whitespace removed. */
  function DropSpaces(s: seq<char>): (r: seq<char>)
    ensures |r| <= |s| && r == s[|s| - |r|..]
    ensures |r| > 0 ==> !IsJsSpace(r[0])
    ensures forall i :: 0 <= i < |s| - |r| ==> IsJsSpace(s[i])
  {
    if |s| > 0 && IsJsSpace(s[0]) then DropSpaces(s[1..]) else s
  }

  /** `replace(/\s+/g, ' ')`. */
  function Collapse(s: seq<char>): (r: seq<char>)
    decreases |s|
  {
    if |s| == 0 then []
    else if IsJsSpace(s[0]) then [' '] + Collapse(DropSpaces(s[1..]))
    else [s[0]] + Collapse(s[1..])
  }

  /** How many leading whitespace characters `trim()` removes. */
  function Lead(s: seq<char>): nat {
    |s| - |DropSpaces(s)|
  }

  /** `trim()`: leading and trailing whitespace removed. */
  function Trim(s: seq<char>): (r: seq<char>)
    ensures Lead(s) + |r| <= |s| && r == s[Lead(s)..Lead(s) + |r|]
    ensures |r| > 0 ==> !IsJsSpace(r[0]) && !IsJsSpace(r[|r| - 1])
  {
    var d := DropSpaces(s);
    var r := TrimEnd(d);
    TrimSlice(s, d, r);
    r
  }

  lemma TrimSlice(s: seq<char>, d: seq<char>, r: seq<char>)
    requires |d| <= |s| && d == s[|s| - |d|..]
    requires |r| <= |d| && r == d[..|r|]
    ensures |s| - |d| + |r| <= |s| && r == s[|s| - |d|..|s| - |d| + |r|]
    ensures |r| > 0 ==> r[0] == d[0]
  {
  }

  function TrimEnd(s: seq<char>): (r: seq<char>)
    ensures |r| <= |s| && r == s[..|r|]
    ensures |r| > 0 ==> !IsJsSpace(r[|r| - 1])
    ensures |s| > 0 && !IsJsSpace(s[|s| - 1]) ==> r == s
  {
    if |s| > 0 && IsJsSpace(s[|s| - 1]) then TrimEnd(s[..|s| - 1]) else s
  }

  /** The uploader's `normalizeText`. */
  function NormalizeText(s: seq<char>): (r: seq<char>)
    ensures Clean(r)
  {
    var folded := Fold(s);
    var scrubbed := Scrub(folded);
    ScrubbedShape(folded);
    var collapsed := Collapse(scrubbed);
    CollapseShape(scrubbed);
    var t := Trim(collapsed);
    TrimKeepsShape(collapsed);
    t
  }

  /** Every character is a word character other than an upper-case letter,
      or whitespace: the shape `Scrub` leaves behind after `Fold`. */
  predicate WordOrSpace(s: seq<char>) {
    forall i :: 0 <= i < |s| ==> (IsWordChar(s[i]) && !IsAsciiUpper(s[i])) || IsJsSpace(s[i])
  }

  lemma ScrubbedShape(s: seq<char>)
    requires forall i :: 0 <= i < |s| ==> !IsAsciiUpper(s[i])
    ensures WordOrSpace(Scrub(s))
  {
  }

  /** The shape of `Collapse`'s result: normalised characters only, no two
      spaces in a row, and a leading space exactly when the input began with
      whitespace. */
  lemma {:induction false} CollapseShape(s: seq<char>)
    requires WordOrSpace(s)
    ensures AllOut(Collapse(s)) && NoDoubleSpace(Collapse(s))
    ensures |Collapse(s)| > 0 <==> |s| > 0
    ensures |s| > 0 ==> (Collapse(s)[0] == ' ' <==> IsJsSpace(s[0]))
    decreases |s|
  {
    if |s| == 0 {
    } else if IsJsSpace(s[0]) {
      var rest := DropSpaces(s[1..]);
      WordOrSpaceSuffix(s, 1);
      WordOrSpaceSuffix(s[1..], |s[1..]| - |rest|);
      CollapseShape(rest);
      assert Collapse(s) == [' '] + Collapse(rest);
      ConsKeepsShape(' ', Collapse(rest));
    } else {
      WordOrSpaceSuffix(s, 1);
      CollapseShape(s[1..]);
      assert IsWordChar(s[0]) && !IsAsciiUpper(s[0]);
      assert Collapse(s) == [s[0]] + Collapse(s[1..]);
      ConsKeepsShape(s[0], Collapse(s[1..]));
    }
  }

  /** One normalised character in front of a normalised string without
      double spaces keeps both properties, unless both are spaces. */
  lemma ConsKeepsShape(c: char, t: seq<char>)
    requires IsOutChar(c) && AllOut(t) && NoDoubleSpace(t)
    requires c == ' ' && |t| > 0 ==> t[0] != ' '
    ensures AllOut([c] + t) && NoDoubleSpace([c] + t)
  {
    var u := [c] + t;
    forall i | 1 <= i < |u| ensures u[i] == t[i - 1] {
    }
  }

  /** Every suffix of a scrubbed string is scrubbed. */
  lemma WordOrSpaceSuffix(s: seq<char>, k: nat)
    requires WordOrSpace(s) && k <= |s|
    ensures WordOrSpace(s[k..])
  {
    forall i | 0 <= i < |s[k..]|
      ensures (IsWordChar(s[k..][i]) && !IsAsciiUpper(s[k..][i])) || IsJsSpace(s[k..][i])
    {
      assert s[k..][i] == s[k + i];
    }
  }

  lemma TrimKeepsShape(s: seq<char>)
    requires AllOut(s) && NoDoubleSpace(s)
    ensures Clean(Trim(s))
  {
    var r := Trim(s);
    SliceKeepsShape(s, Lead(s), |r|);
    assert |r| > 0 ==> IsJsSpace(' ');
  }

  /** Every slice of a string of normalised characters without double
      spaces is one too. */
  lemma SliceKeepsShape(s: seq<char>, k: nat, n: nat)
    requires AllOut(s) && NoDoubleSpace(s) && k + n <= |s|
    ensures AllOut(s[k..k + n]) && NoDoubleSpace(s[k..k + n])
  {
    var t := s[k..k + n];
    forall i | 0 <= i < n ensures t[i] == s[k + i] {
    }
  }

  /** A normalised string is left unchanged by every stage. */
  lemma {:induction false} FoldClean(s: seq<char>)
    requires AllOut(s)
    ensures Fold(s) == s
    decreases |s|
  {
    if |s| > 0 {
      assert AllOut(s[1..]);
      FoldClean(s[1..]);
    }
  }

  lemma {:induction false} CollapseClean(s: seq<char>)
    requires AllOut(s) && NoDoubleSpace(s)
    ensures Collapse(s) == s
    decreases |s|
  {
    if |s| > 0 {
      SliceKeepsShape(s, 1, |s| - 1);
      assert s[1..|s|] == s[1..];
      CollapseClean(s[1..]);
      OutCharSpace(s[0]);
      if s[0] == ' ' {
        if |s| > 1 {
          assert s[1..][0] == s[1] && s[1] != ' ';
          OutCharSpace(s[1]);
        }
        assert DropSpaces(s[1..]) == s[1..];
      }
    }
  }

  /** The only whitespace a normalised string can hold is the plain space. */
  lemma OutCharSpace(c: char)
    requires IsOutChar(c)
    ensures IsJsSpace(c) <==> c == ' '
  {
  }

  /** A clean string is a fixed point of `NormalizeText`. */
  lemma CleanIsFixpoint(s: seq<char>)
    requires Clean(s)
    ensures NormalizeText(s) == s
  {
    FoldClean(s);
    assert Scrub(s) == s;
    CollapseClean(s);
    assert |s| > 0 ==> !IsJsSpace(s[0]) && !IsJsSpace(s[|s| - 1]);
    assert DropSpaces(s) == s;
  }

  /** Normalising twice is normalising once. */
  lemma NormalizeIdempotent(s: seq<char>)
    ensures NormalizeText(NormalizeText(s)) == NormalizeText(s)
  {
    CleanIsFixpoint(NormalizeText(s));
  }

  lemma {:induction false} FoldAppend(a: seq<char>, b: seq<char>)
    ensures Fold(a + b) == Fold(a) + Fold(b)
    decreases |a|
  {
    if |a| == 0 {
      assert a + b == b;
    } else {
      assert (a + b)[0] == a[0];
      assert (a + b)[1..] == a[1..] + b;
      FoldAppend(a[1..], b);
    }
  }

  /** Replacing one character by another that folds to the same text (an
      accented letter by its base letter, say) does not change the result:
      "Resolución" and "Resolucion" normalise alike. */
  lemma AccentInsensitive(a: seq<char>, c1: char, c2: char, b: seq<char>)
    requires FoldChar(c1) == FoldChar(c2)
    ensures NormalizeText(a + [c1] + b) == NormalizeText(a + [c2] + b)
  {
    FoldAppend(a + [c1], b);
    FoldAppend(a, [c1]);
    FoldAppend(a + [c2], b);
    FoldAppend(a, [c2]);
    assert Fold([c1]) == FoldChar(c1) by { assert [c1][1..] == []; }
    assert Fold([c2]) == FoldChar(c2) by { assert [c2][1..] == []; }
  }
}

=== FILE: options.dfy ===
/** Optional values, standing in for TypeScript's `undefined`/`null` fields,
    and the success/failure outcome of a call into the backend. */
module Options {

  datatype Option<+T> = None | Some(value: T) {

    /** The value, or `default` when absent (`x ?? default`, `x || default`). */
    function GetOr(default: T): T {
      match this
      case Some(v) => v
      case None => default
    }
  }

  /** The outcome of one request to the backend: `{ error }` is null or not. */
  datatype Outcome = Ok | Err
}

=== FILE: store.dfy ===
/** The part of the database the pages and components share: the permit
    catalogue `permisos`, the `documentos` table, the per-business permit
    status table `permisos_negocio` (unique on `negocio_id, permiso_id`) and
    the object paths of the `documentos` storage bucket. Every call either
    succeeds or fails as a whole; whether a call fails for reasons outside
    the data (network, permissions) is an argument of the callers. */
module Store {
  import opened Options

  /** The conflict target `negocio_id,permiso_id` of `permisos_negocio`. */
  datatype Key = Key(negocio: seq<char>, permiso: seq<char>)

  datatype PermitRow = PermitRow(
    id: seq<char>,
    negocio: seq<char>,
    permiso: seq<char>,
    estado: Option<seq<char>>,
    status: Option<seq<char>>,
    fechaEmision: Option<seq<char>>,
    fechaVencimiento: Option<seq<char>>,
    proximoPaso: Option<seq<char>>)

  /** One column of a write payload: left out (`undefined` keys are dropped
      from the request body) or given, possibly as null. */
  datatype Column = Absent | Given(value: Option<seq<char>>)

  datatype PermitPayload = PermitPayload(
    negocio: seq<char>,
    permiso: seq<char>,
    estado: Column,
    status: Column,
    fechaEmision: Column,
    fechaVencimiento: Column,
    proximoPaso: Column)

  datatype CatalogEntry = CatalogEntry(id: seq<char>, nombre: seq<char>)

  datatype Document = Document(
    id: seq<char>,
    userId: Option<seq<char>>,
    negocio: Option<seq<char>>,
    nombre: seq<char>,
    tipoArchivo: seq<char>,
    url: seq<char>,
    size: Option<int>,
    permitLabel: Option<seq<char>>,
    permisoNegocio: Option<seq<char>>)

  datatype Db = Db(
    catalog: seq<CatalogEntry>,
    documents: seq<Document>,
    permits: map<Key, PermitRow>,
    storage: set<seq<char>>)

  function KeyOf(p: PermitPayload): Key {
    Key(p.negocio, p.permiso)
  }

  /** The value a column takes when the payload is written over `current`:
      a left-out column keeps it. */
  function Merge(c: Column, current: Option<seq<char>>): (r: Option<seq<char>>)
    ensures c.Given? ==> r == c.value
    ensures c.Absent? ==> r == current
  {
    match c
    case Absent => current
    case Given(v) => v
  }

  /** `value || null` for a text field of a form: an empty field is sent
      as null, any other value as it is. */
  function OrNull(s: seq<char>): (c: Column)
    ensures c.Given?
    ensures c.value.None? <==> s == ""
    ensures c.value.Some? ==> c.value.value == s
  {
    if s == "" then Given(None) else Given(Some(s))
  }

  /** The row a payload produces over an existing row, or over nothing (the
      column defaults of a new row are taken as null). */
  function Written(p: PermitPayload, id: seq<char>, current: Option<PermitRow>): PermitRow {
    var base := current.GetOr(PermitRow(id, p.negocio, p.permiso, None, None, None, None, None));
    PermitRow(base.id, p.negocio, p.permiso,
              Merge(p.estado, base.estado), Merge(p.status, base.status),
              Merge(p.fechaEmision, base.fechaEmision), Merge(p.fechaVencimiento, base.fechaVencimiento),
              Merge(p.proximoPaso, base.proximoPaso))
  }

  function Existing(db: Db, k: Key): Option<PermitRow> {
    if k in db.permits then Some(db.permits[k]) else None
  }

  /** `upsert(payload, { onConflict: 'negocio_id,permiso_id' })`: inserts the
      row, or on a key conflict updates the given columns of the existing
      row and keeps its id; `freshId` is the id the database would assign. */
  function Upsert(db: Db, p: PermitPayload, freshId: seq<char>): (r: Db)
    ensures KeyOf(p) in r.permits
    ensures r.permits.Keys == db.permits.Keys + {KeyOf(p)}
    ensures forall k :: k in db.permits && k != KeyOf(p) ==> r.permits[k] == db.permits[k]
    ensures r.permits[KeyOf(p)].id == (if KeyOf(p) in db.permits then db.permits[KeyOf(p)].id else freshId)
    ensures KeyOf(p) in db.permits ==>
              var before := db.permits[KeyOf(p)];
              r.permits[KeyOf(p)] == before.(negocio := p.negocio, permiso := p.permiso,
                                             estado := Merge(p.estado, before.estado),
                                             status := Merge(p.status, before.status),
                                             fechaEmision := Merge(p.fechaEmision, before.fechaEmision),
                                             fechaVencimiento := Merge(p.fechaVencimiento, before.fechaVencimiento),
                                             proximoPaso := Merge(p.proximoPaso, before.proximoPaso))
    ensures KeyOf(p) !in db.permits ==>
              r.permits[KeyOf(p)] == PermitRow(freshId, p.negocio, p.permiso,
                                               Merge(p.estado, None), Merge(p.status, None),
                                               Merge(p.fechaEmision, None), Merge(p.fechaVencimiento, None),
                                               Merge(p.proximoPaso, None))
    ensures r.catalog == db.catalog && r.documents == db.documents && r.storage == db.storage
  {
    db.(permits := db.permits[KeyOf(p) := Written(p, freshId, Existing(db, KeyOf(p)))])
  }

  /** Every column of the payload is given. */
  predicate Complete(p: PermitPayload) {
    p.estado.Given? && p.status.Given? && p.fechaEmision.Given? && p.fechaVencimiento.Given? && p.proximoPaso.Given?
  }

  /** Last write wins on the conflict key: an upsert that gives every column
      erases all trace of an earlier upsert of the same pair, except the row
      id that the earlier one may have chosen. */
  lemma LastWriteWins(db: Db, p1: PermitPayload, id1: seq<char>, p2: PermitPayload, id2: seq<char>)
    requires KeyOf(p1) == KeyOf(p2) && Complete(p2)
    ensures Upsert(Upsert(db, p1, id1), p2, id2) == Upsert(db, p2, id1)
  {
    var k := KeyOf(p2);
    var twice := Upsert(Upsert(db, p1, id1), p2, id2);
    var once := Upsert(db, p2, id1);
    assert twice.permits.Keys == once.permits.Keys;
    assert twice.permits[k] == once.permits[k];
    assert twice.permits == once.permits;
  }

  /** A plain `insert`: refused by the unique index when the pair exists. */
  function Insert(db: Db, p: PermitPayload, freshId: seq<char>): (r: Option<Db>)
    ensures r.None? <==> KeyOf(p) in db.permits
    ensures r.Some? ==> r.value == Upsert(db, p, freshId)
  {
    if KeyOf(p) in db.permits then None else Some(Upsert(db, p, freshId))
  }

  /** The pairs of a batch are pairwise distinct and none exists yet. */
  predicate BatchFits(db: Db, ps: seq<PermitPayload>) {
    && (forall i :: 0 <= i < |ps| ==> KeyOf(ps[i]) !in db.permits)
    && (forall i, j :: 0 <= i < j < |ps| ==> KeyOf(ps[i]) != KeyOf(ps[j]))
  }

  /** A batch `insert` of several rows in one statement: all rows or none. */
  function InsertAll(db: Db, ps: seq<PermitPayload>, ids: seq<seq<char>>): (r: Option<Db>)
    requires |ids| == |ps|
    ensures r.Some? <==> BatchFits(db, ps)
  {
    if BatchFits(db, ps) then Some(InsertEach(db, ps, ids)) else None
  }

  function InsertEach(db: Db, ps: seq<PermitPayload>, ids: seq<seq<char>>): (r: Db)
    requires |ids| == |ps|
    ensures r.catalog == db.catalog && r.documents == db.documents && r.storage == db.storage
    decreases |ps|
  {
    if |ps| == 0 then db else InsertEach(Upsert(db, ps[0], ids[0]), ps[1..], ids[1..])
  }

  /** Inserting a batch that fits leaves every existing row as it was ... */
  lemma {:induction false} InsertEachKeeps(db: Db, ps: seq<PermitPayload>, ids: seq<seq<char>>)
    requires |ids| == |ps|
    ensures forall k :: k in db.permits ==> k in InsertEach(db, ps, ids).permits
    ensures forall k :: k in db.permits && (forall i :: 0 <= i < |ps| ==> KeyOf(ps[i]) != k) ==>
              InsertEach(db, ps, ids).permits[k] == db.permits[k]
    decreases |ps|
  {
    if |ps| > 0 {
      var next := Upsert(db, ps[0], ids[0]);
      InsertEachKeeps(next, ps[1..], ids[1..]);
      forall k | k in db.permits && (forall i :: 0 <= i < |ps| ==> KeyOf(ps[i]) != k)
        ensures InsertEach(db, ps, ids).permits[k] == db.permits[k]
      {
        assert forall i :: 0 <= i < |ps[1..]| ==> KeyOf(ps[1..][i]) == KeyOf(ps[i + 1]);
      }
    }
  }

  /** ... adds no row for a pair outside the batch ... */
  lemma {:induction false} InsertEachNoOthers(db: Db, ps: seq<PermitPayload>, ids: seq<seq<char>>)
    requires |ids| == |ps|
    ensures forall k :: k in InsertEach(db, ps, ids).permits ==>
              k in db.permits || exists i :: 0 <= i < |ps| && KeyOf(ps[i]) == k
    decreases |ps|
  {
    if |ps| > 0 {
      var next := Upsert(db, ps[0], ids[0]);
      InsertEachNoOthers(next, ps[1..], ids[1..]);
      forall k | k in InsertEach(db, ps, ids).permits && k !in db.permits && k != KeyOf(ps[0])
        ensures exists i :: 0 <= i < |ps| && KeyOf(ps[i]) == k
      {
        var j :| 0 <= j < |ps[1..]| && KeyOf(ps[1..][j]) == k;
        assert KeyOf(ps[j + 1]) == k;
      }
    }
  }

  /** ... and writes, for each payload, the row built from that payload
      alone. */
  lemma {:induction false} InsertEachNew(db: Db, ps: seq<PermitPayload>, ids: seq<seq<char>>)
    requires |ids| == |ps| && BatchFits(db, ps)
    ensures forall i :: 0 <= i < |ps| ==>
              && KeyOf(ps[i]) in InsertEach(db, ps, ids).permits
              && InsertEach(db, ps, ids).permits[KeyOf(ps[i])] == Written(ps[i], ids[i], None)
    decreases |ps|
  {
    if |ps| > 0 {
      var next := Upsert(db, ps[0], ids[0]);
      assert BatchFits(next, ps[1..]) by {
        forall i | 0 <= i < |ps[1..]| ensures KeyOf(ps[1..][i]) !in next.permits {
          assert ps[1..][i] == ps[i + 1];
        }
      }
      InsertEachNew(next, ps[1..], ids[1..]);
      InsertEachKeeps(next, ps[1..], ids[1..]);
      forall i | 0 <= i < |ps|
        ensures && KeyOf(ps[i]) in InsertEach(db, ps, ids).permits
                && InsertEach(db, ps, ids).permits[KeyOf(ps[i])] == Written(ps[i], ids[i], None)
      {
        if i > 0 {
          assert ps[i] == ps[1..][i - 1] && ids[i] == ids[1..][i - 1];
        } else {
          assert forall j :: 0 <= j < |ps[1..]| ==> KeyOf(ps[1..][j]) == KeyOf(ps[j + 1]);
        }
      }
    }
  }

  /** `.select('id').eq('nombre', name).single()`: succeeds only when
      exactly one catalogue entry has that name. */
  function LookupSingle(catalog: seq<CatalogEntry>, name: seq<char>): (r: Option<seq<char>>)
    ensures r.Some? <==> |Named(catalog, name)| == 1
    ensures r.Some? ==> exists i :: 0 <= i < |catalog| && catalog[i].nombre == name && catalog[i].id == r.value
  {
    var found := Named(catalog, name);
    if |found| == 1 then Some(found[0].id) else None
  }

  /** The entries with a given name, in catalogue order. */
  function Named(catalog: seq<CatalogEntry>, name: seq<char>): (r: seq<CatalogEntry>)
    ensures forall e :: e in r ==> e in catalog && e.nombre == name
    ensures forall i :: 0 <= i < |catalog| && catalog[i].nombre == name ==> catalog[i] in r
  {
    if |catalog| == 0 then []
    else (if catalog[0].nombre == name then [catalog[0]] else []) + Named(catalog[1..], name)
  }

  /** `documentos.insert(...)`: the new record is appended. */
  function AddDocument(db: Db, d: Document): (r: Db)
    ensures r.documents == db.documents + [d]
    ensures r.catalog == db.catalog && r.permits == db.permits && r.storage == db.storage
  {
    db.(documents := db.documents + [d])
  }

  /** The documents linked to a permit row through `permiso_negocio_id`. */
  function DocumentsOf(docs: seq<Document>, permitId: seq<char>): (r: seq<Document>)
    ensures forall d :: d in r <==> d in docs && d.permisoNegocio == Some(permitId)
  {
    if |docs| == 0 then []
    else (if docs[0].permisoNegocio == Some(permitId) then [docs[0]] else [])
         + DocumentsOf(docs[1..], permitId)
  }

  /** `documentos.delete().eq('permiso_negocio_id', id)`. */
  function DeleteDocumentsOf(docs: seq<Document>, permitId: seq<char>): (r: seq<Document>)
    ensures forall d :: d in r <==> d in docs && d.permisoNegocio != Some(permitId)
  {
    if |docs| == 0 then []
    else (if docs[0].permisoNegocio == Some(permitId) then [] else [docs[0]])
         + DeleteDocumentsOf(docs[1..], permitId)
  }

  /** `permisos_negocio.delete().eq('id', id)`. */
  function DeletePermitRow(permits: map<Key, PermitRow>, permitId: seq<char>): (r: map<Key, PermitRow>)
    ensures forall k :: k in r <==> k in permits && permits[k].id != permitId
    ensures forall k :: k in r ==> r[k] == permits[k]
  {
    map k | k in permits && permits[k].id != permitId :: permits[k]
  }
}

=== FILE: text.dfy ===
/** Character classes and the handful of JavaScript string operations the
    application relies on, written over `seq<char>`. */
module Text {
  import opened Options

  predicate IsDigit(c: char) { '0' <= c <= '9' }
  predicate IsAsciiLower(c: char) { 'a' <= c <= 'z' }
  predicate IsAsciiUpper(c: char) { 'A' <= c <= 'Z' }
  predicate IsAscii(c: char) { c < '\U{0080}' }

  /** `\w` of a JavaScript regular expression without the `u` flag: ASCII only. */
  predicate IsWordChar(c: char) {
    IsDigit(c) || IsAsciiLower(c) || IsAsciiUpper(c) || c == '_'
  }

  /** `\s` of a JavaScript regular expression (and the set `trim` removes):
      the ECMAScript WhiteSpace and LineTerminator code points. */
  predicate IsJsSpace(c: char) {
    || c == '\t' || c == '\n' || c == '\U{000B}' || c == '\U{000C}' || c == '\r'
    || c == ' ' || c == '\U{00A0}' || c == '\U{1680}'
    || ('\U{2000}' <= c <= '\U{200A}')
    || c == '\U{2028}' || c == '\U{2029}' || c == '\U{202F}' || c == '\U{205F}'
    || c == '\U{3000}' || c == '\U{FEFF}'
  }

  /** `String.prototype.toLowerCase` on one code point, for ASCII and the
      Latin-1 letters (U+00C0..U+00DE except U+00D7 map to +0x20). */
  function LowerChar(c: char): (r: char)
    ensures !IsAsciiUpper(r)
    ensures IsAscii(c) <==> IsAscii(r)
    ensures IsWordChar(c) <==> IsWordChar(r)
    ensures IsJsSpace(c) <==> IsJsSpace(r)
  {
    if IsAsciiUpper(c) then (c as int + 32) as char
    else if '\U{00C0}' <= c <= '\U{00DE}' && c != '\U{00D7}' then (c as int + 32) as char
    else c
  }

  function Lower(s: seq<char>): (r: seq<char>)
    ensures |r| == |s|
    ensures forall i :: 0 <= i < |s| ==> r[i] == LowerChar(s[i])
  {
    if |s| == 0 then [] else [LowerChar(s[0])] + Lower(s[1..])
  }

  /** `toUpperCase` on one code point, for ASCII and Latin-1 (where
      U+00DF becomes "SS", U+00FF becomes U+0178 and U+00B5 becomes U+039C). */
  function UpperChar(c: char): (r: seq<char>)
    ensures IsAscii(c) ==> |r| == 1
    ensures IsAsciiLower(c) ==> r == [(c as int - 32) as char]
    ensures IsAscii(c) && !IsAsciiLower(c) ==> r == [c]
  {
    if IsAsciiLower(c) then [(c as int - 32) as char]
    else if '\U{00E0}' <= c <= '\U{00FE}' && c != '\U{00F7}' then [(c as int - 32) as char]
    else if c == '\U{00DF}' then "SS"
    else if c == '\U{00FF}' then ['\U{0178}']
    else if c == '\U{00B5}' then ['\U{039C}']
    else [c]
  }

  /** `sub` occurs at the start of `s`. */
  predicate IsPrefix(sub: seq<char>, s: seq<char>) {
    |sub| <= |s| && s[..|sub|] == sub
  }

  /** `sub` occurs in `s` at position `i`. */
  predicate OccursAt(s: seq<char>, sub: seq<char>, i: int) {
    0 <= i && i + |sub| <= |s| && s[i..i + |sub|] == sub
  }

  /** `s.indexOf(sub)`, absent for -1: the first position where `sub` occurs. */
  function IndexOf(s: seq<char>, sub: seq<char>): (r: Option<nat>)
    ensures r.Some? ==> OccursAt(s, sub, r.value)
    ensures r.Some? ==> forall j :: 0 <= j < r.value ==> !OccursAt(s, sub, j)
    ensures r.None? ==> forall j :: !OccursAt(s, sub, j)
  {
    IndexFrom(s, sub, 0)
  }

  function IndexFrom(s: seq<char>, sub: seq<char>, i: nat): (r: Option<nat>)
    requires i <= |s|
    requires forall j :: 0 <= j < i ==> !OccursAt(s, sub, j)
    ensures r.Some? ==> i <= r.value && OccursAt(s, sub, r.value)
    ensures r.Some? ==> forall j :: 0 <= j < r.value ==> !OccursAt(s, sub, j)
    ensures r.None? ==> forall j :: !OccursAt(s, sub, j)
    decreases |s| - i
  {
    if i + |sub| > |s| then None
    else if s[i..i + |sub|] == sub then Some(i)
    else IndexFrom(s, sub, i + 1)
  }

  /** `s.includes(sub)`. */
  predicate Contains(s: seq<char>, sub: seq<char>) {
    IndexOf(s, sub).Some?
  }

  function Clamp(x: int, n: nat): (r: nat)
    ensures r <= n
    ensures 0 <= x <= n ==> r == x
  {
    if x < 0 then 0 else if x > n then n else x
  }

  /** `s.substring(a, b)`: both ends clamped into `[0, |s|]`, then swapped
      when the first exceeds the second. */
  function JsSubstring(s: seq<char>, a: int, b: int): (r: seq<char>)
    ensures 0 <= a <= b <= |s| ==> r == s[a..b]
    ensures |r| <= |s|
  {
    var x := Clamp(a, |s|);
    var y := Clamp(b, |s|);
    if x <= y then s[x..y] else s[y..x]
  }

  /** `s.split(sep).pop()`: what follows the last `sep`, or all of `s`. */
  function LastSegment(s: seq<char>, sep: char): (r: seq<char>)
    ensures sep !in r
    ensures |r| <= |s| && r == s[|s| - |r|..]
    ensures |r| < |s| ==> s[|s| - |r| - 1] == sep
    ensures sep !in s ==> r == s
  {
    if |s| == 0 then []
    else if s[|s| - 1] == sep then []
    else LastSegment(s[..|s| - 1], sep) + [s[|s| - 1]]
  }

  /** `s.split(sep)[0]`: what precedes the first `sep`, or all of `s`. */
  function FirstSegment(s: seq<char>, sep: char): (r: seq<char>)
    ensures sep !in r
    ensures IsPrefix(r, s)
    ensures |r| < |s| ==> s[|r|] == sep
  {
    if |s| == 0 then []
    else if s[0] == sep then []
    else [s[0]] + FirstSegment(s[1..], sep)
  }

  /** The last segment of a joined string is the part after the join
      when that part holds no separator. */
  lemma {:induction false} LastSegmentOfJoin(a: seq<char>, sep: char, b: seq<char>)
    requires sep !in b
    ensures LastSegment(a + [sep] + b, sep) == b
    decreases |b|
  {
    var s := a + [sep] + b;
    if |b| == 0 {
      assert s[|s| - 1] == sep;
    } else {
      var init := b[..|b| - 1];
      assert s[|s| - 1] == b[|b| - 1] && b[|b| - 1] in b;
      assert s[..|s| - 1] == a + [sep] + init;
      LastSegmentOfJoin(a, sep, init);
      assert b == init + [b[|b| - 1]];
    }
  }

  /** Cutting a joined string at its first separator gives back the part
      before the join. */
  lemma {:induction false} FirstSegmentOfJoin(a: seq<char>, sep: char, b: seq<char>)
    requires sep !in a
    ensures FirstSegment(a + [sep] + b, sep) == a
    decreases |a|
  {
    if |a| > 0 {
      assert (a + [sep] + b)[1..] == a[1..] + [sep] + b;
      FirstSegmentOfJoin(a[1..], sep, b);
    }
  }

  /** `s.replace(from, to)` with a one-character string pattern: only the
      first occurrence is replaced. */
  function ReplaceFirst(s: seq<char>, from: char, to: char): (r: seq<char>)
    ensures |r| == |s|
    ensures forall i :: 0 <= i < |s| ==>
              r[i] == (if s[i] == from && from !in s[..i] then to else s[i])
  {
    if |s| == 0 then []
    else if s[0] == from then [to] + s[1..]
    else
      var rest := ReplaceFirst(s[1..], from, to);
      assert forall i :: 1 <= i < |s| ==> s[..i] == [s[0]] + s[1..][..i - 1];
      [s[0]] + rest
  }

  predicate OnlyDigits(s: seq<char>) {
    forall i :: 0 <= i < |s| ==> IsDigit(s[i])
  }

  /** The number a string of decimal digits denotes. */
  function DigitsValue(s: seq<char>): nat
    requires OnlyDigits(s)
  {
    if |s| == 0 then 0 else DigitsValue(s[..|s| - 1]) * 10 + (s[|s| - 1] as int - '0' as int)
  }

  /** The decimal digits of `n`, as `String(n)` prints a non-negative integer. */
  function DecimalString(n: nat): (r: seq<char>)
    ensures |r| >= 1 && OnlyDigits(r)
    ensures |r| > 1 ==> r[0] != '0'
  {
    if n < 10 then [('0' as int + n) as char]
    else DecimalString(n / 10) + [('0' as int + n % 10) as char]
  }

  /** Printing a number in decimal and reading it back gives the number. */
  lemma {:induction false} DecimalStringValue(n: nat)
    ensures DigitsValue(DecimalString(n)) == n
    decreases n
  {
    if n >= 10 {
      var r := DecimalString(n);
      assert r[..|r| - 1] == DecimalString(n / 10);
      DecimalStringValue(n / 10);
    }
  }

  /** A number below `10^k` (here `bound`) has at most `k` decimal digits. */
  lemma {:induction false} DecimalStringLength(n: nat, k: nat, bound: nat)
    requires 1 <= k && bound == Pow10(k) && n < bound
    ensures |DecimalString(n)| <= k
    decreases k
  {
    if n >= 10 {
      assert Pow10(1) == 10;
      DecimalStringLength(n / 10, k - 1, Pow10(k - 1));
    }
  }

  function Pow10(k: nat): nat {
    if k == 0 then 1 else 10 * Pow10(k - 1)
  }

  /** `s` left-padded with '0' to at least `width` characters, as
      `padStart(width, '0')` does. */
  function PadZeros(s: seq<char>, width: nat): (r: seq<char>)
    ensures |r| == if |s| < width then width else |s|
    ensures r == Zeros(|r| - |s|) + s
  {
    if |s| < width then Zeros(width - |s|) + s else Zeros(0) + s
  }

  function Zeros(k: nat): (r: seq<char>)
    ensures |r| == k && OnlyDigits(r)
    ensures forall i :: 0 <= i < k ==> r[i] == '0'
  {
    if k == 0 then [] else ['0'] + Zeros(k - 1)
  }

  /** A number below `10^k` padded to `k` digits is `k` digits long and
      reads back as the number. */
  lemma PaddedDecimal(n: nat, k: nat)
    requires 1 <= k && n < Pow10(k)
    ensures |PadZeros(DecimalString(n), k)| == k && OnlyDigits(PadZeros(DecimalString(n), k))
    ensures DigitsValue(PadZeros(DecimalString(n), k)) == n
  {
    var s := DecimalString(n);
    DecimalStringLength(n, k, Pow10(k));
    DecimalStringValue(n);
    ZerosValue(k - |s|, s);
    assert PadZeros(s, k) == Zeros(k - |s|) + s;
  }

  /** Leading zeros do not change the value of a digit string. */
  lemma {:induction false} ZerosValue(k: nat, s: seq<char>)
    requires OnlyDigits(s)
    ensures DigitsValue(Zeros(k) + s) == DigitsValue(s)
    decreases |s|, k
  {
    if |s| == 0 {
      assert Zeros(k) + s == Zeros(k);
      if k > 0 {
        assert Zeros(k)[..k - 1] == Zeros(k - 1);
        ZerosValue(k - 1, []);
        assert Zeros(k - 1) + [] == Zeros(k - 1);
      }
    } else {
      var t := Zeros(k) + s;
      assert t[..|t| - 1] == Zeros(k) + s[..|s| - 1];
      ZerosValue(k, s[..|s| - 1]);
    }
  }
}

=== FILE: uploader.dfy ===
/** The per-session list of uploaded files of `PermitUploader` and the
    operations on it: drop, upload, recognition, removal and confirmation.
    Every state change replaces the items with a given id and leaves the
    others alone. Recognition (the OCR engine), the storage service, the
    clock, the random name part and the date formatter are arguments. */
module Uploader {
  import opened Options
  import opened Text
  import opened Calendar
  import opened Store
  import DetectPermit
  import ExtractDates
  import ClassifyDates

  datatype Status = Uploading | Processing | Detected | Confirmed | Failed

  /** What the browser says about a dropped file. */
  datatype FileInfo = FileInfo(name: seq<char>, mime: seq<char>, size: nat)

  /** A permit type with its dates, as detected or as chosen in the editor. */
  datatype PermitInfo = PermitInfo(code: seq<char>, name: seq<char>, issue: Option<ValidDate>, expiry: Option<ValidDate>)

  datatype Recognized = Recognized(info: PermitInfo, confidence: real)

  datatype Item = Item(
    id: seq<char>,
    file: FileInfo,
    url: Option<seq<char>>,
    status: Status,
    progress: int,
    detected: Option<Recognized>,
    error: Option<seq<char>>)

  const NotDetectedMessage: seq<char> := "No se pudo detectar el tipo de permiso"
  const ProcessingMessage: seq<char> := "Error procesando el archivo"
  const UploadMessage: seq<char> := "Error subiendo el archivo"
  const ConfirmedStep: seq<char> := "Documento subido y aprobado"

  /** `prev.map(f => f.id === id ? change(f) : f)`. */
  function UpdateWhere(files: seq<Item>, id: seq<char>, change: Item -> Item): (r: seq<Item>)
    ensures |r| == |files|
    ensures forall i :: 0 <= i < |files| ==> r[i] == (if files[i].id == id then change(files[i]) else files[i])
  {
    if |files| == 0 then []
    else [if files[0].id == id then change(files[0]) else files[0]] + UpdateWhere(files[1..], id, change)
  }

  predicate HasId(files: seq<Item>, id: seq<char>) {
    exists i :: 0 <= i < |files| && files[i].id == id
  }

  /** An update for an id no item carries leaves the list as it was. */
  lemma UnknownIdUnchanged(files: seq<Item>, id: seq<char>, change: Item -> Item)
    requires !HasId(files, id)
    ensures UpdateWhere(files, id, change) == files
  {
  }

  /** The id of every item survives an update that keeps ids. */
  lemma UpdateKeepsIds(files: seq<Item>, id: seq<char>, change: Item -> Item)
    requires forall x :: change(x).id == x.id
    ensures forall i :: 0 <= i < |files| ==> UpdateWhere(files, id, change)[i].id == files[i].id
  {
  }

  /** `onDrop`: one new item per accepted file, appended in order, each
      uploading with progress 0; `ids` are the random ids drawn for them. */
  function Drop(files: seq<Item>, accepted: seq<FileInfo>, ids: seq<seq<char>>): (r: seq<Item>)
    requires |ids| == |accepted|
    ensures |r| == |files| + |accepted| && r[..|files|] == files
    ensures forall j :: 0 <= j < |accepted| ==>
              r[|files| + j] == Item(ids[j], accepted[j], None, Uploading, 0, None, None)
  {
    files + NewItems(accepted, ids)
  }

  function NewItems(accepted: seq<FileInfo>, ids: seq<seq<char>>): (r: seq<Item>)
    requires |ids| == |accepted|
    ensures |r| == |accepted|
    ensures forall j :: 0 <= j < |accepted| ==> r[j] == Item(ids[j], accepted[j], None, Uploading, 0, None, None)
  {
    if |accepted| == 0 then []
    else [Item(ids[0], accepted[0], None, Uploading, 0, None, None)] + NewItems(accepted[1..], ids[1..])
  }

  /** `removeFile`: `prev.filter(f => f.id !== id)`. */
  function Remove(files: seq<Item>, id: seq<char>): (r: seq<Item>)
    ensures forall x :: x in r <==> x in files && x.id != id
    ensures |r| <= |files|
  {
    if |files| == 0 then []
    else (if files[0].id == id then [] else [files[0]]) + Remove(files[1..], id)
  }

  /** Removal distributes over concatenation ... */
  lemma {:induction false} RemoveAppend(a: seq<Item>, b: seq<Item>, id: seq<char>)
    ensures Remove(a + b, id) == Remove(a, id) + Remove(b, id)
    decreases |a|
  {
    if |a| == 0 {
      assert a + b == b;
    } else {
      var head := if a[0].id == id then [] else [a[0]];
      assert (a + b)[0] == a[0];
      assert (a + b)[1..] == a[1..] + b;
      RemoveAppend(a[1..], b, id);
      assert Remove(a + b, id) == head + Remove(a[1..] + b, id);
    }
  }

  /** ... so it keeps the order of the remaining items: it is the list
      with exactly the matching items taken out. */
  lemma RemoveKeepsOrder(files: seq<Item>, id: seq<char>, i: nat)
    requires i <= |files|
    ensures Remove(files, id) == Remove(files[..i], id) + Remove(files[i..], id)
  {
    assert files == files[..i] + files[i..];
    RemoveAppend(files[..i], files[i..], id);
  }

  /** Removing an id that no item carries keeps the list. */
  lemma {:induction false} RemoveUnknown(files: seq<Item>, id: seq<char>)
    requires !HasId(files, id)
    ensures Remove(files, id) == files
    decreases |files|
  {
    if |files| > 0 {
      assert !HasId(files[1..], id) by {
        forall i | 0 <= i < |files[1..]| ensures files[1..][i].id != id {
          assert files[1..][i] == files[i + 1];
        }
      }
      RemoveUnknown(files[1..], id);
    }
  }

  /** `Math.round(30 + progress * 50)` for the recogniser's progress in [0, 1]:
      `Math.round(x)` is `floor(x + 0.5)`. */
  function OcrProgressValue(p: real): (r: int)
    ensures 0.0 <= p <= 1.0 ==> 30 <= r <= 80
    ensures p == 0.0 ==> r == 30
    ensures p == 1.0 ==> r == 80
  {
    (30.0 + p * 50.0 + 0.5).Floor
  }

  /** The recognition progress is non-decreasing in the recogniser's. */
  lemma OcrProgressMonotone(p: real, q: real)
    requires p <= q
    ensures OcrProgressValue(p) <= OcrProgressValue(q)
  {
  }

  function WithProgress(x: Item, progress: int): Item { x.(progress := progress) }

  function StartProcessing(x: Item): Item { x.(status := Processing, progress := 30) }

  /** What recognition of `text` makes of an item: the detected type with
      the classified dates, or the not-detected error. `table` is the
      detector's mapping table, `DetectPermit.PermitMappings` in the
      application. */
  function Recognize(x: Item, table: seq<DetectPermit.Mapping>, text: seq<char>, format: ValidDate -> seq<char>): (r: Item)
    requires DetectPermit.WellFormed(table)
    ensures r.id == x.id && r.file == x.file && r.url == x.url && r.progress == 100
    ensures r.status == Detected <==> DetectPermit.DetectIn(table, text).Some?
    ensures r.status != Detected ==> r.status == Failed && r.detected.None? && r.error == Some(NotDetectedMessage)
    ensures r.status == Detected ==> r.detected.Some? && r.error.None?
  {
    match DetectPermit.DetectIn(table, text)
    case None => x.(status := Failed, progress := 100, detected := None, error := Some(NotDetectedMessage))
    case Some(d) =>
      var roles := ClassifyDates.Classify(text, ExtractDates.Extract(text), format);
      x.(status := Detected, progress := 100,
         detected := Some(Recognized(PermitInfo(d.code, d.name, roles.issue, roles.expiry), d.confidence)),
         error := None)
  }

  /** A detected item carries the detector's type, name and confidence and
      the dates the classifier picks from the same text. */
  lemma RecognizeDetected(x: Item, table: seq<DetectPermit.Mapping>, text: seq<char>, format: ValidDate -> seq<char>)
    requires DetectPermit.WellFormed(table) && DetectPermit.DetectIn(table, text).Some?
    ensures var d := DetectPermit.DetectIn(table, text).value;
            var roles := ClassifyDates.Classify(text, ExtractDates.Extract(text), format);
            Recognize(x, table, text, format).detected
              == Some(Recognized(PermitInfo(d.code, d.name, roles.issue, roles.expiry), d.confidence))
  {
  }

  function Fail(x: Item, message: seq<char>): Item {
    x.(status := Failed, progress := 100, error := Some(message))
  }

  /** The name part of the storage path: time stamp, random part and the
      text after the last '.' of the file name (all of it without a '.'). */
  function StoredName(now: nat, random: seq<char>, fileName: seq<char>): seq<char> {
    DecimalString(now) + "_" + random + "." + LastSegment(fileName, '.')
  }

  /** The stored name keeps the file's extension. */
  lemma StoredNameExtension(now: nat, random: seq<char>, fileName: seq<char>)
    ensures LastSegment(StoredName(now, random, fileName), '.') == LastSegment(fileName, '.')
  {
    var stamp := DecimalString(now);
    var ext := LastSegment(fileName, '.');
    assert StoredName(now, random, fileName) == (stamp + "_" + random) + ['.'] + ext;
    LastSegmentOfJoin(stamp + "_" + random, '.', ext);
  }

  /** The stored name starts with the time stamp in decimal, which reads
      back as the time (`Text.DecimalStringValue`), followed by `_`. */
  lemma StoredNameStamp(now: nat, random: seq<char>, fileName: seq<char>)
    ensures var r, stamp := StoredName(now, random, fileName), DecimalString(now);
            |r| > |stamp| && r[..|stamp|] == stamp && r[|stamp|] == '_'
  {
    var stamp := DecimalString(now);
    var rest := "_" + random + "." + LastSegment(fileName, '.');
    assert StoredName(now, random, fileName) == stamp + rest;
    assert (stamp + rest)[..|stamp|] == stamp;
  }

  /** `docs/{businessId}/{name}`. */
  function UploadPath(businessId: seq<char>, name: seq<char>): seq<char> {
    "docs/" + businessId + "/" + name
  }

  /** The business and the name can be read back from an upload path: the
      folder after `docs/` when the business id holds no `/`, the last
      segment when the name holds none. */
  lemma UploadPathParts(businessId: seq<char>, name: seq<char>)
    ensures var r := UploadPath(businessId, name);
            && |r| > 5 && r[..5] == "docs/"
            && ('/' !in businessId ==> FirstSegment(r[5..], '/') == businessId)
            && ('/' !in name ==> LastSegment(r, '/') == name)
  {
    var r := UploadPath(businessId, name);
    assert r[5..] == businessId + ['/'] + name;
    if '/' !in businessId {
      FirstSegmentOfJoin(businessId, '/', name);
    }
    assert r == ("docs/" + businessId) + ['/'] + name;
    if '/' !in name {
      LastSegmentOfJoin("docs/" + businessId, '/', name);
    }
  }

  /** The public URL of a stored object: a base followed by '/' and the path
      (the only thing assumed about `getPublicUrl`). */
  function PublicUrl(base: seq<char>, path: seq<char>): seq<char> {
    base + "/" + path
  }

  /** The public URL ends in the path, behind a `/`. */
  lemma PublicUrlEndsInPath(base: seq<char>, path: seq<char>)
    ensures var r := PublicUrl(base, path);
            |r| > |path| && r[|r| - |path| - 1] == '/' && r[|r| - |path|..] == path
  {
  }

  /** What an upload can meet in the outside world. */
  datatype Environment = Environment(
    now: nat,
    random: seq<char>,
    urlBase: seq<char>,
    storageOk: bool,
    recognized: Option<seq<char>>,
    table: seq<DetectPermit.Mapping>,
    format: ValidDate -> seq<char>)

  /** The list and the storage after `uploadFile` of one item, through to the
      end of recognition: the storage upload either fails (upload error) or
      stores the path and records its URL; recognition then either fails
      (processing error) or yields a text that `Recognize` reads. */
  function UploadFile(files: seq<Item>, storage: set<seq<char>>, id: seq<char>, businessId: seq<char>,
                      file: FileInfo, env: Environment): (r: (seq<Item>, set<seq<char>>))
    requires DetectPermit.WellFormed(env.table)
    ensures |r.0| == |files|
    ensures storage <= r.1
    ensures forall q :: q in r.1 && q !in storage ==> q == UploadPath(businessId, StoredName(env.now, env.random, file.name))
    ensures !env.storageOk ==> r.1 == storage
  {
    var path := UploadPath(businessId, StoredName(env.now, env.random, file.name));
    var started := UpdateWhere(files, id, x => WithProgress(x, 10));
    if !env.storageOk then (UpdateWhere(started, id, x => Fail(x, UploadMessage)), storage)
    else
      var url := PublicUrl(env.urlBase, path);
      var stored := UpdateWhere(started, id, (x: Item) => x.(url := Some(url), progress := 20));
      var processing := UpdateWhere(stored, id, StartProcessing);
      match env.recognized
      case None => (UpdateWhere(processing, id, x => Fail(x, ProcessingMessage)), storage + {path})
      case Some(text) => (UpdateWhere(processing, id, x => Recognize(x, env.table, text, env.format)), storage + {path})
  }

  /** Whatever happens, an upload changes only the items with its id. */
  lemma UploadFileOthers(files: seq<Item>, storage: set<seq<char>>, id: seq<char>, businessId: seq<char>,
                         file: FileInfo, env: Environment)
    requires DetectPermit.WellFormed(env.table)
    ensures var r := UploadFile(files, storage, id, businessId, file, env).0;
            |r| == |files| && forall i :: 0 <= i < |files| && files[i].id != id ==> r[i] == files[i]
  {
    var path := UploadPath(businessId, StoredName(env.now, env.random, file.name));
    var url := PublicUrl(env.urlBase, path);
    var started := UpdateWhere(files, id, x => WithProgress(x, 10));
    var stored := UpdateWhere(started, id, (x: Item) => x.(url := Some(url), progress := 20));
    var processing := UpdateWhere(stored, id, StartProcessing);
    var r := UploadFile(files, storage, id, businessId, file, env).0;
    forall i | 0 <= i < |files| && files[i].id != id ensures r[i] == files[i] {
      assert started[i] == files[i];
      if env.storageOk {
        assert stored[i] == files[i] && processing[i] == files[i];
      }
    }
  }

  /** A failed storage upload leaves the storage alone and marks the item
      with the upload error. */
  lemma UploadFileRefused(files: seq<Item>, storage: set<seq<char>>, id: seq<char>, businessId: seq<char>,
                          file: FileInfo, env: Environment)
    requires DetectPermit.WellFormed(env.table) && !env.storageOk
    ensures var (r, s) := UploadFile(files, storage, id, businessId, file, env);
            && s == storage
            && forall i :: 0 <= i < |files| && files[i].id == id ==>
                 r[i].status == Failed && r[i].error == Some(UploadMessage) && r[i].progress == 100
  {
  }

  /** A stored upload adds its path to the storage; the item's URL ends in
      that path, and the item ends detected, not detected, or with the
      processing error. */
  lemma UploadFileStored(files: seq<Item>, storage: set<seq<char>>, id: seq<char>, businessId: seq<char>,
                         file: FileInfo, env: Environment)
    requires DetectPermit.WellFormed(env.table) && env.storageOk
    ensures var (r, s) := UploadFile(files, storage, id, businessId, file, env);
            var path := UploadPath(businessId, StoredName(env.now, env.random, file.name));
            && s == storage + {path}
            && forall i :: 0 <= i < |files| && files[i].id == id ==>
                 && r[i].url == Some(PublicUrl(env.urlBase, path))
                 && r[i].progress == 100
                 && (env.recognized.None? ==> r[i].status == Failed && r[i].error == Some(ProcessingMessage))
                 && (env.recognized.Some? ==>
                       (r[i].status == Detected <==> DetectPermit.DetectIn(env.table, env.recognized.value).Some?))
  {
    var path := UploadPath(businessId, StoredName(env.now, env.random, file.name));
    var url := PublicUrl(env.urlBase, path);
    var started := UpdateWhere(files, id, x => WithProgress(x, 10));
    var stored := UpdateWhere(started, id, (x: Item) => x.(url := Some(url), progress := 20));
    var processing := UpdateWhere(stored, id, StartProcessing);
    var r := UploadFile(files, storage, id, businessId, file, env).0;
    forall i | 0 <= i < |files| && files[i].id == id
      ensures && r[i].url == Some(url)
              && r[i].progress == 100
              && (env.recognized.None? ==> r[i].status == Failed && r[i].error == Some(ProcessingMessage))
              && (env.recognized.Some? ==>
                    (r[i].status == Detected <==> DetectPermit.DetectIn(env.table, env.recognized.value).Some?))
    {
      assert started[i] == WithProgress(files[i], 10);
      assert stored[i] == started[i].(url := Some(url), progress := 20);
      assert processing[i] == StartProcessing(stored[i]);
      if env.recognized.None? {
        assert r[i] == Fail(processing[i], ProcessingMessage);
      } else {
        assert r[i] == Recognize(processing[i], env.table, env.recognized.value, env.format);
      }
    }
  }

  /** `uploadedFiles.find(f => f.id === id)`: the first item with the id. */
  function Find(files: seq<Item>, id: seq<char>): (r: Option<Item>)
    ensures r.Some? ==> r.value in files && r.value.id == id
    ensures r.None? <==> !HasId(files, id)
  {
    if |files| == 0 then None
    else if files[0].id == id then Some(files[0])
    else
      var r := Find(files[1..], id);
      assert forall i :: 1 <= i < |files| ==> files[i] == files[1..][i - 1];
      r
  }

  /** A date column of the confirmation: an absent date is left out of the
      payload, a present one is written as its ISO day. */
  function DateColumn(d: Option<ValidDate>): (c: Column)
    ensures d.None? <==> c.Absent?
    ensures d.Some? ==> c == Given(Some(IsoDay(d.value)))
  {
    if d.None? then Absent else Given(Some(IsoDay(d.value)))
  }

  /** The status row payload of a confirmation. */
  function ConfirmPayload(businessId: seq<char>, permisoId: seq<char>, info: PermitInfo): (p: PermitPayload)
    ensures KeyOf(p) == Key(businessId, permisoId)
    ensures Complete(p) <==> info.issue.Some? && info.expiry.Some?
    ensures p.fechaEmision != Given(None) && p.fechaVencimiento != Given(None)
  {
    PermitPayload(businessId, permisoId, Given(Some("aprobado")), Given(Some("approved")),
                  DateColumn(info.issue), DateColumn(info.expiry), Given(Some(ConfirmedStep)))
  }

  /** Which of the three calls of a confirmation succeed, besides what the
      data decides. */
  datatype Calls = Calls(lookupOk: bool, documentOk: bool, upsertOk: bool)

  /** The permit a confirmation acts on: the editor's choice when one is
      given (it replaces the detection wholesale), else the detection. */
  function Chosen(x: Item, choice: Option<PermitInfo>): (r: Option<PermitInfo>)
    ensures choice.Some? ==> r == choice
    ensures choice.None? ==> (r.Some? <==> x.detected.Some?)
  {
    if choice.Some? then choice
    else if x.detected.Some? then Some(x.detected.value.info)
    else None
  }

  datatype Session = Session(files: seq<Item>, db: Db)

  /** What the data of a confirmation must provide, whatever the calls do:
      the item is in the list with a URL, a permit is chosen, and its code
      (`type`) is the `nombre` of exactly one catalogue entry. */
  predicate Ready(s: Session, id: seq<char>, choice: Option<PermitInfo>) {
    && Find(s.files, id).Some?
    && Find(s.files, id).value.url.Some?
    && Chosen(Find(s.files, id).value, choice).Some?
    && LookupSingle(s.db.catalog, Chosen(Find(s.files, id).value, choice).value.code).Some?
  }

  /** `confirmPermit`: look the permit type up in the catalogue, record the
      document (without linking it to a status row), then upsert the status
      row as approved; only when all three succeed is the item confirmed. A
      failed upsert leaves the document recorded. */
  function Confirm(s: Session, id: seq<char>, choice: Option<PermitInfo>, businessId: seq<char>,
                   user: Option<seq<char>>, documentId: seq<char>, rowId: seq<char>, calls: Calls): (r: Session)
    ensures r.db.catalog == s.db.catalog && r.db.storage == s.db.storage
    ensures |r.files| == |s.files|
    ensures || r.db.documents == s.db.documents
            || (&& calls.lookupOk && calls.documentOk
                && |r.db.documents| == |s.db.documents| + 1 && r.db.documents[..|s.db.documents|] == s.db.documents)
    ensures !calls.upsertOk ==> r.files == s.files && r.db.permits == s.db.permits
    ensures !(Ready(s, id, choice) && calls.lookupOk && calls.documentOk) ==> r == s
    ensures Ready(s, id, choice) && calls.lookupOk && calls.documentOk ==>
              |r.db.documents| == |s.db.documents| + 1 && r.db.documents[|s.db.documents|].permisoNegocio.None?
    ensures Ready(s, id, choice) && calls == Calls(true, true, true) ==>
              forall i :: 0 <= i < |s.files| && s.files[i].id == id ==> r.files[i].status == Confirmed
  {
    match Find(s.files, id)
    case None => s
    case Some(x) =>
      if x.url.None? then s
      else match Chosen(x, choice)
        case None => s
        case Some(info) =>
          var permiso := LookupSingle(s.db.catalog, info.code);
          if !calls.lookupOk || permiso.None? || !calls.documentOk then s
          else
            var doc := Document(documentId, user, Some(businessId), x.file.name, x.file.mime, x.url.value,
                                Some(x.file.size), Some(info.name), None);
            var withDoc := AddDocument(s.db, doc);
            if !calls.upsertOk then Session(s.files, withDoc)
            else Session(UpdateWhere(s.files, id, (y: Item) => y.(status := Confirmed)),
                         Upsert(withDoc, ConfirmPayload(businessId, permiso.value, info), rowId))
  }

  /** A confirmation does nothing when the item is missing, has no URL, or
      has neither a choice nor a detection. */
  lemma ConfirmNoop(s: Session, id: seq<char>, choice: Option<PermitInfo>, businessId: seq<char>,
                    user: Option<seq<char>>, documentId: seq<char>, rowId: seq<char>, calls: Calls)
    requires || !HasId(s.files, id)
             || Find(s.files, id).value.url.None?
             || (choice.None? && Find(s.files, id).value.detected.None?)
    ensures Confirm(s, id, choice, businessId, user, documentId, rowId, calls) == s
  {
  }

  /** The list changes only when every call succeeds, and then exactly the
      items with the id become confirmed; the status row of the business and
      the catalogue entry named by the chosen code is approved, with the
      chosen dates, and the recorded document carries no status row link. */
  lemma ConfirmOutcome(s: Session, id: seq<char>, choice: Option<PermitInfo>, businessId: seq<char>,
                       user: Option<seq<char>>, documentId: seq<char>, rowId: seq<char>, calls: Calls)
    ensures var r := Confirm(s, id, choice, businessId, user, documentId, rowId, calls);
            && |r.files| == |s.files|
            && (forall i :: 0 <= i < |s.files| && s.files[i].id != id ==> r.files[i] == s.files[i])
            && (r.files != s.files ==>
                  && calls.lookupOk && calls.documentOk && calls.upsertOk
                  && Find(s.files, id).Some?
                  && var x := Find(s.files, id).value;
                     var info := Chosen(x, choice).value;
                     var permiso := LookupSingle(s.db.catalog, info.code);
                     && permiso.Some?
                     && (forall i :: 0 <= i < |s.files| && s.files[i].id == id ==> r.files[i].status == Confirmed)
                     && Key(businessId, permiso.value) in r.db.permits
                     && var row := r.db.permits[Key(businessId, permiso.value)];
                        && row.estado == Some("aprobado") && row.status == Some("approved")
                        && row.proximoPaso == Some(ConfirmedStep)
                        && (info.issue.Some? ==> row.fechaEmision == Some(IsoDay(info.issue.value)))
                        && (info.expiry.Some? ==> row.fechaVencimiento == Some(IsoDay(info.expiry.value))))
            && (forall d :: d in r.db.documents && d !in s.db.documents ==> d.permisoNegocio.None?)
  {
  }

  /** When the data is ready and all three calls succeed, the confirmation
      takes effect in full: the items with the id are confirmed and nothing
      else in the list changes, the document is recorded with the file's
      details and the permit's label but without a status row link, and the
      status row of the business and the catalogue entry becomes approved
      with the confirmation step and the chosen dates, an absent date
      keeping the row's current one; every other row stays. */
  lemma ConfirmSucceeds(s: Session, id: seq<char>, choice: Option<PermitInfo>, businessId: seq<char>,
                        user: Option<seq<char>>, documentId: seq<char>, rowId: seq<char>)
    requires Ready(s, id, choice)
    ensures var r := Confirm(s, id, choice, businessId, user, documentId, rowId, Calls(true, true, true));
            var x := Find(s.files, id).value;
            var info := Chosen(x, choice).value;
            var key := Key(businessId, LookupSingle(s.db.catalog, info.code).value);
            && |r.files| == |s.files|
            && (forall i :: 0 <= i < |s.files| ==>
                  r.files[i] == if s.files[i].id == id then s.files[i].(status := Confirmed) else s.files[i])
            && r.db.documents == s.db.documents + [Document(documentId, user, Some(businessId), x.file.name,
                                                          x.file.mime, x.url.value, Some(x.file.size),
                                                          Some(info.name), None)]
            && r.db.catalog == s.db.catalog && r.db.storage == s.db.storage
            && r.db.permits.Keys == s.db.permits.Keys + {key}
            && (forall k :: k in s.db.permits && k != key ==> r.db.permits[k] == s.db.permits[k])
            && var row := r.db.permits[key];
               && row.estado == Some("aprobado") && row.status == Some("approved")
               && row.proximoPaso == Some(ConfirmedStep)
               && row.fechaEmision == (if info.issue.Some? then Some(IsoDay(info.issue.value))
                                       else if key in s.db.permits then s.db.permits[key].fechaEmision else None)
               && row.fechaVencimiento == (if info.expiry.Some? then Some(IsoDay(info.expiry.value))
                                           else if key in s.db.permits then s.db.permits[key].fechaVencimiento else None)
  {
  }

  /** `handleModalConfirm`: confirm the item being edited with the editor's
      choice; with no item being edited nothing happens. */
  function ModalConfirm(s: Session, editing: Option<seq<char>>, choice: PermitInfo, businessId: seq<char>,
                        user: Option<seq<char>>, documentId: seq<char>, rowId: seq<char>, calls: Calls): (r: Session)
    ensures editing.None? ==> r == s
  {
    if editing.None? then s
    else Confirm(s, editing.value, Some(choice), businessId, user, documentId, rowId, calls)
  }

  /** `handleModalDelete`: remove the item being edited. */
  function ModalDelete(files: seq<Item>, editing: Option<seq<char>>): (r: seq<Item>)
    ensures editing.None? ==> r == files
    ensures editing.Some? ==> forall x :: x in r <==> x in files && x.id != editing.value
  {
    if editing.None? then files else Remove(files, editing.value)
  }
}
